=== FILE: README.md ===
# ChantierPro core, modelled in Dafny

ChantierPro tracks construction sites. Projects hold villas, villas hold work categories
(masonry, plumbing, …), categories hold tasks, and tasks are done by teams.

This project models the five pieces of logic that decide what the application stores and shows:

1. **Backend services and queries.** The Spring services `TaskService`, `CategoryService` and
   `TeamService` run over a database. That database is modelled as maps from id to record plus
   auto-increment counters (`Entities.Store`).
   - Each service call is a pure transition. It either fails with the service's not-found error,
     leaving the database unchanged as the transaction's rollback does, or returns the new database.
   - The derived and JPQL queries of `TaskRepository` and `CategoryRepository` are scans in key order
     (`Repository.Scan`) and counts (`Repository.CountRows`).
   - Both are proved against a reference set of matching rows (`Repository.Matching`).
2. **The tree-view dashboard** (`Dashboard`). It covers:
   - building a task from the task form, with its planned and actual dates;
   - reopening a task in that form;
   - the client's own progress-to-status rule;
   - the per-category task and team lists;
   - team assignment, which creates a placeholder task;
   - category creation.
3. **The template editor** (`Templates`). It covers:
   - validation and the team and task totals;
   - index-based editing of the nested category → team → task lists;
   - submit, duplicate and search;
   - the edit round trip.
4. **The teams manager** (`TeamsManager`). It covers:
   - search, the performance and activity badges, and the team cards and statistics;
   - the team edit form;
   - the task records `handleCreateTeam` builds from a new team's task lines.
5. **The API boundary** (`Api`). It covers the pure parts of `lib/api.ts`:
   - the `/api` prefix;
   - villa status and project-id normalisation;
   - the task, villa and team payloads;
   - team-id validation;
   - the merge of `updateTeam`'s response with the local update.

Conventions:
- Client instants are integer milliseconds (`Timeline.Instant`), and a day is 86 400 000 ms. Backend
  timestamps are abstract integers.
- JavaScript's `parseInt(s, 10)` is `Decimal.ParseInt`, with `None` for `NaN`.
  - Some calls give no radix: teams-manager.tsx:97, 133 and 222, tree-view-dashboard.tsx:169 and
    api.ts:366. Such a call would read a `0x` prefix as hexadecimal.
  - That input cannot reach those calls. The member counts and durations come from number inputs,
    which hold only decimal numerals. The project ids are decimal texts the client wrote from numbers.
  - So `Decimal.ParseInt` stands for these calls too.
- JavaScript truthiness of a number is `Api.Truthy`: present and non-zero.
- `trim`, `toLowerCase`, `toUpperCase`, `includes` and `split` are in `Text`.

The support modules are:
- `Wrappers`: `Option` and `Result`;
- `Seqs`: filter, count, sum and remove-at, with their algebra, and the subsequence order a filter keeps;
- `Decimal`, `Timeline` and `Text`;
- `Entities`: backend records;
- `ClientModel`: client records.

Notes on the code as written:
- `deleteTask` of a task whose category no longer exists throws inside the transaction, so the
  model returns an error and keeps the task.
- `validateForm` is a standalone predicate: `handleSubmit` never calls it.
- The client resets status to `pending` at progress 0, while the backend keeps the old status
  there. `Api.ProgressRulesDifferAtZero` states the difference.

## Model

| member | source | states |
|---|---|---|
| TaskService.CreateTask | backend/src/main/java/com/chantierpro/service/TaskService.java:61-83 | Fails with category-not-found, else villa-not-found, else team-not-found (a team is looked up only when one is given). It succeeds exactly when every reference exists. Then the task is stored under a fresh key as given, and only its category's statistics are recomputed. |
| TaskService.ApplyTaskDetails | backend/src/main/java/com/chantierpro/service/TaskService.java:89-107 | Id, category, villa and update time stay. The team changes only when one is given. Every other field comes from the details. |
| TaskService.ApplyTaskDetailsIdempotent | backend/src/main/java/com/chantierpro/service/TaskService.java:89-107 | Applying the same details twice equals applying them once. |
| TaskService.UpdateTask | backend/src/main/java/com/chantierpro/service/TaskService.java:85-115 | Fails with task-not-found for an unknown id, with team-not-found for an unknown new team, and with category-not-found for a dangling category. Otherwise it saves the overwritten task and recomputes its category. Villas and teams are untouched. |
| TaskService.DeleteTask | backend/src/main/java/com/chantierpro/service/TaskService.java:117-126 | Fails with task-not-found for an unknown id. Otherwise it removes exactly that task and recomputes the statistics of the category it belonged to. |
| TaskService.StatusAfterProgress | backend/src/main/java/com/chantierpro/service/TaskService.java:157-164 | COMPLETED iff progress is 100; IN_PROGRESS iff progress is positive and not 100. At progress ≤ 0 the old status is kept, whatever it is. |
| TaskService.UpdateTaskProgress | backend/src/main/java/com/chantierpro/service/TaskService.java:153-172 | Fails for an unknown id. Otherwise it stores the progress and the status `StatusAfterProgress` gives, changes no other field, and recomputes the task's category. |
| TaskService.MarkTaskAsReceived | backend/src/main/java/com/chantierpro/service/TaskService.java:175-181 | Fails iff the id is unknown. Otherwise only the task's received flag changes, to true. |
| TaskService.MarkTaskAsPaid | backend/src/main/java/com/chantierpro/service/TaskService.java:184-190 | Fails iff the id is unknown. Otherwise only the task's paid flag changes, to true. |
| TaskService.CreateTaskCountsIt | backend/src/main/java/com/chantierpro/service/TaskService.java:79-80 | If the category's counters were right, creating a task raises its task count by one. Its completed count rises by one exactly when the new task is COMPLETED. |
| TaskService.DeleteUndoesCreate | backend/src/main/java/com/chantierpro/service/TaskService.java:117-126 | Deleting the task just created succeeds. It restores the original tasks, villas and teams, and the category's counters again match the original tasks. |
| TaskService.UpdateTaskProgressIdempotent | backend/src/main/java/com/chantierpro/service/TaskService.java:153-172 | Setting the same progress a second time returns the same database and task. |
| TaskService.CompletedTaskIsCounted | backend/src/main/java/com/chantierpro/service/TaskService.java:160-169 | After progress 100 the task is COMPLETED, and its category counts at least one completed task. |
| TaskService.PaidLeavesUnpaidList | backend/src/main/java/com/chantierpro/service/TaskService.java:184-190 | After marking a task paid, `findByIsPaidFalse` lists exactly the previously unpaid tasks except that one. |
| TaskService.ReceivedLeavesUnreceivedLists | backend/src/main/java/com/chantierpro/service/TaskService.java:175-181 | After marking a task received, every `findByIsReceivedFalseAndStatus` list loses exactly that task. |
| TaskService.MarkTaskAsPaidIdempotent | backend/src/main/java/com/chantierpro/service/TaskService.java:184-190 | Marking paid twice equals marking paid once. |
| TaskService.MarkTaskAsReceivedIdempotent | backend/src/main/java/com/chantierpro/service/TaskService.java:175-181 | Marking received twice equals marking received once. |
| CategoryService.UpdateCategoryStats | backend/src/main/java/com/chantierpro/service/CategoryService.java:116-149 | Fails iff the category is unknown. Otherwise the counts become the number of the category's tasks and of its COMPLETED ones. With tasks, progress is the completed percentage rounded down, in 0..100, with the threshold status. Without tasks, progress and status are kept. Nothing else changes. |
| CategoryService.StatusForProgress | backend/src/main/java/com/chantierpro/service/CategoryService.java:134-142 | ON_SCHEDULE iff progress is 100; IN_PROGRESS iff above 75 and not 100; WARNING iff in 51..75; DELAYED iff at most 50. |
| CategoryService.StatusMonotone | backend/src/main/java/com/chantierpro/service/CategoryService.java:134-142 | Up to 100, more progress never gives a worse status (DELAYED < WARNING < IN_PROGRESS < ON_SCHEDULE). |
| CategoryService.UpdateCategoryStatsIdempotent | backend/src/main/java/com/chantierpro/service/CategoryService.java:116-149 | Recomputing the statistics twice equals recomputing them once. |
| CategoryService.CreateCategory | backend/src/main/java/com/chantierpro/service/CategoryService.java:52-69 | Fails with villa-not-found, else with team-not-found for an unknown given team. Otherwise the category is stored as given under a fresh key, and nothing else changes. |
| CategoryService.ApplyCategoryDetails | backend/src/main/java/com/chantierpro/service/CategoryService.java:76-86 | Name, dates, progress and status come from the details. Id, villa and counters stay. The team changes only when one is given. |
| CategoryService.ApplyCategoryDetailsIdempotent | backend/src/main/java/com/chantierpro/service/CategoryService.java:76-86 | Applying the same details twice equals applying them once. |
| CategoryService.UpdateCategory | backend/src/main/java/com/chantierpro/service/CategoryService.java:72-93 | Fails for an unknown id or an unknown given team. Otherwise only that category changes, as `ApplyCategoryDetails` says. |
| CategoryService.DeleteCategory | backend/src/main/java/com/chantierpro/service/CategoryService.java:96-104 | Fails iff the id is unknown. Otherwise it removes exactly that category. |
| CategoryService.DeleteUndoesCreateCategory | backend/src/main/java/com/chantierpro/service/CategoryService.java:52-104 | Deleting the category just created succeeds and gives back the original database. Only the key counter has moved on. |
| TeamService.Relink | backend/src/main/java/com/chantierpro/service/TeamService.java:34-36 | Every task of the list points at the team, and nothing else about the tasks changes. |
| TeamService.CreateTeam | backend/src/main/java/com/chantierpro/service/TeamService.java:32-38 | The team is stored as given under a fresh key, and only the team table changes. The tasks it carries come back relinked to it. |
| TeamService.ApplyTeamDetails | backend/src/main/java/com/chantierpro/service/TeamService.java:44-47 | Name, specialty, member count and performance come from the details. Id, active-task count and last activity stay. |
| TeamService.UpdateTeam | backend/src/main/java/com/chantierpro/service/TeamService.java:40-50 | Fails iff the id is unknown. Otherwise only that team changes, as `ApplyTeamDetails` says. |
| TeamService.UpdateTeamIdempotent | backend/src/main/java/com/chantierpro/service/TeamService.java:40-50 | Updating twice with the same details equals updating once. |
| TeamService.DeleteTeam | backend/src/main/java/com/chantierpro/service/TeamService.java:52-56 | Fails iff the id is unknown. Otherwise it removes exactly that team. |
| TeamService.DeleteUndoesCreateTeam | backend/src/main/java/com/chantierpro/service/TeamService.java:32-56 | Deleting the team just created succeeds and gives back the original database. Only the key counter has moved on. |
| TeamService.TeamCountsAreCardinalities | backend/src/main/java/com/chantierpro/service/TeamService.java:82-96 | The team's task list, its active (IN_PROGRESS or PENDING) entries and its COMPLETED entries have as many elements as the corresponding sets of tasks. |
| TeamService.WithStats | backend/src/main/java/com/chantierpro/service/TeamService.java:82-101 | Active tasks are the number of the team's IN_PROGRESS or PENDING tasks, and the last activity is now. With tasks, performance is the completed percentage rounded down, in 0..100. Without tasks it is kept. |
| TeamService.UpdateTeamStats | backend/src/main/java/com/chantierpro/service/TeamService.java:79-104 | Fails iff the team is unknown. Otherwise only that team changes, to its recomputed statistics. |
| TeamService.ActivePlusCompletedAtMostTotal | backend/src/main/java/com/chantierpro/service/TeamService.java:85-96 | A team's active and completed tasks together are at most its tasks: DELAYED tasks are in neither set. |
| TeamService.FullPerformanceMeansNoActiveTasks | backend/src/main/java/com/chantierpro/service/TeamService.java:94-101 | After recomputation, a team with tasks at 100% performance has no active task. |
| TeamService.UpdateTeamActivity | backend/src/main/java/com/chantierpro/service/TeamService.java:107-113 | Fails iff the team is unknown. Otherwise only its last activity changes, to now. |
| TeamService.UpdateTeamActivityIdempotent | backend/src/main/java/com/chantierpro/service/TeamService.java:107-113 | Recording activity twice at the same time equals recording it once. |
| TeamService.UpdateTeamActivityCommutes | backend/src/main/java/com/chantierpro/service/TeamService.java:40-50 | Recording activity and updating a team's details give the same database in either order. |
| TaskRepository.FindByCategoryId | backend/src/main/java/com/chantierpro/repository/TaskRepository.java:13 | Lists exactly the tasks of the category. Keys come in ascending order, so each at most once. |
| TaskRepository.FindByVillaId | backend/src/main/java/com/chantierpro/repository/TaskRepository.java:15 | Lists exactly the tasks whose own villa is the one given. Keys come in ascending order, so each at most once. |
| TaskRepository.FindByTeamId | backend/src/main/java/com/chantierpro/repository/TaskRepository.java:17 | Lists exactly the tasks of the team. Keys come in ascending order, so each at most once. |
| TaskRepository.FindByStatus | backend/src/main/java/com/chantierpro/repository/TaskRepository.java:19 | Lists exactly the tasks with the status. Keys come in ascending order, so each at most once. |
| TaskRepository.FindByProgressStatus | backend/src/main/java/com/chantierpro/repository/TaskRepository.java:21 | Lists exactly the tasks with the progress status. Keys come in ascending order, so each at most once. |
| TaskRepository.FindByIsReceivedFalseAndStatus | backend/src/main/java/com/chantierpro/repository/TaskRepository.java:23 | Lists exactly the unreceived tasks with the status. Keys come in ascending order, so each at most once. |
| TaskRepository.FindByIsPaidFalse | backend/src/main/java/com/chantierpro/repository/TaskRepository.java:25 | Lists exactly the unpaid tasks. Keys come in ascending order, so each at most once. |
| TaskRepository.FindByProjectId | backend/src/main/java/com/chantierpro/repository/TaskRepository.java:27-28 | Lists exactly the tasks whose category's villa is in the project. The task's own villa plays no part. Keys come in ascending order, so each at most once. |
| TaskRepository.FindByProjectIdAndStatus | backend/src/main/java/com/chantierpro/repository/TaskRepository.java:30-31 | Lists exactly the tasks of the project, reached through the category's villa, that have the status. Keys come in ascending order, so each at most once. |
| TaskRepository.CountByCategoryId | backend/src/main/java/com/chantierpro/repository/TaskRepository.java:33-34 | The number of the category's tasks among the keys handed out so far. |
| TaskRepository.CountCompletedByCategoryId | backend/src/main/java/com/chantierpro/repository/TaskRepository.java:36-37 | The number of the category's COMPLETED tasks among the keys handed out so far. |
| TaskRepository.ProjectAndStatusFiltersProject | backend/src/main/java/com/chantierpro/repository/TaskRepository.java:27-31 | The project-and-status list is the project list filtered by status, in the same order. |
| TaskRepository.CountByCategoryIdIsFindSize | backend/src/main/java/com/chantierpro/repository/TaskRepository.java:33-34 | The count query returns the length of `findByCategoryId`. |
| TaskRepository.CategoryCountsAreCardinalities | backend/src/main/java/com/chantierpro/repository/TaskRepository.java:33-37 | Both count queries return the number of tasks of the category, and of its COMPLETED tasks. |
| TaskRepository.CompletedAtMostCount | backend/src/main/java/com/chantierpro/repository/TaskRepository.java:36-37 | The completed count of a category never exceeds its task count. |
| TaskRepository.InsertNewestFirst | backend/src/main/java/com/chantierpro/repository/TaskRepository.java:39-40 | Inserting a task into a list ordered by decreasing update time keeps it ordered and adds exactly that task. |
| TaskRepository.FindAllOrderByUpdatedAtDesc | backend/src/main/java/com/chantierpro/repository/TaskRepository.java:39-40 | Lists every task exactly once (a permutation of the table), with non-increasing update times. |
| TaskRepository.TotalAmountByProjectId | backend/src/main/java/com/chantierpro/repository/TaskRepository.java:42-43 | Null iff the project has no task. Otherwise the sum of the amounts of the project's tasks. |
| TaskRepository.PaidAmountByProjectId | backend/src/main/java/com/chantierpro/repository/TaskRepository.java:45-46 | Null iff the project has no paid task. Otherwise the sum of the amounts of its paid tasks. |
| TaskRepository.PaidAmountAtMostTotal | backend/src/main/java/com/chantierpro/repository/TaskRepository.java:42-46 | With non-negative amounts, a project without tasks has no total and no paid sum (SQL `SUM` of no rows is null). The paid sum never exceeds the total. |
| CategoryRepository.FindByVillaId | backend/src/main/java/com/chantierpro/repository/CategoryRepository.java:13 | Lists exactly the categories of the villa. Keys come in ascending order, so each at most once. |
| CategoryRepository.FindByTeamId | backend/src/main/java/com/chantierpro/repository/CategoryRepository.java:15 | Lists exactly the categories assigned to the team. Keys come in ascending order, so each at most once. |
| CategoryRepository.FindByStatus | backend/src/main/java/com/chantierpro/repository/CategoryRepository.java:17 | Lists exactly the categories with the status. Keys come in ascending order, so each at most once. |
| CategoryRepository.FindByVillaIdAndStatus | backend/src/main/java/com/chantierpro/repository/CategoryRepository.java:19 | Lists exactly the villa's categories with the status. Keys come in ascending order, so each at most once. |
| CategoryRepository.FindByProjectId | backend/src/main/java/com/chantierpro/repository/CategoryRepository.java:21-22 | Lists exactly the categories whose villa belongs to the project. Keys come in ascending order, so each at most once. |
| CategoryRepository.CountByVillaId | backend/src/main/java/com/chantierpro/repository/CategoryRepository.java:24-25 | The number of the villa's categories among the keys handed out so far. |
| CategoryRepository.CountByVillaIdAndStatus | backend/src/main/java/com/chantierpro/repository/CategoryRepository.java:27-28 | The number of the villa's categories with the status among the keys handed out so far. |
| CategoryRepository.CountByVillaIdIsFindSize | backend/src/main/java/com/chantierpro/repository/CategoryRepository.java:24-25 | The count query returns the length of `findByVillaId`. |
| CategoryRepository.CountByVillaIdAndStatusIsFindSize | backend/src/main/java/com/chantierpro/repository/CategoryRepository.java:27-28 | The count query returns the length of `findByVillaIdAndStatus`. |
| CategoryRepository.CountWithStatusAtMostCount | backend/src/main/java/com/chantierpro/repository/CategoryRepository.java:24-28 | A villa's count with a status never exceeds its count. |
| CategoryRepository.VillaAndStatusFiltersVilla | backend/src/main/java/com/chantierpro/repository/CategoryRepository.java:13-19 | The villa-and-status list is the villa list filtered by status, in the same order. |
| Dashboard.PlannedEnd | components/dashboard/tree-view-dashboard.tsx:167-177 | A duration typed in wins: the end is that many days after the start. Otherwise the end is the picked end date, or seven days after the start. |
| Dashboard.HandleCreateTask | components/dashboard/tree-view-dashboard.tsx:151-213 | No task iff the category, the trimmed name or the villa is empty. Otherwise the task is pending, starts on the picked day or now, and ends per `PlannedEnd`. Its actual dates default to the planned ones. It carries the form's name, description, team, amount, progress, progress status and received and paid flags. Its remarks are absent, modelled as "". |
| Dashboard.OpenEditTaskDialog | components/dashboard/tree-view-dashboard.tsx:405-430 | The duration shown is the decimal text of the planned window in days, rounded up, and it reads back as that number. The four date fields hold the task's planned and actual calendar days. Name, description, team, amount, progress, progress status and the received and paid flags are the task's. |
| Dashboard.EditFormRecreatesTask | components/dashboard/tree-view-dashboard.tsx:405-430 | A consistency check between the form's two duration rules, not a program path: saved edits go through `handleUpdateTask`, which ignores the duration. For a task whose dates fall on midnight, reopening it and creating from the form gives back the same task. Only the status (pending), remarks and timestamps are new. |
| Dashboard.StatusForProgress | components/dashboard/tree-view-dashboard.tsx:273-279 | completed iff progress is 100; in_progress iff progress is positive and not 100; pending iff progress ≤ 0. |
| Dashboard.UpdateTaskProgress | components/dashboard/tree-view-dashboard.tsx:273-279 | The patch sets progress, its status and the update time, and nothing else. |
| Dashboard.UpdateTaskProgressIdempotent | components/dashboard/tree-view-dashboard.tsx:273-279 | Setting the same progress again moves only the update time. |
| Dashboard.GetCategoryTasks | components/dashboard/tree-view-dashboard.tsx:118-127 | A task is listed iff it belongs to the category and, when a team other than "all" is selected, carries that team. The list keeps the store's order: it is a subsequence of the store's tasks. |
| Dashboard.GetCategoryTeams | components/dashboard/tree-view-dashboard.tsx:289-294 | A registered team is listed iff some task of the category carries its non-empty id. The list keeps the order of the registered teams: it is a subsequence of them. |
| Dashboard.ListedTeamHasTasks | components/dashboard/tree-view-dashboard.tsx:118-127 | Selecting any team listed for a category shows at least one of its tasks. |
| Dashboard.FindTeam | components/dashboard/tree-view-dashboard.tsx:347-348 | Returns the first team with the id, and nothing iff no team has it. |
| Dashboard.HandleSaveTeamAssignment | components/dashboard/tree-view-dashboard.tsx:341-381 | A task is created iff team, category and villa are set and the team is registered. It is a pending, unpaid, unreceived task named "Travail - " plus the team's name, with progress 0 and a seven-day window starting now. It gets the fresh id and the description "Tâche assignée à l'équipe " + name + " - " + specialty. Its progress status is on_schedule, its remarks are absent (modelled as ""), and both timestamps are now. |
| Dashboard.AssignmentListsTeam | components/dashboard/tree-view-dashboard.tsx:341-381 | Once the assignment's task is stored, the team is listed among the category's teams. |
| Dashboard.HandleSaveCategory | components/dashboard/tree-view-dashboard.tsx:308-330 | A category is created iff name, both dates and villa are set. It has progress 0, status on_schedule and zero counters. |
| Dashboard.NewCategoryCountersAgree | components/dashboard/tree-view-dashboard.tsx:308-330 | The new category's zero task count equals the number of its tasks while no task uses its key. |
| Templates.TeamsValid | components/templates/templates-manager.tsx:81-84 | True iff every team has a non-blank name and specialty. |
| Templates.CategoriesValid | components/templates/templates-manager.tsx:77-84 | True iff every category has a non-blank name, at least one team, and valid teams. |
| Templates.ValidateForm | components/templates/templates-manager.tsx:72-87 | True iff the trimmed name is non-blank, there is a category, and every category is valid. |
| Templates.ValidateIgnoresTasks | components/templates/templates-manager.tsx:72-87 | Removing every task line never changes the verdict: task lines are not checked. |
| Templates.EmptyFormInvalid | components/templates/templates-manager.tsx:72-87 | The initial, blank form is invalid. |
| Templates.TotalTeams | components/templates/templates-manager.tsx:269-271 | Never negative. 0 iff no category has a team. At least the number of categories when every category has a team. |
| Templates.TotalTasks | components/templates/templates-manager.tsx:273-277 | Never negative. 0 iff no team of any category has a task line. |
| Templates.TotalsAppend | components/templates/templates-manager.tsx:269-277 | Both totals of two lists of categories put together are the sums of their totals. |
| Templates.AddCategory | components/templates/templates-manager.tsx:183-195 | Appends one blank category with one blank team holding one blank task. The earlier categories are kept, and both totals grow by one. |
| Templates.RemoveCategory | components/templates/templates-manager.tsx:197-202 | Drops exactly the category at the index, keeping the others in order, and the totals lose its teams and tasks. Any other index changes nothing. |
| Templates.RenameCategory | components/templates/templates-manager.tsx:204-208 | Only the category's name changes. The template's name and description, the other categories and the category's teams stay, and so do the totals. |
| Templates.AddTeam | components/templates/templates-manager.tsx:211-219 | Appends one team with one task line to the category, and both totals grow by one. The template's name and description, the other categories and the category's name stay. |
| Templates.RemoveTeam | components/templates/templates-manager.tsx:221-225 | Drops exactly the team at the index, keeping the others in order. The template's name and description, the other categories and the category's name stay. The totals lose one team and its tasks. Any other index changes nothing. |
| Templates.EditTeam | components/templates/templates-manager.tsx:227-234 | Sets the team's name or specialty. The other field, the team's task lines, the other teams, the other categories and the template's name and description stay, and so do the totals. |
| Templates.WithTeams | components/templates/templates-manager.tsx:211-234 | Replacing a category's teams changes nothing else, and the totals move by the difference. |
| Templates.WithTasks | components/templates/templates-manager.tsx:237-257 | Replacing a team's task lines changes nothing else, and the task total moves by the difference. |
| Templates.AddTask | components/templates/templates-manager.tsx:237-241 | Appends one blank task line to the team: the task total grows by one and the team total stays. The team's name and specialty, the other teams and the other categories stay. |
| Templates.RemoveTask | components/templates/templates-manager.tsx:243-248 | Drops exactly the task line at the index, keeping the others in order. The team's name and specialty, the other teams and the other categories stay, and the task total drops by one. Any other index changes nothing. |
| Templates.EditTask | components/templates/templates-manager.tsx:250-257 | Sets one field of one task line. The line's other fields, the other lines, the team's name and specialty, the other teams and the other categories stay, and so do the totals. |
| Templates.Submit | components/templates/templates-manager.tsx:89-119 | Editing keeps the template's id and creation time; creating takes the fresh ones. Name, description and categories come from the form. |
| Templates.ShowTask | components/templates/templates-manager.tsx:167-171 | The task line keeps its name. A present duration or amount is kept; a missing one is shown as "". |
| Templates.ShowTeam | components/templates/templates-manager.tsx:165-173 | The team keeps its name and specialty, and each task line is shown per `ShowTask`, in order. |
| Templates.ShowCategory | components/templates/templates-manager.tsx:163-174 | The category keeps its name, and each team is shown per `ShowTeam`, in order. |
| Templates.OpenEditDialog | components/templates/templates-manager.tsx:160-180 | The form has the template's name and description, and each category is shown per `ShowCategory`, in order. Every task line has a duration and an amount, and the team total is the template's. A template already in that shape is shown unchanged. |
| Templates.ShowKeepsComplete | components/templates/templates-manager.tsx:160-180 | Showing categories fills in every missing duration and amount, and leaves categories that lack none unchanged. |
| Templates.EditRoundTrip | components/templates/templates-manager.tsx:96-107 | Opening a template for editing and submitting keeps its id, creation time, name and description. It keeps every category's name and team count, every team's name, specialty and task count, and every task line's name. Present durations and amounts are kept and absent ones come back as "". A template without absent fields comes back identical. |
| Templates.FilteredTemplates | components/templates/templates-manager.tsx:67-70 | A template is kept iff the lower-cased term occurs in its lower-cased name or description. The kept templates are a subsequence of the list, in its order. |
| Templates.EmptySearchKeepsAll | components/templates/templates-manager.tsx:67-70 | The empty search keeps every template, in order. |
| Templates.DuplicateTemplate | components/templates/templates-manager.tsx:259-267 | The copy has the fresh id and time, the original's name followed by " (Copie)", and identical description and categories. |
| Templates.DuplicateFoundWithOriginal | components/templates/templates-manager.tsx:259-267 | Any search that finds a template also finds its duplicate. |
| TeamsManager.FilteredTeams | components/teams/teams-manager.tsx:77-80 | A team is kept iff the lower-cased term occurs in its lower-cased name or specialty. The kept teams are a subsequence of the list, in its order. |
| TeamsManager.EmptySearchKeepsAll | components/teams/teams-manager.tsx:77-80 | The empty search keeps every team, in order. |
| TeamsManager.PerformanceColour | components/teams/teams-manager.tsx:301-306 | green iff ≥ 90, blue iff in 75..89, yellow iff in 60..74, red iff < 60. |
| TeamsManager.PerformanceColourMonotone | components/teams/teams-manager.tsx:301-306 | Higher performance never gives a worse colour. |
| TeamsManager.ActivityStatus | components/teams/teams-manager.tsx:308-314 | green iff under a day since the last activity, blue iff one day, red iff four days or more. Yellow otherwise, including an activity in the future. The text is "Aujourd'hui" for green, "Hier" for blue, and "Il y a N jours" otherwise, with N the whole days elapsed. |
| TeamsManager.ActivityAges | components/teams/teams-manager.tsx:308-314 | As time passes the badge never improves. |
| TeamsManager.TeamTasks | components/teams/teams-manager.tsx:316-318 | A task is listed iff it carries the team's id. The list is a subsequence of the tasks, in their order. |
| TeamsManager.TeamCard | components/teams/teams-manager.tsx:544-547 | Completed is the number of the team's COMPLETED tasks, and at most its task count. The total is the sum of the amounts of the team's tasks, and paid the sum over its paid tasks. The total is the paid amount plus the unpaid tasks' amounts. |
| TeamsManager.PaidAtMostTotal | components/teams/teams-manager.tsx:546-547 | With non-negative amounts, the paid amount is at most the total. |
| TeamsManager.AveragePerformance | components/teams/teams-manager.tsx:532 | 0 for no teams. Otherwise the mean rounded half up: the nearest integer to sum / n. |
| TeamsManager.AverageInRange | components/teams/teams-manager.tsx:532 | With performances in 0..100, the average is in 0..100. |
| TeamsManager.Stats | components/teams/teams-manager.tsx:503-532 | Teams is the number of teams. Active teams are the number of teams with a positive active-task counter, and 0 iff none has one. Active tasks are the sum of the counters, and the average is `AveragePerformance`. |
| TeamsManager.StatsAppend | components/teams/teams-manager.tsx:503-532 | For two lists of teams put together, the team, active-team and active-task figures are the sums of the two lists' figures. |
| TeamsManager.AddTaskRow | components/teams/teams-manager.tsx:276-286 | Appends one blank line and keeps the rest of the form. |
| TeamsManager.RemoveTaskRow | components/teams/teams-manager.tsx:288-293 | Drops exactly the line at the index, keeping the others in order. Any other index changes nothing. |
| TeamsManager.RemoveUndoesAdd | components/teams/teams-manager.tsx:276-293 | Removing the line just added gives back the form. |
| TeamsManager.UpdateTaskRow | components/teams/teams-manager.tsx:295-299 | Sets one field of one line, and every other line and field stays. |
| TeamsManager.UpdateTaskRowReadsBack | components/teams/teams-manager.tsx:295-299 | After the edit, the edited field of the line reads back the value, and its other fields keep their text. |
| TeamsManager.UpdateTaskRowOverwrites | components/teams/teams-manager.tsx:295-299 | Of two edits of the same field, the last one wins. Writing a field's current text changes nothing. |
| TeamsManager.OpenEditDialog | components/teams/teams-manager.tsx:266-274 | The form shows the team's name and specialty, the member count as its decimal `toString()` text, and no task lines. The count reads back as the team's. |
| TeamsManager.TeamUpdates | components/teams/teams-manager.tsx:219-223 | The update sends name, specialty and the member count parsed. It sends no counters, performance or activity. |
| TeamsManager.EditDialogRoundTrip | components/teams/teams-manager.tsx:212-274 | Opening a team and saving unchanged sends back exactly its name, specialty and member count. |
| TeamsManager.TeamData | components/teams/teams-manager.tsx:94-101 | The new team has one active task per task line, performance 0, last activity now, and the member count parsed. |
| TeamsManager.FirstCategoryOf | components/teams/teams-manager.tsx:122-125 | Returns the first category of the villa, and none iff the villa has none. |
| TeamsManager.PlacementOf | components/teams/teams-manager.tsx:118-125 | Tasks go to the project's first villa and that villa's first category. There is no placement iff either is missing. |
| TeamsManager.RowDays | components/teams/teams-manager.tsx:133 | The number of days is what `parseInt` reads from the duration, or from `'1'` when the duration is empty, so an empty duration gives one day. |
| TeamsManager.RowAmount | components/teams/teams-manager.tsx:152 | An empty amount gives 0. A readable amount gives the number read. The result is `NaN` (None) iff the amount is non-empty and unreadable. |
| TeamsManager.MaterialiseTask | components/teams/teams-manager.tsx:131-157 | The task belongs to the team and the placement and starts now. It ends `RowDays` days later (one day for an empty duration), and its planned dates equal its actual ones. It is pending, 0%, on schedule, unpaid and unreceived, with empty remarks, and the amount defaults to 0. |
| TeamsManager.HandleCreateTeam | components/teams/teams-manager.tsx:113-203 | Without a placement no task is created; with one, one task per line, in order. The team's counter is the number of tasks created (corrected, see Findings). |
| TeamsManager.CounterMatchesTeamTasks | components/teams/teams-manager.tsx:316-318 | After creation the team's tasks in the store are exactly those created, and its counter equals their number. |
| TeamsManager.ActiveTasksAsWrittenMiscounts | components/teams/teams-manager.tsx:176-185 | As written, the counter shows one more than the tasks created when they are placed, and the number of task lines when none are created. |
| TeamsManager.StoreActiveTasksAsWritten | components/teams/teams-manager.tsx:176-185 | As written, the counter stays the saved count iff no task was created. Otherwise it is the saved count plus one, however many tasks were created. |
| TeamsManager.OneTaskShowsTwo | components/teams/teams-manager.tsx:176-185 | One task line with one villa and one category: one task is created, the counter as written shows 2, and the corrected one shows 1. |
| Api.ApiEndpoint | lib/api.ts:13 | The result starts with "/api" and ends with the endpoint. An endpoint already starting with "/api" is kept. |
| Api.ApiEndpointIdempotent | lib/api.ts:13 | Prefixing twice is prefixing once. |
| Api.PrefixTestIsTextual | lib/api.ts:13 | The test is textual: any endpoint made of "/api" followed by any text ("/apiary", say) is kept as is. |
| Api.VillasEndpoint | lib/api.ts:268-269 | "/villas" iff the project id parses to no number or to 0. Otherwise the query is "/villas?projectId=" followed by the decimal text of the parsed number, which the backend reads back as that id. |
| Api.VillasEndpointOfShow | lib/api.ts:268-269 | A non-zero numeric project id is passed through unchanged. |
| Api.VillaProjectId | lib/api.ts:285-306 | The query id wins, then the truthy `project.id`, then the truthy `projectId`, each as its decimal text, which reads back as that number. The result is "" iff all are missing. |
| Api.NormaliseVillaStatus | lib/api.ts:310-328 | in_progress iff the lower-cased status is one of its three spellings. completed and delayed map to themselves. Everything else, including no status, is not_started. |
| Api.NormaliseBackendStatus | lib/api.ts:310-328 | Every backend enum name maps to its own token. |
| Api.ToVilla | lib/api.ts:280-341 | The villa's project id and status are normalised. A truthy server id becomes its decimal text; otherwise the id is "temp-" followed by the time. |
| Api.GetVillas | lib/api.ts:280-342 | One villa per response entry, in order. With a query id, every villa gets it. |
| Api.GetVillasAppend | lib/api.ts:280-342 | The villas fetched for two batches of answers put together are the two results in order. |
| Api.CreateVillaPayload | lib/api.ts:362-370 | The project id is parsed from `projectId`, else from `project.id`, else "0". A status is sent iff one is given, upper-cased character by character. |
| Api.CreateVillaKeepsProject | lib/api.ts:366 | A numeric project id reaches the backend as that number. |
| Api.CreateVillaStatusRoundTrip | lib/api.ts:362-370 | A status sent upper-cased comes back from `getVillas` as the same token. |
| Api.CreatedVillaIsFetchedBack | lib/api.ts:280-370 | A villa created under a non-zero numeric project id, and sent back with that project and the stored status, is fetched under the same project id with the same status. |
| Api.TaskPayload | lib/api.ts:649-667 | Name, description, remarks, progress and the received and paid flags are copied. There is no team iff the team id is empty. Dates are calendar days, and a missing amount is 0. |
| Api.ParseTaskStatus | lib/api.ts:659 | The backend accepts exactly the four upper-case status names. |
| Api.ParseProgressStatus | lib/api.ts:661 | The backend accepts exactly the four upper-case progress-status names. |
| Api.UpperStatusToken | lib/api.ts:659 | Every client status, upper-cased, is the backend status of the same name. |
| Api.UpperProgressToken | lib/api.ts:661 | Every client progress status, upper-cased, is the backend one of the same name. |
| Api.BackendReadsTaskPayload | lib/api.ts:659-661 | The backend reads the payload's status and progress status as the task's. |
| Api.PayloadKeepsWindow | lib/api.ts:655-658 | For midnight dates, the day difference sent is the window in days. |
| Api.ProgressRulesAgree | components/dashboard/tree-view-dashboard.tsx:273-279 | For positive progress, the client's status and the backend's `updateTaskProgress` status agree. |
| Api.ProgressRulesDifferAtZero | components/dashboard/tree-view-dashboard.tsx:273-279 | At progress 0 they disagree for every task not pending: the client resets to pending and the backend keeps the status. |
| Api.TeamEndpoint | lib/api.ts:564-578 | "Invalid team ID" iff `parseInt` finds no number. Otherwise "/teams/" followed by the decimal text of that number, which reads back as it. |
| Api.TeamEndpointOfShow | lib/api.ts:615-618 | A numeric id passes unchanged. |
| Api.TeamEndpointIgnoresTrailingText | lib/api.ts:564-567 | Text after the digits is dropped, as `parseInt` drops it. |
| Api.CreateTeamPayload | lib/api.ts:517-523 | The payload has id null and carries every field of the team. |
| Api.OrZero | lib/api.ts:540-542 | A truthy number is kept; anything else becomes 0. |
| Api.CreateTeamResponse | lib/api.ts:536-544 | A truthy id becomes its decimal text; otherwise the id is "temp-" followed by the time. Name and specialty are copied, and numbers fall back to 0. The time falls back to now. |
| Api.CreateTeamRoundTrip | lib/api.ts:517-544 | A team echoed by the server under a non-zero id comes back as sent, with that id as its text. A member count that did not parse comes back as 0. |
| Api.FirstTruthy | lib/api.ts:590-592 | The first truthy of the two numbers, else 0. |
| Api.FirstFilled | lib/api.ts:588-589 | The first non-empty of the two strings. |
| Api.MergeTeamResponse | lib/api.ts:586-595 | Each field is taken from the response, else from the local update, else its default. A truthy response id becomes its decimal text, else the id asked for is kept. |
| Api.MergeIdempotent | lib/api.ts:586-595 | Merging the same response into the merged team changes nothing. |
| Api.MergeOfEchoIsPatch | lib/api.ts:586-595 | When the server echoes the update without an id, the result is the update with the requested id. |
| Api.ZeroFromServerYieldsToPatch | lib/api.ts:592 | A server performance of 0 is overridden by a truthy local one. |
| Decimal.ParseInt | lib/api.ts:564-566 | `NaN` (None) iff, after white space and an optional sign, no digit follows. |
| Decimal.ParseShow | components/teams/teams-manager.tsx:271 | `parseInt` reads back every integer's decimal text. |
| Decimal.Show | lib/api.ts:331 | `toString()` of an integer: non-empty decimal digits with no leading zero (except "0"), after a minus sign exactly for negative numbers. |

## Left out

- Template expansion (`applyTemplateToCategory`, `filterTasksByTeam`): lib/template-utils is not part of this model.
- Deriving the progress status from dates: no such code exists. The status the user picks is copied through.
- Network and I/O: fetch, CORS handling, logging and `loadInitialData`. The async sequencing and the per-task error handling of `handleCreateTeam` are also left out. Server answers are parameters.
- REST controllers: they map the services' exceptions to HTTP codes and add no logic.
- JPA persistence, foreign keys and cascades. Deleting a category or a team does not touch the rows that point at it.
- The tasks `createTeam` relinks are returned, not stored, since their persistence is a cascade.
- `VillaService.updateVillaStats`, called at the end of the category operations, is not part of this model.
- The read-only getters of the services (`getAllTasks`, `searchTeams`, `getAveragePerformance`, …): they only forward to the repositories.
- Floating point is not modelled:
  - amounts are integers and `parseFloat` is read as `parseInt`;
  - the dashboard's task form holds the amount as a number (None when empty), not as the text that `toString()` writes and the form later parses back;
  - the repository's `SUM` is an integer sum;
  - the paid percentage of the team card (teams-manager.tsx:607) is left out.
- Time zones and daylight saving: instants are UTC milliseconds. The clock (`new Date()`, `Date.now()`, `LocalDateTime.now()`) is a parameter, and so are fresh ids.
- Case mapping covers ASCII and Latin-1 letters only, one character to one. `Text.UpperChar` keeps ß, ÿ and µ, which JavaScript's `toUpperCase` maps to "SS", U+0178 and U+039C.
- Ids sent with `Number()` are kept as the client's strings in the task payload.
- The dashboard's `handleCreateTask` and `handleSaveTeamAssignment` (tree-view-dashboard.tsx:188-208, :355-374) set no remarks, so they are `undefined` there. The model writes "", which the task payload's `task.remarks || ''` (api.ts:666) sends identically. Only teams-manager.tsx:154 writes `''` itself. A client task's description is always a string, so its `|| ''` default leaves it as it is.
- `getVillas`' display fields (name, type, surface, counters) are left out.
- The backend's answer to `createTask` is taken to be the task sent.
- The client store's `updateTask` and `getTasksByCategory` are taken to be a field patch and a filter in store order.
- The backend's `Long` counts are taken to fit the `int` fields.
- Dashboard.HandleCreateTask: requires a readable duration, because the source builds an invalid date from a `NaN` duration.
- TeamsManager.MaterialiseTask: requires a readable duration, for the same reason.
- TeamsManager.HandleCreateTeam: requires every line's duration to be readable, for the same reason.
- Templates.RenameCategory: requires an index in range. Out of range, the source writes a new entry past the end of the array.
- Templates.EditTeam: requires indices in range. Out of range, the category index makes the source throw a `TypeError`, and the team index makes it write past the end.
- Templates.EditTask: requires indices in range. Out of range, the category or team index makes the source throw a `TypeError`, and the task index makes it write past the end.
- Templates.AddTeam: requires a category index in range. Out of range, the source throws a `TypeError`.
- Templates.AddTask: requires category and team indices in range. Out of range, the source throws a `TypeError`.
- Templates.RemoveTeam: requires a category index in range. Out of range, the source throws a `TypeError`; a team index out of range changes nothing, as modelled.
- Templates.RemoveTask: requires category and team indices in range. Out of range, the source throws a `TypeError`; a task index out of range changes nothing, as modelled.
- TeamsManager.UpdateTaskRow: requires an index in range; the source would add a sparse entry.
- TeamsManager.MaterialiseTask: one `now` stands for the separate clock reads of teams-manager.tsx:131-156, so the milliseconds between them are not modelled.
- TaskRepository.PaidAmountAtMostTotal: states the bound only for non-negative amounts, since the source does not forbid negative ones.
- TeamsManager.PaidAtMostTotal: likewise, only for non-negative amounts.

## Findings

| source | as written | input that shows it | evidently intended | confidence | as-written member | corrected member |
|---|---|---|---|---|---|---|
| components/teams/teams-manager.tsx:176-185 | Each created task sets the store's `activeTasks` to `savedTeam.activeTasks + 1`. The saved team already counts one per task line (line 98), so the +1 is added on top of the full count. With no placement, the line count stays though no task exists. | One task line, one villa with one category: one task is created and the team shows 2 active tasks. | The counter equals the number of tasks created for the team. | not executed | TeamsManager.ActiveTasksAsWrittenMiscounts | TeamsManager.HandleCreateTeam |

=== FILE: api.dfy ===
/** The client's API service: how it names endpoints, what it sends for villas, teams and tasks,
    and how it turns the server's answers into the client's records. A response is given as the
    fields it carries; a missing or `null` field is `None`, and numbers are tested for JavaScript
    truthiness, so 0 counts as missing. Ids stay strings here: `Number(id)` is not modelled. */
module Api {
  import opened Wrappers
  import opened ClientModel
  import Entities
  import Text
  import Decimal
  import Timeline
  import Dashboard
  import TaskService

  // ---- endpoints ----

  /** The context path of the backend. */
  const Prefix: string := "/api"

  /** The endpoint a request is sent to: `/api` is put in front unless the endpoint already
      starts with it. */
  function ApiEndpoint(endpoint: string): (r: string)
    ensures Text.StartsWith(r, Prefix)
    ensures |endpoint| <= |r| && r[|r| - |endpoint|..] == endpoint
    ensures Text.StartsWith(endpoint, Prefix) ==> r == endpoint
  {
    if Text.StartsWith(endpoint, Prefix) then endpoint else Prefix + endpoint
  }

  /** Prefixing is idempotent: an endpoint already sent through it is left alone. */
  lemma ApiEndpointIdempotent(endpoint: string)
    ensures ApiEndpoint(ApiEndpoint(endpoint)) == ApiEndpoint(endpoint)
  {
  }

  /** The test is on text, not on path segments: whatever follows the letters `/api` (say
      `ary`, giving `/apiary`), the endpoint gets no prefix. */
  lemma PrefixTestIsTextual(rest: string)
    ensures ApiEndpoint(Prefix + rest) == Prefix + rest
  {
    assert (Prefix + rest)[..|Prefix|] == Prefix;
  }

  /** JavaScript truthiness of an optional number: present and not 0. */
  predicate Truthy(n: Option<int>)
  {
    n.Some? && n.value != 0
  }

  const VillasQuery: string := "/villas?projectId="

  /** `getVillas`' endpoint: the project filter is added only when the id parses to a non-zero
      number, and the backend then reads back the number the client parsed. */
  function VillasEndpoint(projectId: string): (r: string)
    ensures r == "/villas" <==> !Truthy(Decimal.ParseInt(projectId))
    ensures r != "/villas" ==> r == VillasQuery + Decimal.Show(Decimal.ParseInt(projectId).value)
    ensures r != "/villas" ==> Text.StartsWith(r, VillasQuery) && Decimal.ParseInt(r[|VillasQuery|..]) == Decimal.ParseInt(projectId)
  {
    var n := Decimal.ParseInt(projectId);
    if Truthy(n) then
      var r := VillasQuery + Decimal.Show(n.value);
      assert r[|VillasQuery|..] == Decimal.Show(n.value);
      Decimal.ParseShow(n.value);
      assert Text.StartsWith(r, VillasQuery);
      assert r != "/villas" by { assert |r| > |"/villas"|; }
      r
    else "/villas"
  }

  /** A client project id written from a non-zero number filters on that number. */
  lemma VillasEndpointOfShow(n: int)
    requires n != 0
    ensures VillasEndpoint(Decimal.Show(n)) == VillasQuery + Decimal.Show(n)
  {
    Decimal.ParseShow(n);
  }

  // ---- villas ----

  /** A villa as the server sends it: its id, the id of its `project` object, a flat
      `projectId` field, and its status. */
  datatype VillaResponse = VillaResponse(id: Option<int>, projectRef: Option<int>, projectId: Option<int>, status: Option<string>)

  /** The project a fetched villa is filed under: the project the fetch asked for, else the
      response's project object, else its flat project id, else none. */
  function VillaProjectId(query: string, v: VillaResponse): (r: string)
    ensures query != "" ==> r == query
    ensures query == "" && Truthy(v.projectRef) ==> r == Decimal.Show(v.projectRef.value) && Decimal.ParseInt(r) == v.projectRef
    ensures query == "" && !Truthy(v.projectRef) && Truthy(v.projectId) ==> r == Decimal.Show(v.projectId.value) && Decimal.ParseInt(r) == v.projectId
    ensures r == "" <==> query == "" && !Truthy(v.projectRef) && !Truthy(v.projectId)
  {
    if query != "" then query
    else if Truthy(v.projectRef) then
      Decimal.ParseShow(v.projectRef.value);
      Decimal.Show(v.projectRef.value)
    else if Truthy(v.projectId) then
      Decimal.ParseShow(v.projectId.value);
      Decimal.Show(v.projectId.value)
    else ""
  }

  const NotStartedSpellings: set<string> := {"not_started", "not started", "notstarted"}
  const InProgressSpellings: set<string> := {"in_progress", "in progress", "inprogress"}

  /** The status of a fetched villa: the lower-cased status is matched against the spellings the
      client knows; a missing, empty or unknown status reads as not started. */
  function NormaliseVillaStatus(status: Option<string>): (r: VillaStatus)
    ensures r == VillaStatus.InProgress <==> status.Some? && Text.ToLower(status.value) in InProgressSpellings
    ensures r == VillaStatus.Completed <==> status.Some? && Text.ToLower(status.value) == "completed"
    ensures r == VillaStatus.Delayed <==> status.Some? && Text.ToLower(status.value) == "delayed"
  {
    if status.None? || status.value == "" then VillaStatus.NotStarted
    else
      var s := Text.ToLower(status.value);
      if s in NotStartedSpellings then VillaStatus.NotStarted
      else if s in InProgressSpellings then VillaStatus.InProgress
      else if s == "completed" then VillaStatus.Completed
      else if s == "delayed" then VillaStatus.Delayed
      else VillaStatus.NotStarted
  }

  /** The name of a villa status in the backend's enum. */
  function BackendVillaStatusName(st: VillaStatus): string
  {
    match st
    case NotStarted => "NOT_STARTED"
    case InProgress => "IN_PROGRESS"
    case Completed => "COMPLETED"
    case Delayed => "DELAYED"
  }

  /** Every status the backend can send is read back as itself. */
  lemma NormaliseBackendStatus(st: VillaStatus)
    ensures NormaliseVillaStatus(Some(BackendVillaStatusName(st))) == st
  {
    match st
    case NotStarted =>
      Text.ToLowerByChars("NOT_STARTED", "not_started");
    case InProgress =>
      Text.ToLowerByChars("IN_PROGRESS", "in_progress");
    case Completed =>
      Text.ToLowerByChars("COMPLETED", "completed");
    case Delayed =>
      Text.ToLowerByChars("DELAYED", "delayed");
  }

  /** `getVillas`, one villa: a villa without a usable id gets a temporary one made from the clock. */
  function ToVilla(query: string, v: VillaResponse, now: Timeline.Instant): (r: Villa)
    ensures r.projectId == VillaProjectId(query, v) && r.status == NormaliseVillaStatus(v.status)
    ensures Truthy(v.id) ==> r.id == Decimal.Show(v.id.value) && Decimal.ParseInt(r.id) == v.id
    ensures !Truthy(v.id) ==> r.id == "temp-" + Decimal.Show(now)
  {
    Decimal.ParseShow(if v.id.Some? then v.id.value else 0);
    Villa(if Truthy(v.id) then Decimal.Show(v.id.value) else "temp-" + Decimal.Show(now),
          VillaProjectId(query, v), NormaliseVillaStatus(v.status))
  }

  /** `getVillas(projectId)`: one villa per villa of the answer, in order; when a project was asked
      for, every villa is filed under it. */
  function GetVillas(projectId: string, response: seq<VillaResponse>, now: Timeline.Instant): (r: seq<Villa>)
    ensures |r| == |response|
    ensures forall i :: 0 <= i < |r| ==> r[i] == ToVilla(projectId, response[i], now)
    ensures projectId != "" ==> forall i :: 0 <= i < |r| ==> r[i].projectId == projectId
  {
    seq(|response|, i requires 0 <= i < |response| => ToVilla(projectId, response[i], now))
  }

  /** What `createVilla` is given: `projectId`, the id of a `project` object (both "" when
      absent), and the status token. */
  datatype VillaData = VillaData(projectId: string, projectRef: string, status: Option<string>)

  /** What `createVilla` sends: the project id as a number (`None` for `NaN`) and the status. */
  datatype VillaBody = VillaBody(project: Option<int>, status: Option<string>)

  /** `createVilla`'s request body: the project id is the first non-empty of the flat id, the
      project object's id and "0", parsed; the status is upper-cased for the backend's enum. */
  function CreateVillaPayload(v: VillaData): (b: VillaBody)
    ensures v.projectId != "" ==> b.project == Decimal.ParseInt(v.projectId)
    ensures v.projectId == "" && v.projectRef != "" ==> b.project == Decimal.ParseInt(v.projectRef)
    ensures v.projectId == "" && v.projectRef == "" ==> b.project == Some(0)
    ensures b.status.Some? <==> v.status.Some?
    ensures b.status.Some? ==> |b.status.value| == |v.status.value|
    ensures b.status.Some? ==> forall i :: 0 <= i < |b.status.value| ==> b.status.value[i] == Text.UpperChar(v.status.value[i])
  {
    Decimal.ParseShow(0);
    var raw := if v.projectId != "" then v.projectId else if v.projectRef != "" then v.projectRef else "0";
    VillaBody(Decimal.ParseInt(raw), if v.status.Some? then Some(Text.ToUpper(v.status.value)) else None)
  }

  /** A client project id written from a number reaches the backend as that number. */
  lemma CreateVillaKeepsProject(n: int, projectRef: string, status: Option<string>)
    ensures CreateVillaPayload(VillaData(Decimal.Show(n), projectRef, status)).project == Some(n)
  {
    Decimal.ParseShow(n);
  }

  /** The upper-cased client token of a villa status is the backend's name for it. */
  lemma UpperVillaToken(st: VillaStatus)
    ensures Text.ToUpper(VillaStatusToken(st)) == BackendVillaStatusName(st)
  {
    match st
    case NotStarted => Text.ToUpperByChars("not_started", "NOT_STARTED");
    case InProgress => Text.ToUpperByChars("in_progress", "IN_PROGRESS");
    case Completed => Text.ToUpperByChars("completed", "COMPLETED");
    case Delayed => Text.ToUpperByChars("delayed", "DELAYED");
  }

  /** A villa created with a status token is read back, after the backend stores the upper-cased
      token, with the same status. */
  lemma CreateVillaStatusRoundTrip(projectId: string, projectRef: string, st: VillaStatus)
    ensures NormaliseVillaStatus(CreateVillaPayload(VillaData(projectId, projectRef, Some(VillaStatusToken(st)))).status) == st
  {
    UpperVillaToken(st);
    NormaliseBackendStatus(st);
  }

  /** A villa created under a client project id written from a non-zero number, and sent back by
      the backend with that project and the stored status, is fetched under the same project id
      and with the same status. */
  lemma CreatedVillaIsFetchedBack(n: int, st: VillaStatus, id: Option<int>, now: Timeline.Instant)
    requires n != 0
    ensures var b := CreateVillaPayload(VillaData(Decimal.Show(n), "", Some(VillaStatusToken(st))));
      var v := ToVilla("", VillaResponse(id, b.project, None, b.status), now);
      v.projectId == Decimal.Show(n) && v.status == st
  {
    CreateVillaKeepsProject(n, "", Some(VillaStatusToken(st)));
    CreateVillaStatusRoundTrip(Decimal.Show(n), "", st);
  }

  /** Fetching works villa by villa: the answer for two batches is the two answers in order. */
  lemma GetVillasAppend(projectId: string, a: seq<VillaResponse>, b: seq<VillaResponse>, now: Timeline.Instant)
    ensures GetVillas(projectId, a + b, now) == GetVillas(projectId, a, now) + GetVillas(projectId, b, now)
  {
    var l, m, r := GetVillas(projectId, a + b, now), GetVillas(projectId, a, now), GetVillas(projectId, b, now);
    assert forall i :: 0 <= i < |l| ==> l[i] == (m + r)[i] by {
      forall i | 0 <= i < |l| ensures l[i] == (m + r)[i] {
        if i < |a| { assert (a + b)[i] == a[i]; } else { assert (a + b)[i] == b[i - |a|]; }
      }
    }
  }

  // ---- tasks ----

  /** The body `createTask` posts: the ids of the category, the villa and the team (`None`, sent as
      `null`, for no team), the four dates as calendar days, and the enums upper-cased. */
  datatype TaskBody = TaskBody(
    name: string,
    description: string,
    category: string,
    villa: string,
    team: Option<string>,
    startDate: int,
    endDate: int,
    plannedStartDate: int,
    plannedEndDate: int,
    status: string,
    progress: int,
    progressStatus: string,
    isReceived: bool,
    isPaid: bool,
    amount: int,
    remarks: string)

  /** `createTask`'s request body. */
  function TaskPayload(t: Task): (b: TaskBody)
    ensures b.team.None? <==> t.teamId == ""
    ensures b.team.Some? ==> b.team.value == t.teamId
    ensures b.category == t.categoryId && b.villa == t.villaId
    ensures b.startDate == Timeline.DayOf(t.startDate) && b.endDate == Timeline.DayOf(t.endDate)
    ensures b.plannedStartDate == Timeline.DayOf(t.plannedStartDate) && b.plannedEndDate == Timeline.DayOf(t.plannedEndDate)
    ensures b.amount == t.amount.GetOr(0)
    ensures b.name == t.name && b.description == t.description && b.remarks == t.remarks
    ensures b.progress == t.progress && b.isReceived == t.isReceived && b.isPaid == t.isPaid
  {
    TaskBody(
      t.name, t.description, t.categoryId, t.villaId,
      if t.teamId != "" then Some(t.teamId) else None,
      Timeline.DayOf(t.startDate), Timeline.DayOf(t.endDate),
      Timeline.DayOf(t.plannedStartDate), Timeline.DayOf(t.plannedEndDate),
      Text.ToUpper(StatusToken(t.status)), t.progress, Text.ToUpper(ProgressToken(t.progressStatus)),
      t.isReceived, t.isPaid, t.amount.GetOr(0), t.remarks)
  }

  /** The backend's task status for a client status. */
  function ToBackendStatus(st: Status): Entities.TaskStatus
  {
    match st
    case Pending => Entities.TaskStatus.Pending
    case InProgress => Entities.TaskStatus.InProgress
    case Completed => Entities.TaskStatus.Completed
    case Delayed => Entities.TaskStatus.Delayed
  }

  /** The backend's progress status for a client progress status. */
  function ToBackendProgressStatus(ps: ProgressStatus): Entities.ProgressStatus
  {
    match ps
    case OnSchedule => Entities.ProgressStatus.OnSchedule
    case Ahead => Entities.ProgressStatus.Ahead
    case Behind => Entities.ProgressStatus.Behind
    case AtRisk => Entities.ProgressStatus.AtRisk
  }

  /** How the backend reads a task status: by the exact name of the enum constant. */
  function ParseTaskStatus(s: string): (r: Option<Entities.TaskStatus>)
    ensures r == Some(Entities.TaskStatus.Pending) <==> s == "PENDING"
    ensures r == Some(Entities.TaskStatus.InProgress) <==> s == "IN_PROGRESS"
    ensures r == Some(Entities.TaskStatus.Completed) <==> s == "COMPLETED"
    ensures r == Some(Entities.TaskStatus.Delayed) <==> s == "DELAYED"
  {
    if s == "PENDING" then Some(Entities.TaskStatus.Pending)
    else if s == "IN_PROGRESS" then Some(Entities.TaskStatus.InProgress)
    else if s == "COMPLETED" then Some(Entities.TaskStatus.Completed)
    else if s == "DELAYED" then Some(Entities.TaskStatus.Delayed)
    else None
  }

  /** How the backend reads a progress status. */
  function ParseProgressStatus(s: string): (r: Option<Entities.ProgressStatus>)
    ensures r == Some(Entities.ProgressStatus.OnSchedule) <==> s == "ON_SCHEDULE"
    ensures r == Some(Entities.ProgressStatus.Ahead) <==> s == "AHEAD"
    ensures r == Some(Entities.ProgressStatus.Behind) <==> s == "BEHIND"
    ensures r == Some(Entities.ProgressStatus.AtRisk) <==> s == "AT_RISK"
  {
    if s == "ON_SCHEDULE" then Some(Entities.ProgressStatus.OnSchedule)
    else if s == "AHEAD" then Some(Entities.ProgressStatus.Ahead)
    else if s == "BEHIND" then Some(Entities.ProgressStatus.Behind)
    else if s == "AT_RISK" then Some(Entities.ProgressStatus.AtRisk)
    else None
  }

  /** The backend reads the upper-cased token of a task status as that status. */
  lemma UpperStatusToken(st: Status)
    ensures ParseTaskStatus(Text.ToUpper(StatusToken(st))) == Some(ToBackendStatus(st))
  {
    match st
    case Pending => Text.ToUpperByChars("pending", "PENDING");
    case InProgress => Text.ToUpperByChars("in_progress", "IN_PROGRESS");
    case Completed => Text.ToUpperByChars("completed", "COMPLETED");
    case Delayed => Text.ToUpperByChars("delayed", "DELAYED");
  }

  /** The backend reads the upper-cased token of a progress status as that status. */
  lemma UpperProgressToken(ps: ProgressStatus)
    ensures ParseProgressStatus(Text.ToUpper(ProgressToken(ps))) == Some(ToBackendProgressStatus(ps))
  {
    match ps
    case OnSchedule => Text.ToUpperByChars("on_schedule", "ON_SCHEDULE");
    case Ahead => Text.ToUpperByChars("ahead", "AHEAD");
    case Behind => Text.ToUpperByChars("behind", "BEHIND");
    case AtRisk => Text.ToUpperByChars("at_risk", "AT_RISK");
  }

  /** The upper-cased client tokens are exactly the backend's enum names, so the backend reads
      every task the client posts with the statuses the client meant. */
  lemma BackendReadsTaskPayload(t: Task)
    ensures ParseTaskStatus(TaskPayload(t).status) == Some(ToBackendStatus(t.status))
    ensures ParseProgressStatus(TaskPayload(t).progressStatus) == Some(ToBackendProgressStatus(t.progressStatus))
  {
    UpperStatusToken(t.status);
    UpperProgressToken(t.progressStatus);
  }

  /** For a task whose dates fall on midnights, as the dashboard creates them, the days sent span
      as many days as the task does. */
  lemma PayloadKeepsWindow(t: Task)
    requires Dashboard.DatesAtMidnight(t)
    ensures TaskPayload(t).endDate - TaskPayload(t).startDate == Timeline.CeilDays(t.startDate, t.endDate)
    ensures TaskPayload(t).plannedEndDate - TaskPayload(t).plannedStartDate == Timeline.CeilDays(t.plannedStartDate, t.plannedEndDate)
  {
    var a := Timeline.DayOf(t.startDate);
    var b := Timeline.DayOf(t.endDate);
    assert t.startDate == a * Timeline.DayMs && t.endDate == b * Timeline.DayMs;
    assert t.endDate - t.startDate == (b - a) * Timeline.DayMs;
    var c := Timeline.DayOf(t.plannedStartDate);
    var d := Timeline.DayOf(t.plannedEndDate);
    assert t.plannedStartDate == c * Timeline.DayMs && t.plannedEndDate == d * Timeline.DayMs;
    assert t.plannedEndDate - t.plannedStartDate == (d - c) * Timeline.DayMs;
  }

  /** The dashboard's progress rule and the backend's agree whenever the progress is positive. */
  lemma ProgressRulesAgree(st: Status, progress: int)
    requires progress > 0
    ensures ToBackendStatus(Dashboard.StatusForProgress(progress)) == TaskService.StatusAfterProgress(ToBackendStatus(st), progress)
  {
  }

  /** At zero progress they differ: the dashboard resets the task to pending, the backend keeps
      whatever status the task had. */
  lemma ProgressRulesDifferAtZero(st: Status)
    requires st != Status.Pending
    ensures ToBackendStatus(Dashboard.StatusForProgress(0)) != TaskService.StatusAfterProgress(ToBackendStatus(st), 0)
  {
  }

  // ---- teams ----

  datatype ApiError = InvalidTeamId(id: string)

  /** The endpoint `updateTeam` and `deleteTeam` address: the id must parse as a number, which is
      then written back in decimal. */
  function TeamEndpoint(id: string): (r: Result<string, ApiError>)
    ensures r.Err? <==> Decimal.ParseInt(id).None?
    ensures r.Err? ==> r.error == InvalidTeamId(id)
    ensures r.Ok? ==> r.value == "/teams/" + Decimal.Show(Decimal.ParseInt(id).value)
    ensures r.Ok? ==> Text.StartsWith(r.value, "/teams/") && Decimal.ParseInt(r.value[7..]) == Decimal.ParseInt(id)
  {
    var n := Decimal.ParseInt(id);
    if n.None? then Err(InvalidTeamId(id))
    else
      var r := "/teams/" + Decimal.Show(n.value);
      assert r[7..] == Decimal.Show(n.value);
      Decimal.ParseShow(n.value);
      Ok(r)
  }

  /** A team id written from a number addresses that team. */
  lemma TeamEndpointOfShow(n: int)
    ensures TeamEndpoint(Decimal.Show(n)) == Ok("/teams/" + Decimal.Show(n))
  {
    Decimal.ParseShow(n);
  }

  /** The check is `parseInt`'s: an id with trailing text after its digits still passes, and
      addresses the team its digits name. */
  lemma TeamEndpointIgnoresTrailingText(n: int, rest: string)
    requires |rest| == 0 || !Decimal.IsDigit(rest[0])
    ensures TeamEndpoint(Decimal.Show(n) + rest) == Ok("/teams/" + Decimal.Show(n))
  {
    Decimal.ParseShowPrefix(n, rest);
  }

  /** The body `createTeam` posts: the team without an id (`null`), so that the backend assigns one. */
  datatype TeamBody = TeamBody(
    id: Option<int>,
    name: string,
    specialty: string,
    membersCount: Option<int>,
    activeTasks: int,
    performance: int,
    lastActivity: Option<Timeline.Instant>)

  function CreateTeamPayload(team: NewTeam): (b: TeamBody)
    ensures b.id.None?
    ensures b.name == team.name && b.specialty == team.specialty && b.membersCount == team.membersCount
    ensures b.activeTasks == team.activeTasks && b.performance == team.performance && b.lastActivity == team.lastActivity
  {
    TeamBody(None, team.name, team.specialty, team.membersCount, team.activeTasks, team.performance, team.lastActivity)
  }

  /** A team as the server sends it back. */
  datatype TeamResponse = TeamResponse(
    id: Option<int>,
    name: string,
    specialty: string,
    membersCount: Option<int>,
    activeTasks: Option<int>,
    performance: Option<int>,
    lastActivity: Option<Timeline.Instant>)

  /** What the backend answers to a create request it saves as given, under the id `id`. */
  function Echo(b: TeamBody, id: int): TeamResponse
  {
    TeamResponse(Some(id), b.name, b.specialty, b.membersCount, Some(b.activeTasks), Some(b.performance), b.lastActivity)
  }

  /** The number a response carries, 0 when it carries none. */
  function OrZero(n: Option<int>): (r: int)
    ensures Truthy(n) ==> r == n.value
    ensures !Truthy(n) ==> r == 0
  {
    n.GetOr(0)
  }

  /** `createTeam`'s result: the response's fields, each defaulting to empty or 0, a missing id
      replaced by a temporary one, a missing time by now. */
  function CreateTeamResponse(r: TeamResponse, now: Timeline.Instant): (t: Team)
    ensures Truthy(r.id) ==> t.id == Decimal.Show(r.id.value) && Decimal.ParseInt(t.id) == r.id
    ensures !Truthy(r.id) ==> t.id == "temp-" + Decimal.Show(now)
    ensures t.name == r.name && t.specialty == r.specialty
    ensures t.membersCount == OrZero(r.membersCount) && t.activeTasks == OrZero(r.activeTasks)
    ensures t.performance == OrZero(r.performance) && t.lastActivity == r.lastActivity.GetOr(now)
  {
    Decimal.ParseShow(if r.id.Some? then r.id.value else 0);
    Team(if Truthy(r.id) then Decimal.Show(r.id.value) else "temp-" + Decimal.Show(now),
         r.name, r.specialty, OrZero(r.membersCount), OrZero(r.activeTasks), OrZero(r.performance),
         r.lastActivity.GetOr(now))
  }

  /** A team saved as given comes back as it was sent, under the new id; a member count that did
      not parse comes back as 0. */
  lemma CreateTeamRoundTrip(team: NewTeam, id: int, now: Timeline.Instant)
    requires id != 0
    ensures var t := CreateTeamResponse(Echo(CreateTeamPayload(team), id), now);
      && t.id == Decimal.Show(id)
      && t.name == team.name && t.specialty == team.specialty
      && t.membersCount == team.membersCount.GetOr(0)
      && t.activeTasks == team.activeTasks && t.performance == team.performance
      && t.lastActivity == team.lastActivity.GetOr(now)
  {
  }

  /** The fields `updateTeam` is given; absent ones are `None` or empty. */
  datatype TeamPatch = TeamPatch(
    name: string,
    specialty: string,
    membersCount: Option<int>,
    activeTasks: Option<int>,
    performance: Option<int>,
    lastActivity: Option<Timeline.Instant>)

  /** `a || b || 0` on optional numbers. */
  function FirstTruthy(a: Option<int>, b: Option<int>): (r: int)
    ensures Truthy(a) ==> r == a.value
    ensures !Truthy(a) && Truthy(b) ==> r == b.value
    ensures !Truthy(a) && !Truthy(b) ==> r == 0
  {
    if Truthy(a) then a.value else if Truthy(b) then b.value else 0
  }

  /** `a || b || ''` on strings. */
  function FirstFilled(a: string, b: string): (r: string)
    ensures a != "" ==> r == a
    ensures a == "" ==> r == b
  {
    if a != "" then a else if b != "" then b else ""
  }

  /** `updateTeam`'s result: for every field, the response's value when it is truthy, else the
      patch's, else empty or 0; the id falls back to the one asked for and the time to now. */
  function MergeTeamResponse(id: string, r: TeamResponse, patch: TeamPatch, now: Timeline.Instant): (t: Team)
    ensures Truthy(r.id) ==> t.id == Decimal.Show(r.id.value) && Decimal.ParseInt(t.id) == r.id
    ensures !Truthy(r.id) ==> t.id == id
    ensures t.name == FirstFilled(r.name, patch.name) && t.specialty == FirstFilled(r.specialty, patch.specialty)
    ensures t.membersCount == FirstTruthy(r.membersCount, patch.membersCount)
    ensures t.activeTasks == FirstTruthy(r.activeTasks, patch.activeTasks)
    ensures t.performance == FirstTruthy(r.performance, patch.performance)
    ensures t.lastActivity == (if r.lastActivity.Some? then r.lastActivity.value else patch.lastActivity.GetOr(now))
  {
    Decimal.ParseShow(if r.id.Some? then r.id.value else 0);
    Team(if Truthy(r.id) then Decimal.Show(r.id.value) else id,
         FirstFilled(r.name, patch.name), FirstFilled(r.specialty, patch.specialty),
         FirstTruthy(r.membersCount, patch.membersCount),
         FirstTruthy(r.activeTasks, patch.activeTasks),
         FirstTruthy(r.performance, patch.performance),
         if r.lastActivity.Some? then r.lastActivity.value else patch.lastActivity.GetOr(now))
  }

  /** The patch a merged team amounts to. */
  function AsPatch(t: Team): TeamPatch
  {
    TeamPatch(t.name, t.specialty, Some(t.membersCount), Some(t.activeTasks), Some(t.performance), Some(t.lastActivity))
  }

  /** Merging the same response into an already merged team changes nothing but the id. */
  lemma MergeIdempotent(id: string, r: TeamResponse, patch: TeamPatch, now: Timeline.Instant)
    ensures var t := MergeTeamResponse(id, r, patch, now);
      MergeTeamResponse(t.id, r, AsPatch(t), now) == t
  {
  }

  /** When the server echoes the patch, the result carries the patch's values. */
  lemma MergeOfEchoIsPatch(id: string, patch: TeamPatch, now: Timeline.Instant)
    ensures var r := TeamResponse(None, patch.name, patch.specialty, patch.membersCount, patch.activeTasks, patch.performance, patch.lastActivity);
      var t := MergeTeamResponse(id, r, patch, now);
      && t.id == id && t.name == patch.name && t.specialty == patch.specialty
      && t.membersCount == patch.membersCount.GetOr(0) && t.activeTasks == patch.activeTasks.GetOr(0)
      && t.performance == patch.performance.GetOr(0) && t.lastActivity == patch.lastActivity.GetOr(now)
  {
  }

  /** A 0 from the server does not win over the patch: the client then shows the patch's number,
      not the server's. */
  lemma ZeroFromServerYieldsToPatch(id: string, r: TeamResponse, patch: TeamPatch, now: Timeline.Instant)
    requires r.performance == Some(0) && Truthy(patch.performance)
    ensures MergeTeamResponse(id, r, patch, now).performance == patch.performance.value
  {
  }
}

=== FILE: category_repository.dfy ===
/** The category queries: by villa, team and status, by project through the villa, and the counts. */
module CategoryRepository {
  import opened Wrappers
  import opened Entities
  import opened Repository
  import Seqs

  /** The project of a category, reached as `c.villa.project.id`. */
  function ProjectOf(s: Store, c: Category): Option<Id>
  {
    if c.villaId in s.villas then s.villas[c.villaId].projectId else None
  }

  function InVilla(v: Id): Category -> bool { (c: Category) => c.villaId == v }
  function OfTeam(team: Id): Category -> bool { (c: Category) => c.team == Some(team) }
  function WithStatus(st: CategoryStatus): Category -> bool { (c: Category) => c.status == st }
  function InVillaWithStatus(v: Id, st: CategoryStatus): Category -> bool
  {
    (c: Category) => c.villaId == v && c.status == st
  }
  function InProject(s: Store, pid: Id): Category -> bool { (c: Category) => ProjectOf(s, c) == Some(pid) }

  /** Tests the status of the category a key names. */
  function KeyWithStatus(s: Store, st: CategoryStatus): Id -> bool
  {
    id => id in s.categories && s.categories[id].status == st
  }

  /** Runs a category query: the keys of the matching categories, in primary-key order. */
  function Find(s: Store, p: Category -> bool): (r: seq<Id>)
    requires Valid(s)
    ensures forall id :: id in r <==> id in s.categories && p(s.categories[id])
    ensures Ascending(r)
  {
    ScanSound(s.categories, s.nextCategoryId, p);
    ScanComplete(s.categories, s.nextCategoryId, p);
    ScanAscending(s.categories, s.nextCategoryId, p);
    Scan(s.categories, s.nextCategoryId, p)
  }

  /** `findByVillaId`. */
  function FindByVillaId(s: Store, v: Id): (r: seq<Id>)
    requires Valid(s)
    ensures forall id :: id in r <==> id in s.categories && s.categories[id].villaId == v
    ensures Ascending(r)
  {
    Find(s, InVilla(v))
  }

  /** `findByTeamId`. */
  function FindByTeamId(s: Store, team: Id): (r: seq<Id>)
    requires Valid(s)
    ensures forall id :: id in r <==> id in s.categories && s.categories[id].team == Some(team)
    ensures Ascending(r)
  {
    Find(s, OfTeam(team))
  }

  /** `findByStatus`. */
  function FindByStatus(s: Store, st: CategoryStatus): (r: seq<Id>)
    requires Valid(s)
    ensures forall id :: id in r <==> id in s.categories && s.categories[id].status == st
    ensures Ascending(r)
  {
    Find(s, WithStatus(st))
  }

  /** `findByVillaIdAndStatus`. */
  function FindByVillaIdAndStatus(s: Store, v: Id, st: CategoryStatus): (r: seq<Id>)
    requires Valid(s)
    ensures forall id :: id in r <==> id in s.categories && s.categories[id].villaId == v && s.categories[id].status == st
    ensures Ascending(r)
  {
    Find(s, InVillaWithStatus(v, st))
  }

  /** `findByProjectId`: membership goes through the villa. */
  function FindByProjectId(s: Store, pid: Id): (r: seq<Id>)
    requires Valid(s)
    ensures forall id :: id in r <==> id in s.categories && ProjectOf(s, s.categories[id]) == Some(pid)
    ensures Ascending(r)
  {
    Find(s, InProject(s, pid))
  }

  /** `countByVillaId`: the number of the villa's categories among the keys handed out so far. */
  function CountByVillaId(s: Store, v: Id): (r: nat)
    ensures r == |MatchingBelow(s.categories, s.nextCategoryId, InVilla(v))|
  {
    CountIsCardinalityBelow(s.categories, s.nextCategoryId, InVilla(v));
    CountRows(s.categories, s.nextCategoryId, InVilla(v))
  }

  /** `countByVillaIdAndStatus`: the number of the villa's categories with the status, among the keys
      handed out so far. */
  function CountByVillaIdAndStatus(s: Store, v: Id, st: CategoryStatus): (r: nat)
    ensures r == |MatchingBelow(s.categories, s.nextCategoryId, InVillaWithStatus(v, st))|
  {
    CountIsCardinalityBelow(s.categories, s.nextCategoryId, InVillaWithStatus(v, st));
    CountRows(s.categories, s.nextCategoryId, InVillaWithStatus(v, st))
  }

  /** The count query agrees with the find query for the same villa. */
  lemma CountByVillaIdIsFindSize(s: Store, v: Id)
    requires Valid(s)
    ensures CountByVillaId(s, v) == |FindByVillaId(s, v)|
  {
    CountIsScanLength(s.categories, s.nextCategoryId, InVilla(v));
  }

  /** The status count agrees with the villa-and-status find query. */
  lemma CountByVillaIdAndStatusIsFindSize(s: Store, v: Id, st: CategoryStatus)
    requires Valid(s)
    ensures CountByVillaIdAndStatus(s, v, st) == |FindByVillaIdAndStatus(s, v, st)|
  {
    CountIsScanLength(s.categories, s.nextCategoryId, InVillaWithStatus(v, st));
  }

  /** Restricting to one status never counts more categories. */
  lemma CountWithStatusAtMostCount(s: Store, v: Id, st: CategoryStatus)
    ensures CountByVillaIdAndStatus(s, v, st) <= CountByVillaId(s, v)
  {
    CountMonotone(s.categories, s.nextCategoryId, InVillaWithStatus(v, st), InVilla(v));
  }

  /** The villa-and-status query is the villa query filtered by status, in the same order. */
  lemma VillaAndStatusFiltersVilla(s: Store, v: Id, st: CategoryStatus)
    requires Valid(s)
    ensures FindByVillaIdAndStatus(s, v, st) == Seqs.Filter(KeyWithStatus(s, st), FindByVillaId(s, v))
  {
    ScanConjunction(s.categories, s.nextCategoryId, InVilla(v), InVillaWithStatus(v, st), KeyWithStatus(s, st));
  }
}

=== FILE: category_service.dfy ===
/** `CategoryService`: category CRUD and the recomputation of a category's task statistics.
    Each operation either fails, leaving the database as it was (the transaction rolls back), or
    returns the new database. The villa statistics refresh it ends with is not part of this model. */
module CategoryService {
  import opened Wrappers
  import opened Entities
  import opened Repository
  import TaskRepository

  /** The status the statistics give a category whose tasks are `progress` percent completed. */
  function StatusForProgress(progress: int): (st: CategoryStatus)
    ensures st == CategoryStatus.OnSchedule <==> progress == 100
    ensures st == CategoryStatus.InProgress <==> progress > 75 && progress != 100
    ensures st == CategoryStatus.Warning <==> 50 < progress <= 75
    ensures st == CategoryStatus.Delayed <==> progress <= 50
  {
    if progress == 100 then CategoryStatus.OnSchedule
    else if progress > 75 then CategoryStatus.InProgress
    else if progress > 50 then CategoryStatus.Warning
    else CategoryStatus.Delayed
  }

  /** How well a status says the category is doing, worst first. */
  function Standing(st: CategoryStatus): nat
  {
    match st
    case Delayed => 0
    case Warning => 1
    case InProgress => 2
    case OnSchedule => 3
  }

  /** More progress never gives a worse status. */
  lemma StatusMonotone(p: int, q: int)
    requires p <= q <= 100
    ensures Standing(StatusForProgress(p)) <= Standing(StatusForProgress(q))
  {
  }

  /** The counters of `c` are the number of tasks of its category in `s`, and of those completed. */
  ghost predicate CountersMatch(s: Store, c: Category)
  {
    && c.tasksCount == |Matching(s.tasks, TaskRepository.InCategory(c.id))|
    && c.completedTasks == |Matching(s.tasks, TaskRepository.CompletedInCategory(c.id))|
  }

  /** `after` is `before` with its statistics recomputed from the tasks of `s`: the counters are
      reset, and when there is at least one task the progress becomes the completed percentage
      rounded down, with the matching status; otherwise progress and status are kept. */
  ghost predicate Recomputed(s: Store, before: Category, after: Category)
  {
    && CountersMatch(s, after)
    && 0 <= after.completedTasks <= after.tasksCount
    && after == before.(tasksCount := after.tasksCount, completedTasks := after.completedTasks,
                        progress := after.progress, status := after.status)
    && (after.tasksCount > 0 ==>
          && 0 <= after.progress <= 100
          && after.progress * after.tasksCount <= after.completedTasks * 100 < (after.progress + 1) * after.tasksCount
          && after.status == StatusForProgress(after.progress))
    && (after.tasksCount == 0 ==> after.progress == before.progress && after.status == before.status)
  }

  /** `updateCategoryStats(categoryId)`. */
  function UpdateCategoryStats(s: Store, cid: Id): (r: Result<Store, Error>)
    requires Valid(s)
    ensures r.Err? <==> cid !in s.categories
    ensures r.Err? ==> r.error == NotFoundWithId(CategoryKind, cid)
    ensures r.Ok? ==> Valid(r.value)
    ensures r.Ok? ==> r.value == s.(categories := r.value.categories)
    ensures r.Ok? ==> cid in r.value.categories && r.value.categories == s.categories[cid := r.value.categories[cid]]
    ensures r.Ok? ==> Recomputed(s, s.categories[cid], r.value.categories[cid])
  {
    if cid !in s.categories then Err(NotFoundWithId(CategoryKind, cid))
    else
      var c := s.categories[cid];
      var total := TaskRepository.CountByCategoryId(s, cid);
      var completed := TaskRepository.CountCompletedByCategoryId(s, cid);
      TaskRepository.CategoryCountsAreCardinalities(s, cid);
      TaskRepository.CompletedAtMostCount(s, cid);
      var counted := c.(tasksCount := total, completedTasks := completed);
      var updated :=
        if total > 0 then
          var progress := Percent(completed, total);
          counted.(progress := progress, status := StatusForProgress(progress))
        else counted;
      Ok(s.(categories := s.categories[cid := updated]))
  }

  /** Recomputing statistics that were just recomputed changes nothing. */
  lemma UpdateCategoryStatsIdempotent(s: Store, cid: Id)
    requires Valid(s) && UpdateCategoryStats(s, cid).Ok?
    ensures UpdateCategoryStats(UpdateCategoryStats(s, cid).value, cid) == UpdateCategoryStats(s, cid)
  {
    var s' := UpdateCategoryStats(s, cid).value;
    assert TaskRepository.CountByCategoryId(s', cid) == TaskRepository.CountByCategoryId(s, cid);
    assert TaskRepository.CountCompletedByCategoryId(s', cid) == TaskRepository.CountCompletedByCategoryId(s, cid);
    var c' := s'.categories[cid];
    assert c'.(tasksCount := c'.tasksCount, completedTasks := c'.completedTasks) == c';
    assert s'.categories[cid := c'] == s'.categories;
  }

  /** `createCategory`: the villa must exist, and a team given by id must exist; the category is
      saved under the next key with every other field as given. */
  function CreateCategory(s: Store, c: Category): (r: Result<(Store, Category), Error>)
    requires Valid(s)
    ensures c.villaId !in s.villas ==> r == Err(NotFound(VillaKind))
    ensures c.villaId in s.villas && c.team.Some? && c.team.value !in s.teams ==> r == Err(NotFound(TeamKind))
    ensures r.Ok? <==> c.villaId in s.villas && (c.team.Some? ==> c.team.value in s.teams)
    ensures r.Ok? ==> var (s', saved) := r.value;
      && Valid(s')
      && saved.id !in s.categories
      && saved == c.(id := saved.id)
      && s' == s.(categories := s.categories[saved.id := saved], nextCategoryId := s'.nextCategoryId)
  {
    if c.villaId !in s.villas then Err(NotFound(VillaKind))
    else if c.team.Some? && c.team.value !in s.teams then Err(NotFound(TeamKind))
    else
      var saved := c.(id := s.nextCategoryId);
      Ok((s.(categories := s.categories[saved.id := saved], nextCategoryId := s.nextCategoryId + 1), saved))
  }

  /** The fields `updateCategory` copies from the request: name, dates, progress and status; the
      team only when one is given by id. Villa and counters stay. */
  function ApplyCategoryDetails(c: Category, d: Category): (u: Category)
    ensures u.id == c.id && u.villaId == c.villaId
    ensures u.tasksCount == c.tasksCount && u.completedTasks == c.completedTasks
    ensures u.name == d.name && u.startDate == d.startDate && u.endDate == d.endDate
    ensures u.progress == d.progress && u.status == d.status
    ensures u.team == if d.team.Some? then d.team else c.team
  {
    var named := c.(name := d.name, startDate := d.startDate, endDate := d.endDate,
                    progress := d.progress, status := d.status);
    if d.team.Some? then named.(team := d.team) else named
  }

  /** Updating twice with the same request is updating once. */
  lemma ApplyCategoryDetailsIdempotent(c: Category, d: Category)
    ensures ApplyCategoryDetails(ApplyCategoryDetails(c, d), d) == ApplyCategoryDetails(c, d)
  {
  }

  /** `updateCategory(id, details)`. */
  function UpdateCategory(s: Store, id: Id, d: Category): (r: Result<(Store, Category), Error>)
    requires Valid(s)
    ensures id !in s.categories ==> r == Err(NotFoundWithId(CategoryKind, id))
    ensures id in s.categories && d.team.Some? && d.team.value !in s.teams ==> r == Err(NotFound(TeamKind))
    ensures r.Ok? <==> id in s.categories && (d.team.Some? ==> d.team.value in s.teams)
    ensures r.Ok? ==> var (s', saved) := r.value;
      && Valid(s')
      && saved == ApplyCategoryDetails(s.categories[id], d)
      && s' == s.(categories := s.categories[id := saved])
  {
    if id !in s.categories then Err(NotFoundWithId(CategoryKind, id))
    else if d.team.Some? && d.team.value !in s.teams then Err(NotFound(TeamKind))
    else
      var saved := ApplyCategoryDetails(s.categories[id], d);
      Ok((s.(categories := s.categories[id := saved]), saved))
  }

  /** `deleteCategory(id)`: removes the row and nothing else. */
  function DeleteCategory(s: Store, id: Id): (r: Result<Store, Error>)
    requires Valid(s)
    ensures r.Err? <==> id !in s.categories
    ensures r.Err? ==> r.error == NotFoundWithId(CategoryKind, id)
    ensures r.Ok? ==> Valid(r.value) && r.value == s.(categories := s.categories - {id})
  {
    if id !in s.categories then Err(NotFoundWithId(CategoryKind, id))
    else Ok(s.(categories := s.categories - {id}))
  }

  /** Deleting the category just created succeeds and gives the original rows back; only the key
      counter has moved on. */
  lemma DeleteUndoesCreateCategory(s: Store, c: Category)
    requires Valid(s) && CreateCategory(s, c).Ok?
    ensures var (s', saved) := CreateCategory(s, c).value;
      && DeleteCategory(s', saved.id).Ok?
      && DeleteCategory(s', saved.id).value == s.(nextCategoryId := s'.nextCategoryId)
      && s'.nextCategoryId > s.nextCategoryId
  {
    var (s', saved) := CreateCategory(s, c).value;
    assert s.categories[saved.id := saved] - {saved.id} == s.categories;
  }
}

=== FILE: client_model.dfy ===
/** The records the web client keeps in its store. Keys are strings, dates are `Date` values
    (instants in milliseconds), statuses are the lower-case tokens of the client's types, and the
    optional amount is `None` where the client leaves it `undefined`. An empty `teamId` means no team. */
module ClientModel {
  import opened Wrappers
  import Timeline

  datatype Status = Pending | InProgress | Completed | Delayed

  datatype ProgressStatus = OnSchedule | Ahead | Behind | AtRisk

  datatype CategoryStatus = OnSchedule | InProgress | Warning | Delayed

  /** The token the client writes for a task status. */
  function StatusToken(st: Status): string
  {
    match st
    case Pending => "pending"
    case InProgress => "in_progress"
    case Completed => "completed"
    case Delayed => "delayed"
  }

  /** The token the client writes for a progress status. */
  function ProgressToken(ps: ProgressStatus): string
  {
    match ps
    case OnSchedule => "on_schedule"
    case Ahead => "ahead"
    case Behind => "behind"
    case AtRisk => "at_risk"
  }

  datatype Task = Task(
    id: string,
    categoryId: string,
    villaId: string,
    teamId: string,
    name: string,
    description: string,
    startDate: Timeline.Instant,
    endDate: Timeline.Instant,
    plannedStartDate: Timeline.Instant,
    plannedEndDate: Timeline.Instant,
    status: Status,
    progress: int,
    progressStatus: ProgressStatus,
    isReceived: bool,
    isPaid: bool,
    amount: Option<int>,
    remarks: string,
    createdAt: Timeline.Instant,
    updatedAt: Timeline.Instant)

  datatype Category = Category(
    id: string,
    villaId: string,
    name: string,
    startDate: Timeline.Instant,
    endDate: Timeline.Instant,
    progress: int,
    status: CategoryStatus,
    tasksCount: int,
    completedTasks: int)

  datatype Team = Team(
    id: string,
    name: string,
    specialty: string,
    membersCount: int,
    activeTasks: int,
    performance: int,
    lastActivity: Timeline.Instant)

  /** A team not yet saved (`Omit<Team, 'id'>`). A member count that did not parse is `None`
      (`NaN`, which the request body carries as `null`). */
  datatype NewTeam = NewTeam(
    name: string,
    specialty: string,
    membersCount: Option<int>,
    activeTasks: int,
    performance: int,
    lastActivity: Option<Timeline.Instant>)

  datatype VillaStatus = NotStarted | InProgress | Completed | Delayed

  /** The token the client writes for a villa status. */
  function VillaStatusToken(st: VillaStatus): string
  {
    match st
    case NotStarted => "not_started"
    case InProgress => "in_progress"
    case Completed => "completed"
    case Delayed => "delayed"
  }

  /** A villa as the client keeps it; an empty `projectId` means no project. */
  datatype Villa = Villa(id: string, projectId: string, status: VillaStatus)
}

=== FILE: dashboard.dfy ===
/** The task and category handlers of the tree-view dashboard: creating a task from the task form,
    reopening a task in that form, setting progress, assigning a team to a category, creating a
    category, and the per-category task and team lists. The clock (`new Date()`) and the fresh keys
    the client invents are parameters. */
module Dashboard {
  import opened Wrappers
  import opened ClientModel
  import Seqs
  import Text
  import Decimal
  import Timeline

  /** The instant `new Date("YYYY-MM-DD")` denotes: midnight UTC of day `d`. */
  function Midnight(d: int): (t: Timeline.Instant)
    ensures Timeline.DayOf(t) == d
  {
    d * Timeline.DayMs
  }

  /** Whether an instant falls exactly on midnight UTC, as the dates picked in the form do. */
  predicate AtMidnight(t: Timeline.Instant)
  {
    t % Timeline.DayMs == 0
  }

  /** The task form. Date fields hold the day picked (`None` while the field is empty); the amount
      holds the number typed (`None` while empty). */
  datatype TaskForm = TaskForm(
    name: string,
    description: string,
    teamId: string,
    duration: string,
    amount: Option<int>,
    plannedStartDate: Option<int>,
    plannedEndDate: Option<int>,
    actualStartDate: Option<int>,
    actualEndDate: Option<int>,
    progress: int,
    progressStatus: ProgressStatus,
    isReceived: bool,
    isPaid: bool)

  /** A non-empty duration reads as a whole number of days. */
  predicate DurationReadable(form: TaskForm)
  {
    form.duration == "" || Decimal.ParseInt(form.duration).Some?
  }

  /** The planned end `handleCreateTask` computes: a duration typed in wins, then an end date
      picked, then seven days after the start. */
  function PlannedEnd(form: TaskForm, start: Timeline.Instant): (e: Timeline.Instant)
    requires DurationReadable(form)
    ensures form.duration != "" ==> e - start == Decimal.ParseInt(form.duration).value * Timeline.DayMs
    ensures form.duration == "" && form.plannedEndDate.Some? ==> e == Midnight(form.plannedEndDate.value)
    ensures form.duration == "" && form.plannedEndDate.None? ==> e - start == 7 * Timeline.DayMs
  {
    if form.duration != "" then Timeline.AddDays(start, Decimal.ParseInt(form.duration).value)
    else if form.plannedEndDate.Some? then Midnight(form.plannedEndDate.value)
    else Timeline.AddDays(start, 7)
  }

  /** `handleCreateTask`: nothing without a category, a non-blank name and a villa; otherwise a
      pending task whose planned start is the day picked or now, whose planned end follows
      `PlannedEnd`, and whose actual dates default to the planned ones. */
  function HandleCreateTask(form: TaskForm, categoryId: string, villaId: string, now: Timeline.Instant, newId: string): (r: Option<Task>)
    requires DurationReadable(form)
    ensures r.None? <==> categoryId == "" || Text.Trim(form.name) == "" || villaId == ""
    ensures r.Some? ==> var t := r.value;
      && t.id == newId && t.categoryId == categoryId && t.villaId == villaId
      && t.name == form.name && t.description == form.description && t.teamId == form.teamId
      && t.status == Status.Pending && t.createdAt == now && t.updatedAt == now
      && t.plannedStartDate == (if form.plannedStartDate.Some? then Midnight(form.plannedStartDate.value) else now)
      && t.plannedEndDate == PlannedEnd(form, t.plannedStartDate)
      && t.startDate == (if form.actualStartDate.Some? then Midnight(form.actualStartDate.value) else t.plannedStartDate)
      && t.endDate == (if form.actualEndDate.Some? then Midnight(form.actualEndDate.value) else t.plannedEndDate)
      && t.amount == form.amount
      && t.progress == form.progress && t.progressStatus == form.progressStatus
      && t.isReceived == form.isReceived && t.isPaid == form.isPaid && t.remarks == ""
  {
    if categoryId == "" || Text.Trim(form.name) == "" then None
    else if villaId == "" then None
    else
      var plannedStart := if form.plannedStartDate.Some? then Midnight(form.plannedStartDate.value) else now;
      var plannedEnd := PlannedEnd(form, plannedStart);
      Some(Task(
        id := newId, categoryId := categoryId, villaId := villaId, teamId := form.teamId,
        name := form.name, description := form.description,
        startDate := if form.actualStartDate.Some? then Midnight(form.actualStartDate.value) else plannedStart,
        endDate := if form.actualEndDate.Some? then Midnight(form.actualEndDate.value) else plannedEnd,
        plannedStartDate := plannedStart, plannedEndDate := plannedEnd,
        status := Status.Pending, progress := form.progress, progressStatus := form.progressStatus,
        isReceived := form.isReceived, isPaid := form.isPaid, amount := form.amount, remarks := "",
        createdAt := now, updatedAt := now))
  }

  /** A task whose dates all fall on midnight UTC, as those of tasks created from picked days do. */
  predicate DatesAtMidnight(t: Task)
  {
    AtMidnight(t.startDate) && AtMidnight(t.endDate) && AtMidnight(t.plannedStartDate) && AtMidnight(t.plannedEndDate)
  }

  /** `openEditTaskDialog`: the form filled from a task. The duration shown is the planned window in
      days, rounded up, and it reads back as that number. */
  function OpenEditTaskDialog(t: Task): (form: TaskForm)
    ensures DurationReadable(form)
    ensures form.duration == Decimal.Show(Timeline.CeilDays(t.plannedStartDate, t.plannedEndDate))
    ensures Decimal.ParseInt(form.duration) == Some(Timeline.CeilDays(t.plannedStartDate, t.plannedEndDate))
    ensures form.plannedStartDate == Some(Timeline.DayOf(t.plannedStartDate))
    ensures form.plannedEndDate == Some(Timeline.DayOf(t.plannedEndDate))
    ensures form.actualStartDate == Some(Timeline.DayOf(t.startDate)) && form.actualEndDate == Some(Timeline.DayOf(t.endDate))
    ensures form.name == t.name && form.description == t.description && form.teamId == t.teamId && form.amount == t.amount
    ensures form.progress == t.progress && form.progressStatus == t.progressStatus
    ensures form.isReceived == t.isReceived && form.isPaid == t.isPaid
  {
    var days := Timeline.CeilDays(t.plannedStartDate, t.plannedEndDate);
    Decimal.ParseShow(days);
    TaskForm(
      name := t.name, description := t.description, teamId := t.teamId,
      duration := Decimal.Show(days),
      plannedStartDate := Some(Timeline.DayOf(t.plannedStartDate)),
      plannedEndDate := Some(Timeline.DayOf(t.plannedEndDate)),
      actualStartDate := Some(Timeline.DayOf(t.startDate)),
      actualEndDate := Some(Timeline.DayOf(t.endDate)),
      amount := t.amount, progress := t.progress, progressStatus := t.progressStatus,
      isReceived := t.isReceived, isPaid := t.isPaid)
  }

  /** A day picked in the form denotes the midnight it came from. */
  lemma MidnightOfDay(t: Timeline.Instant)
    requires AtMidnight(t)
    ensures Midnight(Timeline.DayOf(t)) == t
  {
  }

  /** Between two midnights, the rounded-up number of days is exact. */
  lemma WholeDaysWindow(start: Timeline.Instant, end: Timeline.Instant)
    requires AtMidnight(start) && AtMidnight(end)
    ensures Timeline.AddDays(start, Timeline.CeilDays(start, end)) == end
  {
    assert (end - start) % Timeline.DayMs == 0;
  }

  /** A consistency check between the two duration rules, not a path the program takes (edits are
      saved by `handleUpdateTask`, which ignores the duration): feeding the form `openEditTaskDialog`
      fills to the creation rule gives back the same task, except that it is new: pending, stamped
      now, without remarks. In particular the rounded-up duration rebuilds the planned end exactly. */
  lemma EditFormRecreatesTask(t: Task, now: Timeline.Instant)
    requires DatesAtMidnight(t)
    requires Text.Trim(t.name) != "" && t.categoryId != "" && t.villaId != ""
    ensures HandleCreateTask(OpenEditTaskDialog(t), t.categoryId, t.villaId, now, t.id)
              == Some(t.(status := Status.Pending, remarks := "", createdAt := now, updatedAt := now))
  {
    var form := OpenEditTaskDialog(t);
    MidnightOfDay(t.plannedStartDate);
    MidnightOfDay(t.plannedEndDate);
    MidnightOfDay(t.startDate);
    MidnightOfDay(t.endDate);
    WholeDaysWindow(t.plannedStartDate, t.plannedEndDate);
    assert PlannedEnd(form, t.plannedStartDate) == t.plannedEndDate;
  }

  /** The status `updateTaskProgress` sets with the progress. */
  function StatusForProgress(progress: int): (st: Status)
    ensures st == Status.Completed <==> progress == 100
    ensures st == Status.InProgress <==> progress > 0 && progress != 100
    ensures st == Status.Pending <==> progress <= 0
  {
    if progress == 100 then Status.Completed
    else if progress > 0 then Status.InProgress
    else Status.Pending
  }

  /** `updateTaskProgress(taskId, progress)`, applied to the task it patches: the progress, its
      status and the update time change, nothing else. */
  function UpdateTaskProgress(t: Task, progress: int, now: Timeline.Instant): (u: Task)
    ensures u.progress == progress && u.updatedAt == now
    ensures u.status == StatusForProgress(progress)
    ensures u.(progress := t.progress, status := t.status, updatedAt := t.updatedAt) == t
  {
    t.(progress := progress, updatedAt := now, status := StatusForProgress(progress))
  }

  /** Setting progress again to the same value only moves the update time. */
  lemma UpdateTaskProgressIdempotent(t: Task, progress: int, now: Timeline.Instant, later: Timeline.Instant)
    ensures UpdateTaskProgress(UpdateTaskProgress(t, progress, now), progress, later) == UpdateTaskProgress(t, progress, later)
  {
  }

  /** What the store's `getTasksByCategory(categoryId)` returns: the category's tasks, in store order. */
  function TasksOfCategory(all: seq<Task>, categoryId: string): seq<Task>
  {
    Seqs.Filter((t: Task) => t.categoryId == categoryId, all)
  }

  /** Whether the team selector narrows the lists (anything but empty or "all"). */
  predicate Narrows(selectedTeamId: string)
  {
    selectedTeamId != "" && selectedTeamId != "all"
  }

  /** `getCategoryTasks(categoryId)`: the category's tasks, narrowed to the selected team if any,
      in store order. */
  function GetCategoryTasks(all: seq<Task>, categoryId: string, selectedTeamId: string): (r: seq<Task>)
    ensures forall t :: t in r <==> t in all && t.categoryId == categoryId && (Narrows(selectedTeamId) ==> t.teamId == selectedTeamId)
    ensures Seqs.Subsequence(r, all)
  {
    var tasks := TasksOfCategory(all, categoryId);
    Seqs.FilterIsSubsequence((t: Task) => t.categoryId == categoryId, all);
    if Narrows(selectedTeamId) then
      var r := Seqs.Filter((t: Task) => t.teamId == selectedTeamId, tasks);
      Seqs.FilterIsSubsequence((t: Task) => t.teamId == selectedTeamId, tasks);
      Seqs.SubsequenceTransitive(r, tasks, all);
      r
    else tasks
  }

  /** Some task of the category carries the team key `teamId`. */
  predicate WorksIn(all: seq<Task>, categoryId: string, teamId: string)
  {
    exists i :: 0 <= i < |all| && all[i].categoryId == categoryId && all[i].teamId != "" && all[i].teamId == teamId
  }

  /** `getCategoryTeams(categoryId)`: the registered teams, in registry order, that have a task in
      the category. */
  function GetCategoryTeams(all: seq<Task>, teams: seq<Team>, categoryId: string): (r: seq<Team>)
    ensures forall x :: x in r <==> x in teams && WorksIn(all, categoryId, x.id)
    ensures Seqs.Subsequence(r, teams)
  {
    var tasks := TasksOfCategory(all, categoryId);
    var ids := set i | 0 <= i < |tasks| && tasks[i].teamId != "" :: tasks[i].teamId;
    assert forall id :: id in ids <==> WorksIn(all, categoryId, id) by {
      forall id
        ensures id in ids <==> WorksIn(all, categoryId, id)
      {
        if WorksIn(all, categoryId, id) {
          var i :| 0 <= i < |all| && all[i].categoryId == categoryId && all[i].teamId != "" && all[i].teamId == id;
          assert all[i] in tasks;
        }
      }
    }
    Seqs.FilterIsSubsequence((x: Team) => x.id in ids, teams);
    Seqs.Filter((x: Team) => x.id in ids, teams)
  }

  /** Every team listed for a category shows at least one task when the selector is set to it. */
  lemma ListedTeamHasTasks(all: seq<Task>, teams: seq<Team>, categoryId: string, team: Team)
    requires team in GetCategoryTeams(all, teams, categoryId)
    requires team.id != "all"
    ensures |GetCategoryTasks(all, categoryId, team.id)| > 0
  {
    var i :| 0 <= i < |all| && all[i].categoryId == categoryId && all[i].teamId != "" && all[i].teamId == team.id;
    assert all[i] in GetCategoryTasks(all, categoryId, team.id);
  }

  /** `teams.find(t => t.id === teamId)`: the first team with that key. */
  function FindTeam(teams: seq<Team>, teamId: string): (r: Option<Team>)
    ensures r.None? <==> forall i :: 0 <= i < |teams| ==> teams[i].id != teamId
    ensures r.Some? ==> r.value in teams && r.value.id == teamId
    ensures r.Some? ==> exists i :: 0 <= i < |teams| && teams[i] == r.value && forall j :: 0 <= j < i ==> teams[j].id != teamId
  {
    if |teams| == 0 then None
    else if teams[0].id == teamId then Some(teams[0])
    else
      var rest := FindTeam(teams[1..], teamId);
      if rest.Some? then
        var i :| 0 <= i < |teams[1..]| && teams[1..][i] == rest.value && forall j :: 0 <= j < i ==> teams[1..][j].id != teamId;
        assert teams[i + 1] == rest.value;
        rest
      else
        assert forall i :: 1 <= i < |teams| ==> teams[i] == teams[1..][i - 1];
        rest
  }

  /** `handleSaveTeamAssignment`: with a team chosen, a category and a villa, and the team found in
      the registry, a pending one-week task for that team in that category. */
  function HandleSaveTeamAssignment(teamId: string, categoryId: string, villaId: string, teams: seq<Team>,
                                    now: Timeline.Instant, newId: string): (r: Option<Task>)
    ensures r.Some? <==> teamId != "" && categoryId != "" && villaId != "" && FindTeam(teams, teamId).Some?
    ensures r.Some? ==> var t := r.value; var team := FindTeam(teams, teamId).value;
      && t.teamId == teamId && t.categoryId == categoryId && t.villaId == villaId
      && t.id == newId && t.name == "Travail - " + team.name
      && t.description == "T\U{E2}che assign\U{E9}e \U{E0} l'\U{E9}quipe " + team.name + " - " + team.specialty
      && t.progressStatus == ProgressStatus.OnSchedule && t.remarks == ""
      && t.createdAt == now && t.updatedAt == now
      && t.status == Status.Pending && t.progress == 0 && !t.isReceived && !t.isPaid && t.amount.None?
      && t.plannedStartDate == now && t.startDate == now
      && t.plannedEndDate - t.plannedStartDate == 7 * Timeline.DayMs && t.endDate == t.plannedEndDate
  {
    if teamId == "" || categoryId == "" || villaId == "" then None
    else
      match FindTeam(teams, teamId)
      case None => None
      case Some(team) =>
        var nextWeek := Timeline.AddDays(now, 7);
        Some(Task(
          id := newId, categoryId := categoryId, villaId := villaId, teamId := team.id,
          name := "Travail - " + team.name,
          description := "T\U{E2}che assign\U{E9}e \U{E0} l'\U{E9}quipe " + team.name + " - " + team.specialty,
          startDate := now, endDate := nextWeek, plannedStartDate := now, plannedEndDate := nextWeek,
          status := Status.Pending, progress := 0, progressStatus := ProgressStatus.OnSchedule,
          isReceived := false, isPaid := false, amount := None, remarks := "",
          createdAt := now, updatedAt := now))
  }

  /** The task an assignment creates is what links the team to the category: once it is in the
      store, the team is listed among the category's teams. */
  lemma AssignmentListsTeam(all: seq<Task>, teams: seq<Team>, teamId: string, categoryId: string, villaId: string,
                            now: Timeline.Instant, newId: string)
    requires HandleSaveTeamAssignment(teamId, categoryId, villaId, teams, now, newId).Some?
    ensures var t := HandleSaveTeamAssignment(teamId, categoryId, villaId, teams, now, newId).value;
      FindTeam(teams, teamId).value in GetCategoryTeams(all + [t], teams, categoryId)
  {
    var t := HandleSaveTeamAssignment(teamId, categoryId, villaId, teams, now, newId).value;
    var all' := all + [t];
    assert all'[|all|] == t;
    assert WorksIn(all', categoryId, teamId);
  }

  /** The category form: the name typed and the days picked (`None` while a field is empty). */
  datatype CategoryForm = CategoryForm(name: string, startDate: Option<int>, endDate: Option<int>)

  /** `handleSaveCategory`: with a name, both days and a villa, a new category with no tasks yet,
      no progress and the "on schedule" status. Unlike a task name, a name of spaces is accepted. */
  function HandleSaveCategory(form: CategoryForm, villaId: string, newId: string): (r: Option<Category>)
    ensures r.Some? <==> form.name != "" && form.startDate.Some? && form.endDate.Some? && villaId != ""
    ensures r.Some? ==> var c := r.value;
      && c.id == newId && c.villaId == villaId && c.name == form.name
      && c.startDate == Midnight(form.startDate.value) && c.endDate == Midnight(form.endDate.value)
      && c.progress == 0 && c.status == CategoryStatus.OnSchedule
      && c.tasksCount == 0 && c.completedTasks == 0
  {
    if form.name == "" || form.startDate.None? || form.endDate.None? || villaId == "" then None
    else Some(Category(newId, villaId, form.name, Midnight(form.startDate.value), Midnight(form.endDate.value),
                       0, CategoryStatus.OnSchedule, 0, 0))
  }

  /** A new category's zero counters are right as long as no task uses its fresh key yet. */
  lemma NewCategoryCountersAgree(form: CategoryForm, villaId: string, newId: string, all: seq<Task>)
    requires HandleSaveCategory(form, villaId, newId).Some?
    requires forall i :: 0 <= i < |all| ==> all[i].categoryId != newId
    ensures HandleSaveCategory(form, villaId, newId).value.tasksCount == |GetCategoryTasks(all, newId, "")|
  {
    Seqs.FilterKeepsNone((t: Task) => t.categoryId == newId, all);
  }
}

=== FILE: decimal.dfy ===
/** Decimal rendering of integers and JavaScript's `parseInt(s, 10)`. */
module Decimal {
  import opened Wrappers
  import Text

  predicate IsDigit(c: char)
  {
    '0' <= c <= '9'
  }

  predicate AllDigits(s: string)
  {
    forall i :: 0 <= i < |s| ==> IsDigit(s[i])
  }

  function DigitChar(d: int): (c: char)
    requires 0 <= d < 10
    ensures IsDigit(c)
  {
    ('0' as int + d) as char
  }

  function DigitValue(c: char): (d: nat)
    requires IsDigit(c)
    ensures d < 10
  {
    c as int - '0' as int
  }

  /** The decimal digits of `n`, most significant first, without sign or leading zeros. */
  function ShowNat(n: nat): (r: string)
    ensures |r| > 0 && AllDigits(r)
    ensures r[0] == '0' ==> n == 0
  {
    if n < 10 then [DigitChar(n)] else ShowNat(n / 10) + [DigitChar(n % 10)]
  }

  /** `n.toString()` for an integer `n`. */
  function Show(n: int): (r: string)
    ensures |r| > 0
    ensures n >= 0 ==> AllDigits(r) && (r[0] == '0' ==> n == 0)
    ensures n < 0 ==> |r| > 1 && r[0] == '-' && AllDigits(r[1..]) && r[1] != '0'
  {
    if n < 0 then "-" + ShowNat(-n) else ShowNat(n)
  }

  /** The number a string of decimal digits denotes. */
  function DigitsValue(ds: string): nat
    requires AllDigits(ds)
  {
    if |ds| == 0 then 0 else DigitsValue(ds[..|ds| - 1]) * 10 + DigitValue(ds[|ds| - 1])
  }

  /** The longest prefix of `s` made of decimal digits. */
  function LeadingDigits(s: string): (r: string)
    ensures |r| <= |s| && r == s[..|r|] && AllDigits(r)
    ensures |r| == |s| || !IsDigit(s[|r|])
  {
    if |s| > 0 && IsDigit(s[0]) then [s[0]] + LeadingDigits(s[1..]) else ""
  }

  /** What `parseInt` reads its digits from: `s` after leading white space and one optional sign. */
  function Unsigned(s: string): string
  {
    var t := Text.TrimStart(s);
    if |t| > 0 && (t[0] == '-' || t[0] == '+') then t[1..] else t
  }

  /** `parseInt(s, 10)`, with `None` for `NaN`: leading white space and a sign are accepted, then the
      longest run of digits is read and whatever follows it is ignored. */
  function ParseInt(s: string): (r: Option<int>)
    ensures r.None? <==> |Unsigned(s)| == 0 || !IsDigit(Unsigned(s)[0])
  {
    var t := Text.TrimStart(s);
    var ds := LeadingDigits(Unsigned(s));
    var v: int := if |ds| == 0 then 0 else DigitsValue(ds);
    if |ds| == 0 then None
    else if t[0] == '-' then Some(-v)
    else Some(v)
  }

  lemma {:induction false} DigitsValueOfShowNat(n: nat)
    ensures DigitsValue(ShowNat(n)) == n
    decreases n
  {
    if n >= 10 {
      var s := ShowNat(n / 10);
      var r := s + [DigitChar(n % 10)];
      assert r[..|r| - 1] == s;
      DigitsValueOfShowNat(n / 10);
    }
  }

  lemma {:induction false} LeadingDigitsStopsAtNonDigit(ds: string, rest: string)
    requires AllDigits(ds)
    requires |rest| == 0 || !IsDigit(rest[0])
    ensures LeadingDigits(ds + rest) == ds
    decreases |ds|
  {
    if |ds| > 0 {
      assert (ds + rest)[1..] == ds[1..] + rest;
      LeadingDigitsStopsAtNonDigit(ds[1..], rest);
      assert ds == [ds[0]] + ds[1..];
    } else {
      assert ds + rest == rest;
    }
  }

  /** The text `toString` writes starts with no white space, and after its sign come the digits. */
  lemma ShowHead(n: int, rest: string)
    ensures |Show(n) + rest| > 0 && Text.TrimStart(Show(n) + rest) == Show(n) + rest
    ensures (Show(n) + rest)[0] == '-' <==> n < 0
    ensures Unsigned(Show(n) + rest) == ShowNat(if n < 0 then -n else n) + rest
  {
    var m: nat := if n < 0 then -n else n;
    var digits := ShowNat(m);
    var s := Show(n) + rest;
    if n < 0 {
      assert s == "-" + (digits + rest);
      assert s[0] == '-' && !Text.IsSpace('-');
      assert s[1..] == digits + rest;
    } else {
      assert s == digits + rest;
      assert IsDigit(s[0]) && !Text.IsSpace(s[0]);
    }
  }

  /** `parseInt` reads back what `toString` wrote, whatever non-digit text follows it. */
  lemma ParseShowPrefix(n: int, rest: string)
    requires |rest| == 0 || !IsDigit(rest[0])
    ensures ParseInt(Show(n) + rest) == Some(n)
  {
    var m: nat := if n < 0 then -n else n;
    ShowHead(n, rest);
    LeadingDigitsStopsAtNonDigit(ShowNat(m), rest);
    DigitsValueOfShowNat(m);
  }

  /** `parseInt(n.toString())` is `n`. */
  lemma ParseShow(n: int)
    ensures ParseInt(Show(n)) == Some(n)
  {
    ParseShowPrefix(n, "");
    assert Show(n) + "" == Show(n);
  }
}

=== FILE: entities.dfy ===
/** The backend's persistent records and the database that holds them: one map per table, keyed by
    primary key, with the next key each table's identity sequence will hand out. */
module Entities {
  import opened Wrappers

  /** A primary key (a Java `Long`). */
  type Id = nat

  /** A `LocalDate`, as a day number. */
  type Day = int

  /** A `LocalDateTime`, as an integer count of some fixed unit since an epoch. */
  type Timestamp = int

  datatype TaskStatus = Pending | InProgress | Completed | Delayed

  datatype ProgressStatus = OnSchedule | Ahead | Behind | AtRisk

  datatype CategoryStatus = OnSchedule | InProgress | Warning | Delayed

  /** A task row. `team` is `None` when the task has no team. The amount is kept as an integer
      (for instance in cents). */
  datatype Task = Task(
    id: Id,
    categoryId: Id,
    villaId: Id,
    team: Option<Id>,
    name: string,
    description: string,
    startDate: Day,
    endDate: Day,
    plannedStartDate: Day,
    plannedEndDate: Day,
    status: TaskStatus,
    progress: int,
    progressStatus: ProgressStatus,
    isReceived: bool,
    isPaid: bool,
    amount: int,
    remarks: string,
    updatedAt: Timestamp)

  /** A category row, with its denormalised task counters. */
  datatype Category = Category(
    id: Id,
    villaId: Id,
    team: Option<Id>,
    name: string,
    startDate: Day,
    endDate: Day,
    progress: int,
    status: CategoryStatus,
    tasksCount: int,
    completedTasks: int)

  datatype Team = Team(
    id: Id,
    name: string,
    specialty: string,
    membersCount: int,
    activeTasks: int,
    performance: int,
    lastActivity: Timestamp)

  /** A villa row; only the project it belongs to matters to the queries modelled here. */
  datatype Villa = Villa(id: Id, projectId: Option<Id>)

  datatype Store = Store(
    villas: map<Id, Villa>,
    categories: map<Id, Category>,
    teams: map<Id, Team>,
    tasks: map<Id, Task>,
    nextCategoryId: Id,
    nextTeamId: Id,
    nextTaskId: Id)

  /** Every row sits under its own primary key, and every key the sequences handed out is below
      the next one they will hand out. */
  predicate Valid(s: Store)
  {
    && (forall id :: id in s.villas ==> s.villas[id].id == id)
    && (forall id :: id in s.categories ==> s.categories[id].id == id && id < s.nextCategoryId)
    && (forall id :: id in s.teams ==> s.teams[id].id == id && id < s.nextTeamId)
    && (forall id :: id in s.tasks ==> s.tasks[id].id == id && id < s.nextTaskId)
  }

  /** The exceptions the services throw: "X not found" and "X not found with id: N". */
  datatype Kind = TaskKind | CategoryKind | VillaKind | TeamKind
  datatype Error = NotFound(kind: Kind) | NotFoundWithId(kind: Kind, id: Id)

  /** `(int) ((part * 100) / whole)` on non-negative longs: the percentage, rounded down. */
  function Percent(part: nat, whole: nat): (p: nat)
    requires whole > 0
    ensures p * whole <= part * 100 < (p + 1) * whole
    ensures part <= whole ==> p <= 100
  {
    var p := (part * 100) / whole;
    assert part <= whole ==> part * 100 <= 100 * whole;
    p
  }
}

=== FILE: repository.dfy ===
/** What a Spring Data query does to a table: scan the rows in primary-key order and keep those
    that satisfy the query's condition, or count them. */
module Repository {
  import opened Entities
  import Seqs

  /** The rows of `m` whose key is below `n` and which satisfy `p`, as ascending keys. */
  function Scan<T>(m: map<Id, T>, n: nat, p: T -> bool): seq<Id>
  {
    if n == 0 then []
    else Scan(m, n - 1, p) + (if n - 1 in m && p(m[n - 1]) then [n - 1] else [])
  }

  /** Every key a scan lists names a row below the bound that satisfies the condition. */
  lemma {:induction false} ScanSound<T>(m: map<Id, T>, n: nat, p: T -> bool)
    ensures forall id :: id in Scan(m, n, p) ==> id < n && id in m && p(m[id])
    decreases n
  {
    if n > 0 {
      ScanSound(m, n - 1, p);
    }
  }

  /** Every row below the bound that satisfies the condition is listed by the scan. */
  lemma {:induction false} ScanComplete<T>(m: map<Id, T>, n: nat, p: T -> bool)
    ensures forall id: Id :: id < n && id in m && p(m[id]) ==> id in Scan(m, n, p)
    decreases n
  {
    if n > 0 {
      ScanComplete(m, n - 1, p);
    }
  }

  /** Keys in strictly ascending order, so each key at most once. */
  predicate Ascending(r: seq<Id>)
  {
    forall i, j :: 0 <= i < j < |r| ==> r[i] < r[j]
  }

  /** A scan lists each key once, in ascending order. */
  lemma {:induction false} ScanAscending<T>(m: map<Id, T>, n: nat, p: T -> bool)
    ensures Ascending(Scan(m, n, p))
    decreases n
  {
    if n > 0 {
      ScanAscending(m, n - 1, p);
      ScanSound(m, n - 1, p);
      var prev := Scan(m, n - 1, p);
      var last: seq<Id> := if n - 1 in m && p(m[n - 1]) then [n - 1] else [];
      assert forall i :: 0 <= i < |prev| ==> prev[i] < n - 1 by {
        forall i | 0 <= i < |prev| ensures prev[i] < n - 1 {
          assert prev[i] in prev;
        }
      }
      assert Scan(m, n, p) == prev + last;
    }
  }

  /** `SELECT COUNT(*)` over the rows of `m` whose key is below `n` and which satisfy `p`. */
  function CountRows<T>(m: map<Id, T>, n: nat, p: T -> bool): nat
  {
    if n == 0 then 0
    else CountRows(m, n - 1, p) + (if n - 1 in m && p(m[n - 1]) then 1 else 0)
  }

  /** The keys of the rows that satisfy `p`, as a set: the reference meaning of a query. */
  ghost function Matching<T>(m: map<Id, T>, p: T -> bool): set<Id>
  {
    set id | id in m && p(m[id])
  }

  /** The rows below `n` that satisfy `p`, as a set. */
  ghost function MatchingBelow<T>(m: map<Id, T>, n: nat, p: T -> bool): set<Id>
  {
    set id | id in m && id < n && p(m[id])
  }

  /** A count query returns as many rows as the corresponding find query. */
  lemma {:induction false} CountIsScanLength<T>(m: map<Id, T>, n: nat, p: T -> bool)
    ensures CountRows(m, n, p) == |Scan(m, n, p)|
    decreases n
  {
    if n > 0 {
      CountIsScanLength(m, n - 1, p);
    }
  }

  /** The count of the rows below `n` is the number of such rows. */
  lemma {:induction false} CountIsCardinalityBelow<T>(m: map<Id, T>, n: nat, p: T -> bool)
    ensures CountRows(m, n, p) == |MatchingBelow(m, n, p)|
    decreases n
  {
    if n > 0 {
      CountIsCardinalityBelow(m, n - 1, p);
      var prev := MatchingBelow(m, n - 1, p);
      if n - 1 in m && p(m[n - 1]) {
        assert MatchingBelow(m, n, p) == prev + {n - 1};
      } else {
        assert MatchingBelow(m, n, p) == prev;
      }
    } else {
      assert MatchingBelow(m, n, p) == {};
    }
  }

  /** When every key is below `n`, a count over the scan bound counts every matching row. */
  lemma CountIsCardinality<T>(m: map<Id, T>, n: nat, p: T -> bool)
    requires forall id :: id in m ==> id < n
    ensures CountRows(m, n, p) == |Matching(m, p)|
  {
    CountIsCardinalityBelow(m, n, p);
    assert MatchingBelow(m, n, p) == Matching(m, p);
  }

  /** A weaker condition counts at least as many rows. */
  lemma {:induction false} CountMonotone<T>(m: map<Id, T>, n: nat, p: T -> bool, q: T -> bool)
    requires forall x :: p(x) ==> q(x)
    ensures CountRows(m, n, p) <= CountRows(m, n, q)
    decreases n
  {
    if n > 0 {
      CountMonotone(m, n - 1, p, q);
    }
  }

  /** A query whose condition is `p && q` returns, in the same order, the rows of the `p` query
      that also satisfy `q` (`keep` tests `q` on the row a key names). */
  lemma {:induction false} ScanConjunction<T>(m: map<Id, T>, n: nat, p: T -> bool, pq: T -> bool, keep: Id -> bool)
    requires forall id :: id in m ==> (pq(m[id]) <==> p(m[id]) && keep(id))
    ensures Scan(m, n, pq) == Seqs.Filter(keep, Scan(m, n, p))
    decreases n
  {
    if n > 0 {
      ScanConjunction(m, n - 1, p, pq, keep);
      var tail: seq<Id> := if n - 1 in m && p(m[n - 1]) then [n - 1] else [];
      var tailBoth: seq<Id> := if n - 1 in m && pq(m[n - 1]) then [n - 1] else [];
      FilterSingleton(keep, tail, tailBoth);
      Seqs.FilterAppend(keep, Scan(m, n - 1, p), tail);
    }
  }

  lemma FilterSingleton(keep: Id -> bool, tail: seq<Id>, tailBoth: seq<Id>)
    requires |tail| <= 1
    requires tailBoth == if |tail| == 1 && keep(tail[0]) then tail else []
    ensures Seqs.Filter(keep, tail) == tailBoth
  {
    if |tail| == 1 {
      assert tail[1..] == [];
    }
  }

  /** Inserting a fresh row adds its key to exactly the queries it satisfies. */
  lemma MatchingInsertFresh<T>(m: map<Id, T>, k: Id, v: T, p: T -> bool)
    requires k !in m
    ensures Matching(m[k := v], p) == Matching(m, p) + (if p(v) then {k} else {})
    ensures |Matching(m[k := v], p)| == |Matching(m, p)| + (if p(v) then 1 else 0)
  {
    assert Matching(m[k := v], p) == Matching(m, p) + (if p(v) then {k} else {});
  }

  /** Deleting a row removes its key from every query and changes nothing else. */
  lemma MatchingRemove<T>(m: map<Id, T>, k: Id, p: T -> bool)
    ensures Matching(m - {k}, p) == Matching(m, p) - {k}
  {
  }

  /** Two disjoint sets of keys inside a third are together no larger than it. */
  lemma DisjointInside(a: set<Id>, c: set<Id>, all: set<Id>)
    requires a !! c && a + c <= all
    ensures |a| + |c| <= |all|
  {
    assert all == (a + c) + (all - (a + c));
  }
}

=== FILE: seqs.dfy ===
/** Order-preserving operations on sequences, used by the list views and the form editors. */
module Seqs {

  /** The elements of `s` that satisfy `p`, in their original order (`Array.prototype.filter`). */
  function Filter<T>(p: T -> bool, s: seq<T>): (r: seq<T>)
    ensures |r| <= |s|
    ensures forall i :: 0 <= i < |r| ==> r[i] in s && p(r[i])
    ensures forall i :: 0 <= i < |s| && p(s[i]) ==> s[i] in r
  {
    if |s| == 0 then []
    else if p(s[0]) then [s[0]] + Filter(p, s[1..])
    else Filter(p, s[1..])
  }

  /** `idx` lists, in increasing order, positions of `s` that hold the elements of `r`. */
  ghost predicate Embeds<T>(r: seq<T>, s: seq<T>, idx: seq<int>)
  {
    && |idx| == |r|
    && (forall k :: 0 <= k < |idx| ==> 0 <= idx[k] < |s| && r[k] == s[idx[k]])
    && (forall k, l :: 0 <= k < l < |idx| ==> idx[k] < idx[l])
  }

  /** `r` is `s` with some elements left out and the others kept in their order. */
  ghost predicate Subsequence<T>(r: seq<T>, s: seq<T>)
  {
    exists idx :: Embeds(r, s, idx)
  }

  /** Every position moved one place right. */
  function Shift(idx: seq<int>): (r: seq<int>)
    ensures |r| == |idx| && forall k :: 0 <= k < |idx| ==> r[k] == idx[k] + 1
  {
    seq(|idx|, k requires 0 <= k < |idx| => idx[k] + 1)
  }

  /** Positions in the tail of `s` are the same positions, moved one place right, in `s`. */
  lemma EmbedsInTail<T>(r: seq<T>, s: seq<T>, idx: seq<int>)
    requires |s| > 0 && Embeds(r, s[1..], idx)
    ensures Embeds(r, s, Shift(idx))
    ensures forall k :: 0 <= k < |idx| ==> 0 < Shift(idx)[k]
  {
    forall k | 0 <= k < |idx|
      ensures 0 < Shift(idx)[k] < |s| && r[k] == s[Shift(idx)[k]]
    {
      assert s[1..][idx[k]] == s[idx[k] + 1];
    }
  }

  /** Position 0 put in front of positions that all lie past it. */
  lemma EmbedsCons<T>(x: T, r: seq<T>, s: seq<T>, idx: seq<int>)
    requires |s| > 0 && s[0] == x && Embeds(r, s, idx)
    requires forall k :: 0 <= k < |idx| ==> 0 < idx[k]
    ensures Embeds([x] + r, s, [0] + idx)
  {
    var r', idx' := [x] + r, [0] + idx;
    assert forall k :: 1 <= k < |idx'| ==> idx'[k] == idx[k - 1] && r'[k] == r[k - 1];
  }

  /** The positions `Filter` keeps: in order, and every position whose element passes the test. */
  lemma {:induction false} FilterPositions<T>(p: T -> bool, s: seq<T>) returns (idx: seq<int>)
    ensures Embeds(Filter(p, s), s, idx)
    ensures forall i :: 0 <= i < |s| && p(s[i]) ==> i in idx
    decreases |s|
  {
    if |s| == 0 {
      return [];
    }
    var rest := FilterPositions(p, s[1..]);
    var shifted := Shift(rest);
    EmbedsInTail(Filter(p, s[1..]), s, rest);
    forall i | 1 <= i < |s| && p(s[i])
      ensures i in shifted
    {
      assert s[1..][i - 1] == s[i];
      var k :| 0 <= k < |rest| && rest[k] == i - 1;
      assert shifted[k] == i;
    }
    if p(s[0]) {
      EmbedsCons(s[0], Filter(p, s[1..]), s, shifted);
      idx := [0] + shifted;
    } else {
      idx := shifted;
    }
  }

  /** Filtering keeps a subsequence of its input. */
  lemma FilterIsSubsequence<T>(p: T -> bool, s: seq<T>)
    ensures Subsequence(Filter(p, s), s)
  {
    var idx := FilterPositions(p, s);
  }

  /** A subsequence of a subsequence is a subsequence. */
  lemma SubsequenceTransitive<T>(a: seq<T>, b: seq<T>, c: seq<T>)
    requires Subsequence(a, b) && Subsequence(b, c)
    ensures Subsequence(a, c)
  {
    var ab :| Embeds(a, b, ab);
    var bc :| Embeds(b, c, bc);
    var ac := seq(|ab|, k requires 0 <= k < |ab| => bc[ab[k]]);
    assert Embeds(a, c, ac);
  }

  /** Filtering distributes over concatenation: the kept elements keep their relative order. */
  lemma {:induction false} FilterAppend<T>(p: T -> bool, a: seq<T>, b: seq<T>)
    ensures Filter(p, a + b) == Filter(p, a) + Filter(p, b)
    decreases |a|
  {
    if |a| == 0 {
      assert a + b == b;
    } else {
      assert (a + b)[1..] == a[1..] + b;
      FilterAppend(p, a[1..], b);
    }
  }

  /** A filter that rejects nothing returns its input unchanged. */
  lemma {:induction false} FilterKeepsAll<T>(p: T -> bool, s: seq<T>)
    requires forall i :: 0 <= i < |s| ==> p(s[i])
    ensures Filter(p, s) == s
    decreases |s|
  {
    if |s| > 0 {
      FilterKeepsAll(p, s[1..]);
    }
  }

  /** A filter that accepts nothing returns nothing. */
  lemma {:induction false} FilterKeepsNone<T>(p: T -> bool, s: seq<T>)
    requires forall i :: 0 <= i < |s| ==> !p(s[i])
    ensures Filter(p, s) == []
    decreases |s|
  {
    if |s| > 0 {
      FilterKeepsNone(p, s[1..]);
    }
  }

  /** The number of elements of `s` that satisfy `p`. */
  function Count<T>(p: T -> bool, s: seq<T>): (n: nat)
    ensures n <= |s|
  {
    if |s| == 0 then 0
    else (if p(s[0]) then 1 else 0) + Count(p, s[1..])
  }

  /** A filter returns nothing exactly when nothing passes its test. */
  lemma {:induction false} FilterKeepsNoneIff<T>(p: T -> bool, s: seq<T>)
    ensures Filter(p, s) == [] <==> forall i :: 0 <= i < |s| ==> !p(s[i])
  {
    if forall i :: 0 <= i < |s| ==> !p(s[i]) {
      FilterKeepsNone(p, s);
    } else {
      var i :| 0 <= i < |s| && p(s[i]);
      assert s[i] in Filter(p, s);
    }
  }

  /** Counting is the length of the filtered sequence. */
  lemma {:induction false} CountIsFilterLength<T>(p: T -> bool, s: seq<T>)
    ensures Count(p, s) == |Filter(p, s)|
    decreases |s|
  {
    if |s| > 0 {
      CountIsFilterLength(p, s[1..]);
    }
  }

  /** Counts add up over concatenation. */
  lemma {:induction false} CountAppend<T>(p: T -> bool, a: seq<T>, b: seq<T>)
    ensures Count(p, a + b) == Count(p, a) + Count(p, b)
    decreases |a|
  {
    if |a| == 0 {
      assert a + b == b;
    } else {
      assert (a + b)[1..] == a[1..] + b;
      CountAppend(p, a[1..], b);
    }
  }

  /** Counting by `q` among the elements that pass `p` is counting by `r`, the conjunction of both. */
  lemma {:induction false} CountOfFilter<T>(p: T -> bool, q: T -> bool, r: T -> bool, s: seq<T>)
    requires forall x :: r(x) == (p(x) && q(x))
    ensures Count(q, Filter(p, s)) == Count(r, s)
    decreases |s|
  {
    if |s| > 0 {
      CountOfFilter(p, q, r, s[1..]);
    }
  }

  /** Summing `f` over the elements that pass `p` is summing `g`, which is `f` there and 0 elsewhere. */
  lemma {:induction false} SumOfFilter<T>(f: T -> int, p: T -> bool, g: T -> int, s: seq<T>)
    requires forall x :: g(x) == (if p(x) then f(x) else 0)
    ensures Sum(f, Filter(p, s)) == Sum(g, s)
    decreases |s|
  {
    if |s| > 0 {
      SumOfFilter(f, p, g, s[1..]);
    }
  }

  /** The sum of `f` over the elements of `s` (`reduce((sum, x) => sum + f(x), 0)`). */
  function Sum<T>(f: T -> int, s: seq<T>): int
  {
    if |s| == 0 then 0 else f(s[0]) + Sum(f, s[1..])
  }

  /** Sums add up over concatenation. */
  lemma {:induction false} SumAppend<T>(f: T -> int, a: seq<T>, b: seq<T>)
    ensures Sum(f, a + b) == Sum(f, a) + Sum(f, b)
    decreases |a|
  {
    if |a| == 0 {
      assert a + b == b;
    } else {
      assert (a + b)[1..] == a[1..] + b;
      SumAppend(f, a[1..], b);
    }
  }

  /** A pointwise smaller summand gives a smaller sum. */
  lemma {:induction false} SumMonotone<T>(f: T -> int, g: T -> int, s: seq<T>)
    requires forall i :: 0 <= i < |s| ==> f(s[i]) <= g(s[i])
    ensures Sum(f, s) <= Sum(g, s)
    decreases |s|
  {
    if |s| > 0 {
      SumMonotone(f, g, s[1..]);
    }
  }

  /** `s` without the element at index `i` (`filter((_, j) => j !== i)`); any other index removes nothing. */
  function RemoveAt<T>(s: seq<T>, i: int): (r: seq<T>)
    ensures 0 <= i < |s| ==> r == s[..i] + s[i + 1..]
    ensures !(0 <= i < |s|) ==> r == s
  {
    if |s| == 0 then []
    else if i == 0 then s[1..]
    else [s[0]] + RemoveAt(s[1..], i - 1)
  }

  /** Replacing one element changes the sum by the difference of the two summands. */
  lemma SumUpdate<T>(f: T -> int, s: seq<T>, i: int, x: T)
    requires 0 <= i < |s|
    ensures Sum(f, s[i := x]) == Sum(f, s) - f(s[i]) + f(x)
  {
    assert s == s[..i] + [s[i]] + s[i + 1..];
    assert s[i := x] == s[..i] + [x] + s[i + 1..];
    SumAppend(f, s[..i] + [s[i]], s[i + 1..]);
    SumAppend(f, s[..i], [s[i]]);
    SumAppend(f, s[..i] + [x], s[i + 1..]);
    SumAppend(f, s[..i], [x]);
  }

  /** Removing the element at an index takes its summand out of the sum; any other index changes nothing. */
  lemma SumRemoveAt<T>(f: T -> int, s: seq<T>, i: int)
    ensures Sum(f, RemoveAt(s, i)) == Sum(f, s) - (if 0 <= i < |s| then f(s[i]) else 0)
  {
    if 0 <= i < |s| {
      var front, back := s[..i], s[i + 1..];
      assert s == front + [s[i]] + back;
      SumAppend(f, front + [s[i]], back);
      SumAppend(f, front, [s[i]]);
      SumAppend(f, front, back);
      assert Sum(f, [s[i]]) == f(s[i]) + Sum(f, []);
    }
  }

  /** Splitting a sequence by a test splits its sum. */
  lemma {:induction false} SumFilterSplit<T>(f: T -> int, p: T -> bool, q: T -> bool, s: seq<T>)
    requires forall x :: q(x) == !p(x)
    ensures Sum(f, Filter(p, s)) + Sum(f, Filter(q, s)) == Sum(f, s)
    decreases |s|
  {
    if |s| > 0 {
      SumFilterSplit(f, p, q, s[1..]);
      if p(s[0]) {
        SumAppend(f, [s[0]], Filter(p, s[1..]));
      } else {
        SumAppend(f, [s[0]], Filter(q, s[1..]));
      }
    }
  }

  /** A sum of summands in `[lo, hi]` lies between `lo` and `hi` times the length. */
  lemma {:induction false} SumBounds<T>(f: T -> int, s: seq<T>, lo: int, hi: int)
    requires forall i :: 0 <= i < |s| ==> lo <= f(s[i]) <= hi
    ensures lo * |s| <= Sum(f, s) <= hi * |s|
    decreases |s|
  {
    if |s| > 0 {
      SumBounds(f, s[1..], lo, hi);
    }
  }

  /** A sum of summands of at least `lo` is at least `lo` times the length. */
  lemma {:induction false} SumLowerBound<T>(f: T -> int, s: seq<T>, lo: int)
    ensures (forall i :: 0 <= i < |s| ==> lo <= f(s[i])) ==> lo * |s| <= Sum(f, s)
    decreases |s|
  {
    if |s| > 0 {
      SumLowerBound(f, s[1..], lo);
      assert forall i :: 1 <= i < |s| ==> s[i] == s[1..][i - 1];
    }
  }

  /** A sum of non-negative summands is zero exactly when every summand is. */
  lemma {:induction false} SumZeroIff<T>(f: T -> int, s: seq<T>)
    requires forall i :: 0 <= i < |s| ==> 0 <= f(s[i])
    ensures Sum(f, s) == 0 <==> forall i :: 0 <= i < |s| ==> f(s[i]) == 0
    decreases |s|
  {
    if |s| > 0 {
      SumZeroIff(f, s[1..]);
      SumNonNegative(f, s[1..]);
      assert forall i :: 1 <= i < |s| ==> s[i] == s[1..][i - 1];
    }
  }

  /** A sum of non-negative summands is non-negative. */
  lemma {:induction false} SumNonNegative<T>(f: T -> int, s: seq<T>)
    requires forall i :: 0 <= i < |s| ==> 0 <= f(s[i])
    ensures 0 <= Sum(f, s)
    decreases |s|
  {
    if |s| > 0 {
      SumNonNegative(f, s[1..]);
    }
  }
}

=== FILE: task_repository.dfy ===
/** The task queries: derived queries filter on one column, the JPQL ones join through the
    category and its villa, and the counts are `SELECT COUNT`. */
module TaskRepository {
  import opened Wrappers
  import opened Entities
  import opened Repository
  import Seqs

  /** The project of a task, reached as `t.category.villa.project.id`: an inner join, so a task whose
      category or villa row is missing, or whose villa has no project, belongs to no project. The
      task's own `villaId` plays no part. */
  function ProjectOf(s: Store, t: Task): Option<Id>
  {
    if t.categoryId in s.categories && s.categories[t.categoryId].villaId in s.villas
    then s.villas[s.categories[t.categoryId].villaId].projectId
    else None
  }

  // The conditions of the queries, one per `WHERE` clause.

  function InCategory(c: Id): Task -> bool { (t: Task) => t.categoryId == c }
  function CompletedInCategory(c: Id): Task -> bool { (t: Task) => t.categoryId == c && t.status == TaskStatus.Completed }
  function InVilla(v: Id): Task -> bool { (t: Task) => t.villaId == v }
  function OfTeam(team: Id): Task -> bool { (t: Task) => t.team == Some(team) }
  function WithStatus(st: TaskStatus): Task -> bool { (t: Task) => t.status == st }
  function WithProgressStatus(ps: ProgressStatus): Task -> bool { (t: Task) => t.progressStatus == ps }
  function UnreceivedWithStatus(st: TaskStatus): Task -> bool { (t: Task) => !t.isReceived && t.status == st }
  function Unpaid(): Task -> bool { (t: Task) => !t.isPaid }
  function InProject(s: Store, pid: Id): Task -> bool { (t: Task) => ProjectOf(s, t) == Some(pid) }
  function InProjectWithStatus(s: Store, pid: Id, st: TaskStatus): Task -> bool
  {
    (t: Task) => ProjectOf(s, t) == Some(pid) && t.status == st
  }

  /** Runs a task query: the keys of the matching tasks, in primary-key order. */
  function Find(s: Store, p: Task -> bool): (r: seq<Id>)
    requires Valid(s)
    ensures forall id :: id in r <==> id in s.tasks && p(s.tasks[id])
    ensures Ascending(r)
  {
    ScanSound(s.tasks, s.nextTaskId, p);
    ScanComplete(s.tasks, s.nextTaskId, p);
    ScanAscending(s.tasks, s.nextTaskId, p);
    Scan(s.tasks, s.nextTaskId, p)
  }

  /** `findByCategoryId`. */
  function FindByCategoryId(s: Store, c: Id): (r: seq<Id>)
    requires Valid(s)
    ensures forall id :: id in r <==> id in s.tasks && s.tasks[id].categoryId == c
    ensures Ascending(r)
  {
    Find(s, InCategory(c))
  }

  /** `findByVillaId`. */
  function FindByVillaId(s: Store, v: Id): (r: seq<Id>)
    requires Valid(s)
    ensures forall id :: id in r <==> id in s.tasks && s.tasks[id].villaId == v
    ensures Ascending(r)
  {
    Find(s, InVilla(v))
  }

  /** `findByTeamId`: a task without a team matches no team. */
  function FindByTeamId(s: Store, team: Id): (r: seq<Id>)
    requires Valid(s)
    ensures forall id :: id in r <==> id in s.tasks && s.tasks[id].team == Some(team)
    ensures Ascending(r)
  {
    Find(s, OfTeam(team))
  }

  /** `findByStatus`. */
  function FindByStatus(s: Store, st: TaskStatus): (r: seq<Id>)
    requires Valid(s)
    ensures forall id :: id in r <==> id in s.tasks && s.tasks[id].status == st
    ensures Ascending(r)
  {
    Find(s, WithStatus(st))
  }

  /** `findByProgressStatus`. */
  function FindByProgressStatus(s: Store, ps: ProgressStatus): (r: seq<Id>)
    requires Valid(s)
    ensures forall id :: id in r <==> id in s.tasks && s.tasks[id].progressStatus == ps
    ensures Ascending(r)
  {
    Find(s, WithProgressStatus(ps))
  }

  /** `findByIsReceivedFalseAndStatus`. */
  function FindByIsReceivedFalseAndStatus(s: Store, st: TaskStatus): (r: seq<Id>)
    requires Valid(s)
    ensures forall id :: id in r <==> id in s.tasks && !s.tasks[id].isReceived && s.tasks[id].status == st
    ensures Ascending(r)
  {
    Find(s, UnreceivedWithStatus(st))
  }

  /** `findByIsPaidFalse`. */
  function FindByIsPaidFalse(s: Store): (r: seq<Id>)
    requires Valid(s)
    ensures forall id :: id in r <==> id in s.tasks && !s.tasks[id].isPaid
    ensures Ascending(r)
  {
    Find(s, Unpaid())
  }

  /** `findByProjectId`: membership goes through the category's villa. */
  function FindByProjectId(s: Store, pid: Id): (r: seq<Id>)
    requires Valid(s)
    ensures forall id :: id in r <==> id in s.tasks && ProjectOf(s, s.tasks[id]) == Some(pid)
    ensures Ascending(r)
  {
    Find(s, InProject(s, pid))
  }

  /** `findByProjectIdAndStatus`. */
  function FindByProjectIdAndStatus(s: Store, pid: Id, st: TaskStatus): (r: seq<Id>)
    requires Valid(s)
    ensures forall id :: id in r <==> id in s.tasks && ProjectOf(s, s.tasks[id]) == Some(pid) && s.tasks[id].status == st
    ensures Ascending(r)
  {
    Find(s, InProjectWithStatus(s, pid, st))
  }

  /** `countByCategoryId`: the number of the category's tasks among the keys handed out so far, which
      in a valid database are all of them (`CategoryCountsAreCardinalities`). */
  function CountByCategoryId(s: Store, c: Id): (r: nat)
    ensures r == |MatchingBelow(s.tasks, s.nextTaskId, InCategory(c))|
  {
    CountIsCardinalityBelow(s.tasks, s.nextTaskId, InCategory(c));
    CountRows(s.tasks, s.nextTaskId, InCategory(c))
  }

  /** `countCompletedByCategoryId`: the number of the category's COMPLETED tasks among the keys
      handed out so far. */
  function CountCompletedByCategoryId(s: Store, c: Id): (r: nat)
    ensures r == |MatchingBelow(s.tasks, s.nextTaskId, CompletedInCategory(c))|
  {
    CountIsCardinalityBelow(s.tasks, s.nextTaskId, CompletedInCategory(c));
    CountRows(s.tasks, s.nextTaskId, CompletedInCategory(c))
  }

  /** The count query agrees with the find query for the same category. */
  lemma CountByCategoryIdIsFindSize(s: Store, c: Id)
    requires Valid(s)
    ensures CountByCategoryId(s, c) == |FindByCategoryId(s, c)|
  {
    CountIsScanLength(s.tasks, s.nextTaskId, InCategory(c));
  }

  /** The count is the number of the category's tasks, and the completed count the number of
      its completed tasks. */
  lemma CategoryCountsAreCardinalities(s: Store, c: Id)
    requires Valid(s)
    ensures CountByCategoryId(s, c) == |Matching(s.tasks, InCategory(c))|
    ensures CountCompletedByCategoryId(s, c) == |Matching(s.tasks, CompletedInCategory(c))|
  {
    CountIsCardinality(s.tasks, s.nextTaskId, InCategory(c));
    CountIsCardinality(s.tasks, s.nextTaskId, CompletedInCategory(c));
  }

  /** A category never has more completed tasks than tasks. */
  lemma CompletedAtMostCount(s: Store, c: Id)
    ensures CountCompletedByCategoryId(s, c) <= CountByCategoryId(s, c)
  {
    CountMonotone(s.tasks, s.nextTaskId, CompletedInCategory(c), InCategory(c));
  }

  /** Tests the status of the task a key names. */
  function KeyWithStatus(s: Store, st: TaskStatus): Id -> bool
  {
    id => id in s.tasks && s.tasks[id].status == st
  }

  /** The project-and-status query is the project query filtered by status, in the same order. */
  lemma ProjectAndStatusFiltersProject(s: Store, pid: Id, st: TaskStatus)
    requires Valid(s)
    ensures FindByProjectIdAndStatus(s, pid, st) == Seqs.Filter(KeyWithStatus(s, st), FindByProjectId(s, pid))
  {
    ScanConjunction(s.tasks, s.nextTaskId, InProject(s, pid), InProjectWithStatus(s, pid, st), KeyWithStatus(s, st));
  }

  /** The amount of the task a key names. */
  function AmountOfKey(s: Store): Id -> int
  {
    id => if id in s.tasks then s.tasks[id].amount else 0
  }

  /** Tests whether the task a key names is paid, and whether it is not. */
  function KeyPaid(s: Store): Id -> bool { id => id in s.tasks && s.tasks[id].isPaid }
  function KeyUnpaid(s: Store): Id -> bool { id => !(id in s.tasks && s.tasks[id].isPaid) }

  function InProjectPaid(s: Store, pid: Id): Task -> bool
  {
    (t: Task) => ProjectOf(s, t) == Some(pid) && t.isPaid
  }

  /** `SUM(t.amount)` over the rows a query returns: `null` (`None`) when there are none. */
  function SumAmounts(s: Store, rows: seq<Id>): Option<int>
  {
    if |rows| == 0 then None else Some(Seqs.Sum(AmountOfKey(s), rows))
  }

  /** `getTotalAmountByProjectId`: `null` exactly when the project has no task, else the sum of
      the amounts of its tasks. */
  function TotalAmountByProjectId(s: Store, pid: Id): (r: Option<int>)
    requires Valid(s)
    ensures r.None? <==> forall id :: id in s.tasks ==> ProjectOf(s, s.tasks[id]) != Some(pid)
    ensures r.Some? ==> r.value == Seqs.Sum(AmountOfKey(s), FindByProjectId(s, pid))
  {
    var rows := FindByProjectId(s, pid);
    assert |rows| > 0 ==> rows[0] in rows;
    SumAmounts(s, rows)
  }

  /** `getPaidAmountByProjectId`: `null` exactly when the project has no paid task, else the sum of
      the amounts of its paid tasks. */
  function PaidAmountByProjectId(s: Store, pid: Id): (r: Option<int>)
    requires Valid(s)
    ensures r.None? <==> forall id :: id in s.tasks ==> !(ProjectOf(s, s.tasks[id]) == Some(pid) && s.tasks[id].isPaid)
    ensures r.Some? ==> r.value == Seqs.Sum(AmountOfKey(s), Find(s, InProjectPaid(s, pid)))
  {
    var rows := Find(s, InProjectPaid(s, pid));
    assert |rows| > 0 ==> rows[0] in rows;
    SumAmounts(s, rows)
  }

  /** The paid sum is the total sum less the unpaid tasks' amounts, so with no negative amounts it
      never exceeds the total; and a project without tasks has neither sum. */
  lemma PaidAmountAtMostTotal(s: Store, pid: Id)
    requires Valid(s)
    requires forall id :: id in s.tasks ==> s.tasks[id].amount >= 0
    ensures TotalAmountByProjectId(s, pid).None? ==> PaidAmountByProjectId(s, pid).None?
    ensures PaidAmountByProjectId(s, pid).GetOr(0) <= TotalAmountByProjectId(s, pid).GetOr(0)
  {
    var all := FindByProjectId(s, pid);
    var paid := Find(s, InProjectPaid(s, pid));
    ScanConjunction(s.tasks, s.nextTaskId, InProject(s, pid), InProjectPaid(s, pid), KeyPaid(s));
    assert paid == Seqs.Filter(KeyPaid(s), all);
    Seqs.SumFilterSplit(AmountOfKey(s), KeyPaid(s), KeyUnpaid(s), all);
    var unpaid := Seqs.Filter(KeyUnpaid(s), all);
    assert forall i :: 0 <= i < |unpaid| ==> unpaid[i] in all;
    Seqs.SumNonNegative(AmountOfKey(s), unpaid);
  }

  /** Task keys ordered by last update, most recent first. */
  predicate NewestFirst(tasks: map<Id, Task>, r: seq<Id>)
  {
    && (forall i :: 0 <= i < |r| ==> r[i] in tasks)
    && (forall i, j :: 0 <= i < j < |r| ==> tasks[r[i]].updatedAt >= tasks[r[j]].updatedAt)
  }

  /** No task of `r` was updated after `u`. */
  predicate UpdatedBy(tasks: map<Id, Task>, r: seq<Id>, u: Timestamp)
  {
    forall i :: 0 <= i < |r| ==> r[i] in tasks && tasks[r[i]].updatedAt <= u
  }

  /** Inserts `id` after every task updated at least as recently, keeping `r` newest first. */
  function InsertNewestFirst(tasks: map<Id, Task>, r: seq<Id>, id: Id): (q: seq<Id>)
    requires id in tasks && NewestFirst(tasks, r)
    ensures NewestFirst(tasks, q)
    ensures |q| == |r| + 1
    ensures forall x :: x in q <==> x in r || x == id
    ensures forall u :: UpdatedBy(tasks, r, u) && tasks[id].updatedAt <= u ==> UpdatedBy(tasks, q, u)
  {
    if |r| == 0 then [id]
    else if tasks[r[0]].updatedAt >= tasks[id].updatedAt then
      var rest := InsertNewestFirst(tasks, r[1..], id);
      assert UpdatedBy(tasks, r[1..], tasks[r[0]].updatedAt);
      assert r == [r[0]] + r[1..];
      [r[0]] + rest
    else
      [id] + r
  }

  /** The task keys below `k`. */
  ghost function KeysBelow(tasks: map<Id, Task>, k: nat): set<Id>
  {
    set id | id in tasks && id < k
  }

  /** Moving the bound up by one adds the key at the bound, if there is a task there. */
  lemma KeysBelowStep(tasks: map<Id, Task>, k: nat)
    ensures KeysBelow(tasks, k + 1) == KeysBelow(tasks, k) + (if k in tasks then {k} else {})
    ensures k !in KeysBelow(tasks, k)
    ensures |KeysBelow(tasks, k + 1)| == |KeysBelow(tasks, k)| + (if k in tasks then 1 else 0)
  {
    assert KeysBelow(tasks, k + 1) == KeysBelow(tasks, k) + (if k in tasks then {k} else {});
  }

  /** `r` lists the task keys below `k`, each once, newest first. */
  ghost predicate ListsKeysBelow(tasks: map<Id, Task>, r: seq<Id>, k: nat)
  {
    && NewestFirst(tasks, r)
    && (forall id :: id in r <==> id in KeysBelow(tasks, k))
    && |r| == |KeysBelow(tasks, k)|
  }

  /** One step of the sort: the key `k`, if it names a task, is inserted in its place. */
  function InsertKey(tasks: map<Id, Task>, r: seq<Id>, k: nat): (q: seq<Id>)
    requires ListsKeysBelow(tasks, r, k)
    ensures ListsKeysBelow(tasks, q, k + 1)
  {
    KeysBelowStep(tasks, k);
    if k in tasks then InsertNewestFirst(tasks, r, k) else r
  }

  /** `findAllOrderByUpdatedAtDesc`: every task exactly once, the most recently updated first. */
  method FindAllOrderByUpdatedAtDesc(s: Store) returns (r: seq<Id>)
    requires Valid(s)
    ensures forall id :: id in r <==> id in s.tasks
    ensures |r| == |s.tasks|
    ensures NewestFirst(s.tasks, r)
  {
    r := [];
    var k := 0;
    while k < s.nextTaskId
      invariant 0 <= k <= s.nextTaskId
      invariant ListsKeysBelow(s.tasks, r, k)
    {
      r := InsertKey(s.tasks, r, k);
      k := k + 1;
    }
    assert KeysBelow(s.tasks, k) == s.tasks.Keys;
  }
}

=== FILE: task_service.dfy ===
/** `TaskService`: task CRUD, progress updates and the received/paid flags. Every operation that
    changes the tasks of a category ends by recomputing that category's statistics; if any step
    fails the whole call fails and the database is left as it was. */
module TaskService {
  import opened Wrappers
  import opened Entities
  import opened Repository
  import TaskRepository
  import CategoryService

  /** Saves `t` under `key` and recomputes the statistics of category `cid`. */
  function SaveAndRecount(s: Store, key: Id, t: Task, cid: Id): (r: Result<Store, Error>)
    requires Valid(s) && t.id == key && key < s.nextTaskId
  {
    CategoryService.UpdateCategoryStats(s.(tasks := s.tasks[key := t]), cid)
  }

  /** `createTask(task)`: the category, then the villa, then a team given by id must exist. The
      task is saved under the next key, unchanged otherwise, and its category is recounted. */
  function CreateTask(s: Store, t: Task): (r: Result<(Store, Task), Error>)
    requires Valid(s)
    ensures t.categoryId !in s.categories ==> r == Err(NotFound(CategoryKind))
    ensures t.categoryId in s.categories && t.villaId !in s.villas ==> r == Err(NotFound(VillaKind))
    ensures (t.categoryId in s.categories && t.villaId in s.villas && t.team.Some? && t.team.value !in s.teams)
              ==> r == Err(NotFound(TeamKind))
    ensures r.Ok? <==> t.categoryId in s.categories && t.villaId in s.villas && (t.team.Some? ==> t.team.value in s.teams)
    ensures r.Ok? ==> var (s', saved) := r.value;
      && Valid(s')
      && saved.id !in s.tasks
      && saved == t.(id := saved.id)
      && s'.tasks == s.tasks[saved.id := saved]
      && s'.villas == s.villas && s'.teams == s.teams
      && t.categoryId in s'.categories
      && s'.categories == s.categories[t.categoryId := s'.categories[t.categoryId]]
      && CategoryService.Recomputed(s', s.categories[t.categoryId], s'.categories[t.categoryId])
  {
    if t.categoryId !in s.categories then Err(NotFound(CategoryKind))
    else if t.villaId !in s.villas then Err(NotFound(VillaKind))
    else if t.team.Some? && t.team.value !in s.teams then Err(NotFound(TeamKind))
    else
      var key := s.nextTaskId;
      var saved := t.(id := key);
      var s1 := s.(nextTaskId := key + 1);
      match SaveAndRecount(s1, key, saved, t.categoryId)
      case Ok(s') => Ok((s', saved))
      case Err(e) => Err(e)
  }

  /** The fields `updateTask` copies from the request; the team only when one is given by id.
      Key, category, villa and audit time stay. */
  function ApplyTaskDetails(t: Task, d: Task): (u: Task)
    ensures u.id == t.id && u.categoryId == t.categoryId && u.villaId == t.villaId && u.updatedAt == t.updatedAt
    ensures u.team == if d.team.Some? then d.team else t.team
    ensures u == d.(id := t.id, categoryId := t.categoryId, villaId := t.villaId, updatedAt := t.updatedAt, team := u.team)
  {
    var copied := t.(name := d.name, description := d.description,
                     startDate := d.startDate, endDate := d.endDate,
                     plannedStartDate := d.plannedStartDate, plannedEndDate := d.plannedEndDate,
                     status := d.status, progress := d.progress, progressStatus := d.progressStatus,
                     isReceived := d.isReceived, isPaid := d.isPaid, amount := d.amount, remarks := d.remarks);
    if d.team.Some? then copied.(team := d.team) else copied
  }

  /** Updating twice with the same request is updating once. */
  lemma ApplyTaskDetailsIdempotent(t: Task, d: Task)
    ensures ApplyTaskDetails(ApplyTaskDetails(t, d), d) == ApplyTaskDetails(t, d)
  {
  }

  /** `updateTask(id, details)`. */
  function UpdateTask(s: Store, id: Id, d: Task): (r: Result<(Store, Task), Error>)
    requires Valid(s)
    ensures id !in s.tasks ==> r == Err(NotFoundWithId(TaskKind, id))
    ensures id in s.tasks && d.team.Some? && d.team.value !in s.teams ==> r == Err(NotFound(TeamKind))
    ensures (id in s.tasks && (d.team.Some? ==> d.team.value in s.teams) && s.tasks[id].categoryId !in s.categories)
              ==> r == Err(NotFoundWithId(CategoryKind, s.tasks[id].categoryId))
    ensures r.Ok? <==> id in s.tasks && (d.team.Some? ==> d.team.value in s.teams) && s.tasks[id].categoryId in s.categories
    ensures r.Ok? ==> var (s', saved) := r.value;
      && Valid(s')
      && saved == ApplyTaskDetails(s.tasks[id], d)
      && s'.tasks == s.tasks[id := saved]
      && s' == s.(tasks := s'.tasks, categories := s'.categories)
      && saved.categoryId in s'.categories
      && s'.categories == s.categories[saved.categoryId := s'.categories[saved.categoryId]]
      && CategoryService.Recomputed(s', s.categories[saved.categoryId], s'.categories[saved.categoryId])
  {
    if id !in s.tasks then Err(NotFoundWithId(TaskKind, id))
    else if d.team.Some? && d.team.value !in s.teams then Err(NotFound(TeamKind))
    else
      var saved := ApplyTaskDetails(s.tasks[id], d);
      match SaveAndRecount(s, id, saved, saved.categoryId)
      case Ok(s') => Ok((s', saved))
      case Err(e) => Err(e)
  }

  /** `deleteTask(id)`: removes the row, then recounts the category it belonged to. */
  function DeleteTask(s: Store, id: Id): (r: Result<Store, Error>)
    requires Valid(s)
    ensures id !in s.tasks ==> r == Err(NotFoundWithId(TaskKind, id))
    ensures (id in s.tasks && s.tasks[id].categoryId !in s.categories)
              ==> r == Err(NotFoundWithId(CategoryKind, s.tasks[id].categoryId))
    ensures r.Ok? <==> id in s.tasks && s.tasks[id].categoryId in s.categories
    ensures r.Ok? ==> var cid := s.tasks[id].categoryId;
      && Valid(r.value)
      && r.value.tasks == s.tasks - {id}
      && r.value == s.(tasks := r.value.tasks, categories := r.value.categories)
      && cid in r.value.categories
      && r.value.categories == s.categories[cid := r.value.categories[cid]]
      && CategoryService.Recomputed(r.value, s.categories[cid], r.value.categories[cid])
  {
    if id !in s.tasks then Err(NotFoundWithId(TaskKind, id))
    else CategoryService.UpdateCategoryStats(s.(tasks := s.tasks - {id}), s.tasks[id].categoryId)
  }

  /** The status `updateTaskProgress` leaves: completed at exactly 100, in progress at any other
      positive value, and otherwise (zero or negative) the status the task already had. */
  function StatusAfterProgress(st: TaskStatus, progress: int): (r: TaskStatus)
    ensures r == TaskStatus.Completed <==> progress == 100 || (progress <= 0 && st == TaskStatus.Completed)
    ensures r == TaskStatus.InProgress <==> (progress > 0 && progress != 100) || (progress <= 0 && st == TaskStatus.InProgress)
    ensures progress <= 0 ==> r == st
  {
    if progress == 100 then TaskStatus.Completed
    else if progress > 0 then TaskStatus.InProgress
    else st
  }

  /** `updateTaskProgress(id, progress)`. The progress is stored as given, without range checks. */
  function UpdateTaskProgress(s: Store, id: Id, progress: int): (r: Result<(Store, Task), Error>)
    requires Valid(s)
    ensures id !in s.tasks ==> r == Err(NotFoundWithId(TaskKind, id))
    ensures r.Ok? <==> id in s.tasks && s.tasks[id].categoryId in s.categories
    ensures r.Ok? ==> var (s', saved) := r.value;
      && Valid(s')
      && saved == s.tasks[id].(progress := progress, status := StatusAfterProgress(s.tasks[id].status, progress))
      && s'.tasks == s.tasks[id := saved]
      && s' == s.(tasks := s'.tasks, categories := s'.categories)
      && saved.categoryId in s'.categories
      && s'.categories == s.categories[saved.categoryId := s'.categories[saved.categoryId]]
      && CategoryService.Recomputed(s', s.categories[saved.categoryId], s'.categories[saved.categoryId])
  {
    if id !in s.tasks then Err(NotFoundWithId(TaskKind, id))
    else
      var t := s.tasks[id];
      var saved := t.(progress := progress, status := StatusAfterProgress(t.status, progress));
      match SaveAndRecount(s, id, saved, saved.categoryId)
      case Ok(s') => Ok((s', saved))
      case Err(e) => Err(e)
  }

  /** `markTaskAsReceived(id)`: sets the flag and touches nothing else, not even the statistics. */
  function MarkTaskAsReceived(s: Store, id: Id): (r: Result<(Store, Task), Error>)
    requires Valid(s)
    ensures r.Err? <==> id !in s.tasks
    ensures r.Err? ==> r.error == NotFoundWithId(TaskKind, id)
    ensures r.Ok? ==> var (s', saved) := r.value;
      && Valid(s')
      && saved.isReceived
      && saved == s.tasks[id].(isReceived := true)
      && s' == s.(tasks := s.tasks[id := saved])
  {
    if id !in s.tasks then Err(NotFoundWithId(TaskKind, id))
    else
      var saved := s.tasks[id].(isReceived := true);
      Ok((s.(tasks := s.tasks[id := saved]), saved))
  }

  /** `markTaskAsPaid(id)`: sets the flag and touches nothing else. */
  function MarkTaskAsPaid(s: Store, id: Id): (r: Result<(Store, Task), Error>)
    requires Valid(s)
    ensures r.Err? <==> id !in s.tasks
    ensures r.Err? ==> r.error == NotFoundWithId(TaskKind, id)
    ensures r.Ok? ==> var (s', saved) := r.value;
      && Valid(s')
      && saved.isPaid
      && saved == s.tasks[id].(isPaid := true)
      && s' == s.(tasks := s.tasks[id := saved])
  {
    if id !in s.tasks then Err(NotFoundWithId(TaskKind, id))
    else
      var saved := s.tasks[id].(isPaid := true);
      Ok((s.(tasks := s.tasks[id := saved]), saved))
  }

  /** Creating a task in a category whose counters were right counts it there: one task more, and
      one completed task more exactly when it is created completed. */
  lemma CreateTaskCountsIt(s: Store, t: Task)
    requires Valid(s) && CreateTask(s, t).Ok?
    requires CategoryService.CountersMatch(s, s.categories[t.categoryId])
    ensures var c := s.categories[t.categoryId];
      var c' := CreateTask(s, t).value.0.categories[t.categoryId];
      && c'.tasksCount == c.tasksCount + 1
      && c'.completedTasks == c.completedTasks + (if t.status == TaskStatus.Completed then 1 else 0)
  {
    var (s', saved) := CreateTask(s, t).value;
    MatchingInsertFresh(s.tasks, saved.id, saved, TaskRepository.InCategory(t.categoryId));
    MatchingInsertFresh(s.tasks, saved.id, saved, TaskRepository.CompletedInCategory(t.categoryId));
  }

  /** Deleting the task just created gives back the tasks the database had, and its category's
      counters are again those of the original tasks. */
  lemma DeleteUndoesCreate(s: Store, t: Task)
    requires Valid(s) && CreateTask(s, t).Ok?
    ensures var (s', saved) := CreateTask(s, t).value;
      var r := DeleteTask(s', saved.id);
      && r.Ok?
      && r.value.tasks == s.tasks
      && r.value.villas == s.villas && r.value.teams == s.teams
      && r.value.categories == s.categories[t.categoryId := r.value.categories[t.categoryId]]
      && CategoryService.CountersMatch(s, r.value.categories[t.categoryId])
  {
    var (s', saved) := CreateTask(s, t).value;
    assert s'.tasks - {saved.id} == s.tasks;
  }

  /** Setting the same progress twice changes nothing the second time. */
  lemma UpdateTaskProgressIdempotent(s: Store, id: Id, progress: int)
    requires Valid(s) && UpdateTaskProgress(s, id, progress).Ok?
    ensures var (s', saved) := UpdateTaskProgress(s, id, progress).value;
      UpdateTaskProgress(s', id, progress) == Ok((s', saved))
  {
    var (s', saved) := UpdateTaskProgress(s, id, progress).value;
    var s1 := s.(tasks := s.tasks[id := saved]);
    CategoryService.UpdateCategoryStatsIdempotent(s1, saved.categoryId);
    assert s'.tasks[id := saved] == s'.tasks;
    assert s'.(tasks := s'.tasks[id := saved]) == s';
  }

  /** A task set to 100% counts among its category's completed tasks. */
  lemma CompletedTaskIsCounted(s: Store, id: Id)
    requires Valid(s) && UpdateTaskProgress(s, id, 100).Ok?
    ensures var (s', saved) := UpdateTaskProgress(s, id, 100).value;
      && saved.status == TaskStatus.Completed
      && s'.categories[saved.categoryId].completedTasks >= 1
  {
    var (s', saved) := UpdateTaskProgress(s, id, 100).value;
    var done := Matching(s'.tasks, TaskRepository.CompletedInCategory(saved.categoryId));
    assert id in done;
    assert |{id}| <= |done| by {
      assert {id} <= done;
    }
  }

  /** Once marked paid, a task leaves the unpaid list and no other task enters or leaves it. */
  lemma PaidLeavesUnpaidList(s: Store, id: Id)
    requires Valid(s) && MarkTaskAsPaid(s, id).Ok?
    ensures var s' := MarkTaskAsPaid(s, id).value.0;
      forall x :: x in TaskRepository.FindByIsPaidFalse(s') <==> x in TaskRepository.FindByIsPaidFalse(s) && x != id
  {
  }

  /** Once marked received, a task leaves every "not yet received" list, and no other task moves. */
  lemma ReceivedLeavesUnreceivedLists(s: Store, id: Id, st: TaskStatus)
    requires Valid(s) && MarkTaskAsReceived(s, id).Ok?
    ensures var s' := MarkTaskAsReceived(s, id).value.0;
      forall x :: (x in TaskRepository.FindByIsReceivedFalseAndStatus(s', st))
                  <==> (x in TaskRepository.FindByIsReceivedFalseAndStatus(s, st) && x != id)
  {
  }

  /** Marking paid twice is marking paid once. */
  lemma MarkTaskAsPaidIdempotent(s: Store, id: Id)
    requires Valid(s) && MarkTaskAsPaid(s, id).Ok?
    ensures MarkTaskAsPaid(MarkTaskAsPaid(s, id).value.0, id) == MarkTaskAsPaid(s, id)
  {
    var (s', saved) := MarkTaskAsPaid(s, id).value;
    assert s'.tasks[id := saved] == s'.tasks;
  }

  /** Marking received twice is marking received once. */
  lemma MarkTaskAsReceivedIdempotent(s: Store, id: Id)
    requires Valid(s) && MarkTaskAsReceived(s, id).Ok?
    ensures MarkTaskAsReceived(MarkTaskAsReceived(s, id).value.0, id) == MarkTaskAsReceived(s, id)
  {
    var (s', saved) := MarkTaskAsReceived(s, id).value;
    assert s'.tasks[id := saved] == s'.tasks;
  }
}

=== FILE: team_service.dfy ===
/** `TeamService`: team CRUD and the recomputation of a team's activity and performance from the
    tasks assigned to it. The clock `LocalDateTime.now()` reads is the parameter `now`. */
module TeamService {
  import opened Wrappers
  import opened Entities
  import opened Repository
  import Seqs
  import TaskRepository

  /** The tasks handed to `createTeam`, each pointed at the team being created; nothing else in
      them changes. */
  function Relink(tasks: seq<Task>, team: Id): (r: seq<Task>)
    ensures |r| == |tasks|
    ensures forall i :: 0 <= i < |r| ==> TaskRepository.OfTeam(team)(r[i])
    ensures forall i :: 0 <= i < |r| ==> r[i].(team := tasks[i].team) == tasks[i]
  {
    seq(|tasks|, i requires 0 <= i < |tasks| => tasks[i].(team := Some(team)))
  }

  /** `createTeam(team)`: the team is saved under the next key exactly as given; the tasks it
      carries come back pointing at it. */
  function CreateTeam(s: Store, team: Team, tasks: seq<Task>): (r: (Store, Team, seq<Task>))
    requires Valid(s)
    ensures var (s', saved, linked) := r;
      && Valid(s')
      && saved.id !in s.teams
      && saved == team.(id := saved.id)
      && s' == s.(teams := s.teams[saved.id := saved], nextTeamId := s'.nextTeamId)
      && linked == Relink(tasks, saved.id)
  {
    var saved := team.(id := s.nextTeamId);
    (s.(teams := s.teams[saved.id := saved], nextTeamId := s.nextTeamId + 1), saved, Relink(tasks, saved.id))
  }

  /** The fields `updateTeam` copies: name, specialty, member count and performance. The active
      task count and the last activity stay. */
  function ApplyTeamDetails(t: Team, d: Team): (u: Team)
    ensures u.id == t.id && u.activeTasks == t.activeTasks && u.lastActivity == t.lastActivity
    ensures u.name == d.name && u.specialty == d.specialty
    ensures u.membersCount == d.membersCount && u.performance == d.performance
  {
    t.(name := d.name, specialty := d.specialty, membersCount := d.membersCount, performance := d.performance)
  }

  /** `updateTeam(id, details)`. */
  function UpdateTeam(s: Store, id: Id, d: Team): (r: Result<(Store, Team), Error>)
    requires Valid(s)
    ensures r.Err? <==> id !in s.teams
    ensures r.Err? ==> r.error == NotFoundWithId(TeamKind, id)
    ensures r.Ok? ==> var (s', saved) := r.value;
      && Valid(s')
      && saved == ApplyTeamDetails(s.teams[id], d)
      && s' == s.(teams := s.teams[id := saved])
  {
    if id !in s.teams then Err(NotFoundWithId(TeamKind, id))
    else
      var saved := ApplyTeamDetails(s.teams[id], d);
      Ok((s.(teams := s.teams[id := saved]), saved))
  }

  /** Updating twice with the same request is updating once. */
  lemma UpdateTeamIdempotent(s: Store, id: Id, d: Team)
    requires Valid(s) && UpdateTeam(s, id, d).Ok?
    ensures UpdateTeam(UpdateTeam(s, id, d).value.0, id, d) == UpdateTeam(s, id, d)
  {
    var (s', saved) := UpdateTeam(s, id, d).value;
    assert s'.teams[id := saved] == s'.teams;
  }

  /** `deleteTeam(id)`: removes the row and nothing else. */
  function DeleteTeam(s: Store, id: Id): (r: Result<Store, Error>)
    requires Valid(s)
    ensures r.Err? <==> id !in s.teams
    ensures r.Err? ==> r.error == NotFoundWithId(TeamKind, id)
    ensures r.Ok? ==> Valid(r.value) && r.value == s.(teams := s.teams - {id})
  {
    if id !in s.teams then Err(NotFoundWithId(TeamKind, id))
    else Ok(s.(teams := s.teams - {id}))
  }

  /** Deleting the team just created succeeds and gives the original rows back; only the key
      counter has moved on. */
  lemma DeleteUndoesCreateTeam(s: Store, team: Team, tasks: seq<Task>)
    requires Valid(s)
    ensures var (s', saved, _) := CreateTeam(s, team, tasks);
      && DeleteTeam(s', saved.id).Ok?
      && DeleteTeam(s', saved.id).value == s.(nextTeamId := s'.nextTeamId)
      && s'.nextTeamId > s.nextTeamId
  {
    var (s', saved, _) := CreateTeam(s, team, tasks);
    assert s.teams[saved.id := saved] - {saved.id} == s.teams;
  }

  /** A task that still needs work: in progress or pending. */
  predicate IsActive(t: Task)
  {
    t.status == TaskStatus.InProgress || t.status == TaskStatus.Pending
  }

  /** The team's tasks that still need work. */
  function ActiveOfTeam(team: Id): Task -> bool { (t: Task) => t.team == Some(team) && IsActive(t) }

  /** The team's completed tasks. */
  function CompletedOfTeam(team: Id): Task -> bool { (t: Task) => t.team == Some(team) && t.status == TaskStatus.Completed }

  /** Tests whether the task a key names still needs work. */
  function ActiveKey(s: Store): Id -> bool { id => id in s.tasks && IsActive(s.tasks[id]) }

  /** The counts `updateTeamStats` takes from the team's task list are the numbers of the team's
      tasks, of its active tasks and of its completed tasks. */
  lemma TeamCountsAreCardinalities(s: Store, team: Id)
    requires Valid(s)
    ensures |TaskRepository.FindByTeamId(s, team)| == |Matching(s.tasks, TaskRepository.OfTeam(team))|
    ensures Seqs.Count(ActiveKey(s), TaskRepository.FindByTeamId(s, team))
              == |Matching(s.tasks, ActiveOfTeam(team))|
    ensures Seqs.Count(TaskRepository.KeyWithStatus(s, TaskStatus.Completed), TaskRepository.FindByTeamId(s, team))
              == |Matching(s.tasks, CompletedOfTeam(team))|
  {
    var n := s.nextTaskId;
    var rows := TaskRepository.FindByTeamId(s, team);
    assert rows == Scan(s.tasks, n, TaskRepository.OfTeam(team));
    CountIsScanLength(s.tasks, n, TaskRepository.OfTeam(team));
    CountIsCardinality(s.tasks, n, TaskRepository.OfTeam(team));

    ScanConjunction(s.tasks, n, TaskRepository.OfTeam(team), ActiveOfTeam(team), ActiveKey(s));
    Seqs.CountIsFilterLength(ActiveKey(s), rows);
    CountIsScanLength(s.tasks, n, ActiveOfTeam(team));
    CountIsCardinality(s.tasks, n, ActiveOfTeam(team));

    var done := TaskRepository.KeyWithStatus(s, TaskStatus.Completed);
    ScanConjunction(s.tasks, n, TaskRepository.OfTeam(team), CompletedOfTeam(team), done);
    Seqs.CountIsFilterLength(done, rows);
    CountIsScanLength(s.tasks, n, CompletedOfTeam(team));
    CountIsCardinality(s.tasks, n, CompletedOfTeam(team));
  }

  /** `t` is `before` with its statistics recomputed from `tasks` at time `now`: the number of
      active tasks, the time, and, when the team has any task, the completed percentage rounded
      down as performance (otherwise the performance stays). */
  ghost predicate StatsRecomputed(tasks: map<Id, Task>, before: Team, t: Team, now: Timestamp)
  {
    var total := |Matching(tasks, TaskRepository.OfTeam(before.id))|;
    var completed := |Matching(tasks, CompletedOfTeam(before.id))|;
    && t == before.(activeTasks := t.activeTasks, lastActivity := now, performance := t.performance)
    && t.activeTasks == |Matching(tasks, ActiveOfTeam(before.id))|
    && (total > 0 ==>
          && 0 <= t.performance <= 100
          && t.performance * total <= completed * 100 < (t.performance + 1) * total)
    && (total == 0 ==> t.performance == before.performance)
  }

  /** The team `t` with its statistics recomputed from the tasks of `s`. */
  function WithStats(s: Store, t: Team, now: Timestamp): (u: Team)
    requires Valid(s)
    ensures StatsRecomputed(s.tasks, t, u, now)
  {
    var rows := TaskRepository.FindByTeamId(s, t.id);
    var active := Seqs.Count(ActiveKey(s), rows);
    var completed := Seqs.Count(TaskRepository.KeyWithStatus(s, TaskStatus.Completed), rows);
    TeamCountsAreCardinalities(s, t.id);
    var total := |rows|;
    var touched := t.(activeTasks := active, lastActivity := now);
    var u := if total > 0 then touched.(performance := Percent(completed, total)) else touched;
    StatsFromCounts(s.tasks, t, u, now, active, completed, total);
    u
  }

  /** Statistics built from the three counts are the recomputed statistics. */
  lemma StatsFromCounts(tasks: map<Id, Task>, before: Team, u: Team, now: Timestamp, active: nat, completed: nat, total: nat)
    requires total == |Matching(tasks, TaskRepository.OfTeam(before.id))|
    requires completed == |Matching(tasks, CompletedOfTeam(before.id))|
    requires active == |Matching(tasks, ActiveOfTeam(before.id))|
    requires completed <= total
    requires total > 0 ==> u == before.(activeTasks := active, lastActivity := now, performance := Percent(completed, total))
    requires total == 0 ==> u == before.(activeTasks := active, lastActivity := now)
    ensures StatsRecomputed(tasks, before, u, now)
  {
  }

  /** `updateTeamStats(teamId)`. */
  function UpdateTeamStats(s: Store, id: Id, now: Timestamp): (r: Result<Store, Error>)
    requires Valid(s)
    ensures r.Err? <==> id !in s.teams
    ensures r.Err? ==> r.error == NotFoundWithId(TeamKind, id)
    ensures r.Ok? ==> && Valid(r.value)
                      && id in r.value.teams
                      && r.value == s.(teams := s.teams[id := r.value.teams[id]])
                      && StatsRecomputed(s.tasks, s.teams[id], r.value.teams[id], now)
  {
    if id !in s.teams then Err(NotFoundWithId(TeamKind, id))
    else Ok(s.(teams := s.teams[id := WithStats(s, s.teams[id], now)]))
  }

  /** A team's active and completed tasks are distinct tasks of the team. */
  lemma {:induction false} ActivePlusCompletedAtMostTotal(tasks: map<Id, Task>, team: Id)
    ensures |Matching(tasks, ActiveOfTeam(team))| + |Matching(tasks, CompletedOfTeam(team))|
              <= |Matching(tasks, TaskRepository.OfTeam(team))|
  {
    var a := Matching(tasks, ActiveOfTeam(team));
    var c := Matching(tasks, CompletedOfTeam(team));
    DisjointInside(a, c, Matching(tasks, TaskRepository.OfTeam(team)));
  }

  /** After the statistics are recomputed, a team at 100% performance has no active task left. */
  lemma FullPerformanceMeansNoActiveTasks(s: Store, id: Id, now: Timestamp)
    requires Valid(s) && UpdateTeamStats(s, id, now).Ok?
    requires |Matching(s.tasks, TaskRepository.OfTeam(id))| > 0
    requires UpdateTeamStats(s, id, now).value.teams[id].performance == 100
    ensures UpdateTeamStats(s, id, now).value.teams[id].activeTasks == 0
  {
    ActivePlusCompletedAtMostTotal(s.tasks, id);
  }

  /** `updateTeamActivity(teamId)`: only the last activity time moves. */
  function UpdateTeamActivity(s: Store, id: Id, now: Timestamp): (r: Result<(Store, Team), Error>)
    requires Valid(s)
    ensures r.Err? <==> id !in s.teams
    ensures r.Err? ==> r.error == NotFoundWithId(TeamKind, id)
    ensures r.Ok? ==> var (s', saved) := r.value;
      && Valid(s')
      && saved == s.teams[id].(lastActivity := now)
      && s' == s.(teams := s.teams[id := saved])
  {
    if id !in s.teams then Err(NotFoundWithId(TeamKind, id))
    else
      var saved := s.teams[id].(lastActivity := now);
      Ok((s.(teams := s.teams[id := saved]), saved))
  }

  /** Recording activity twice at the same time is recording it once. */
  lemma UpdateTeamActivityIdempotent(s: Store, id: Id, now: Timestamp)
    requires Valid(s) && UpdateTeamActivity(s, id, now).Ok?
    ensures UpdateTeamActivity(UpdateTeamActivity(s, id, now).value.0, id, now) == UpdateTeamActivity(s, id, now)
  {
    var (s', saved) := UpdateTeamActivity(s, id, now).value;
    assert s'.teams[id := saved] == s'.teams;
  }

  /** Recording activity and updating the team's details touch different fields, so their order
      does not matter. */
  lemma UpdateTeamActivityCommutes(s: Store, id: Id, now: Timestamp, d: Team)
    requires Valid(s) && id in s.teams
    ensures UpdateTeamActivity(UpdateTeam(s, id, d).value.0, id, now).value.0
              == UpdateTeam(UpdateTeamActivity(s, id, now).value.0, id, d).value.0
  {
    var t := s.teams[id];
    assert ApplyTeamDetails(t, d).(lastActivity := now) == ApplyTeamDetails(t.(lastActivity := now), d);
    assert s.teams[id := ApplyTeamDetails(t, d)][id := ApplyTeamDetails(t, d).(lastActivity := now)]
             == s.teams[id := t.(lastActivity := now)][id := ApplyTeamDetails(t.(lastActivity := now), d)];
  }
}

=== FILE: teams_manager.dfy ===
/** The teams page: search, the colour and activity badges, the per-team task figures, the summary
    cards, and team creation with the tasks typed into the creation form. The clock, the project's
    villas and the network responses are parameters. */
module TeamsManager {
  import opened Wrappers
  import opened ClientModel
  import Seqs
  import Text
  import Decimal
  import Timeline
  import Api

  // ---- search ----

  /** A team matches a search when its name or its specialty contains the term, ignoring case. */
  predicate Matches(t: Team, term: string)
  {
    Text.Contains(Text.ToLower(t.name), Text.ToLower(term)) || Text.Contains(Text.ToLower(t.specialty), Text.ToLower(term))
  }

  /** `filteredTeams`: the matching teams, in registry order. */
  function FilteredTeams(teams: seq<Team>, term: string): (r: seq<Team>)
    ensures forall t :: t in r <==> t in teams && Matches(t, term)
    ensures Seqs.Subsequence(r, teams)
  {
    Seqs.FilterIsSubsequence((t: Team) => Matches(t, term), teams);
    Seqs.Filter((t: Team) => Matches(t, term), teams)
  }

  /** An empty search shows every team. */
  lemma EmptySearchKeepsAll(teams: seq<Team>)
    ensures FilteredTeams(teams, "") == teams
  {
    forall i | 0 <= i < |teams|
      ensures Matches(teams[i], "")
    {
      Text.ContainsEmpty(Text.ToLower(teams[i].name));
    }
    Seqs.FilterKeepsAll((t: Team) => Matches(t, ""), teams);
  }

  // ---- badges ----

  datatype Colour = Green | Blue | Yellow | Red

  /** Better colours rank higher. */
  function Rank(c: Colour): nat
  {
    match c
    case Red => 0
    case Yellow => 1
    case Blue => 2
    case Green => 3
  }

  /** `getPerformanceColor`: green from 90, blue from 75, yellow from 60, red below. */
  function PerformanceColour(performance: int): (c: Colour)
    ensures c == Green <==> performance >= 90
    ensures c == Blue <==> 75 <= performance < 90
    ensures c == Yellow <==> 60 <= performance < 75
    ensures c == Red <==> performance < 60
  {
    if performance >= 90 then Green
    else if performance >= 75 then Blue
    else if performance >= 60 then Yellow
    else Red
  }

  /** A better performance never gets a worse colour. */
  lemma PerformanceColourMonotone(p: int, q: int)
    requires p <= q
    ensures Rank(PerformanceColour(p)) <= Rank(PerformanceColour(q))
  {
  }

  /** The activity badge: its text and colour. */
  datatype Activity = Activity(text: string, colour: Colour)

  /** `getActivityStatus`: the whole days elapsed since the last activity, rounded down, name the
      badge: today, yesterday, a few days ago (three at most, a future time included), or longer. */
  function ActivityStatus(lastActivity: Timeline.Instant, now: Timeline.Instant): (a: Activity)
    ensures a.colour == Green <==> 0 <= now - lastActivity < Timeline.DayMs
    ensures a.colour == Blue <==> Timeline.DayMs <= now - lastActivity < 2 * Timeline.DayMs
    ensures a.colour == Yellow <==> now - lastActivity < 0 || 2 * Timeline.DayMs <= now - lastActivity < 4 * Timeline.DayMs
    ensures a.colour == Red <==> 4 * Timeline.DayMs <= now - lastActivity
    ensures a.colour == Green ==> a.text == "Aujourd'hui"
    ensures a.colour == Blue ==> a.text == "Hier"
    ensures a.colour == Yellow || a.colour == Red ==>
      a.text == "Il y a " + Decimal.Show(Timeline.FloorDays(lastActivity, now)) + " jours"
  {
    var days := Timeline.FloorDays(lastActivity, now);
    if days == 0 then Activity("Aujourd'hui", Green)
    else if days == 1 then Activity("Hier", Blue)
    else if days <= 3 then Activity("Il y a " + Decimal.Show(days) + " jours", Yellow)
    else Activity("Il y a " + Decimal.Show(days) + " jours", Red)
  }

  /** Time only makes the activity badge worse, once the last activity is in the past. */
  lemma ActivityAges(lastActivity: Timeline.Instant, now: Timeline.Instant, later: Timeline.Instant)
    requires lastActivity <= now <= later
    ensures Rank(ActivityStatus(lastActivity, later).colour) <= Rank(ActivityStatus(lastActivity, now).colour)
  {
  }

  // ---- per-team figures ----

  /** `getTeamTasks(teamId)`: the team's tasks, in store order. */
  function TeamTasks(tasks: seq<Task>, teamId: string): (r: seq<Task>)
    ensures forall t :: t in r <==> t in tasks && t.teamId == teamId
    ensures Seqs.Subsequence(r, tasks)
  {
    Seqs.FilterIsSubsequence((t: Task) => t.teamId == teamId, tasks);
    Seqs.Filter((t: Task) => t.teamId == teamId, tasks)
  }

  predicate IsCompleted(t: Task) { t.status == Status.Completed }

  /** A task of the team that is completed. */
  function CompletedOf(teamId: string): Task -> bool
  {
    (t: Task) => t.teamId == teamId && IsCompleted(t)
  }

  /** A task's amount when it is the team's, 0 otherwise. */
  function AmountIn(teamId: string): Task -> int
  {
    (t: Task) => if t.teamId == teamId then AmountOf(t) else 0
  }

  /** A task's amount when it is the team's and paid, 0 otherwise. */
  function PaidAmountIn(teamId: string): Task -> int
  {
    (t: Task) => if t.teamId == teamId && t.isPaid then AmountOf(t) else 0
  }

  /** `task.amount || 0`. */
  function AmountOf(t: Task): int { t.amount.GetOr(0) }

  predicate IsPaid(t: Task) { t.isPaid }

  predicate IsUnpaid(t: Task) { !t.isPaid }

  /** The figures a team card shows. */
  datatype Card = Card(completed: nat, total: int, paid: int)

  /** The card of a team, counted over the whole store: its completed tasks, the sum of its task
      amounts (a missing amount counting 0), and that sum over its paid tasks only. */
  function TeamCard(tasks: seq<Task>, teamId: string): (c: Card)
    ensures c.completed == Seqs.Count(CompletedOf(teamId), tasks)
    ensures c.total == Seqs.Sum(AmountIn(teamId), tasks)
    ensures c.paid == Seqs.Sum(PaidAmountIn(teamId), tasks)
    ensures c.completed <= |TeamTasks(tasks, teamId)|
    ensures c.total == c.paid + Seqs.Sum(AmountOf, Seqs.Filter(IsUnpaid, TeamTasks(tasks, teamId)))
  {
    var ofTeam := (t: Task) => t.teamId == teamId;
    var mine := TeamTasks(tasks, teamId);
    var paidAmount := (t: Task) => if t.isPaid then AmountOf(t) else 0;
    Seqs.SumFilterSplit(AmountOf, IsPaid, IsUnpaid, mine);
    Seqs.CountIsFilterLength(IsCompleted, mine);
    Seqs.CountOfFilter(ofTeam, IsCompleted, CompletedOf(teamId), tasks);
    Seqs.SumOfFilter(AmountOf, ofTeam, AmountIn(teamId), tasks);
    Seqs.SumOfFilter(AmountOf, IsPaid, paidAmount, mine);
    Seqs.SumOfFilter(paidAmount, ofTeam, PaidAmountIn(teamId), tasks);
    Card(|Seqs.Filter(IsCompleted, mine)|,
         Seqs.Sum(AmountOf, mine),
         Seqs.Sum(AmountOf, Seqs.Filter(IsPaid, mine)))
  }

  /** With no negative amounts, a team never shows more paid than in total. */
  lemma PaidAtMostTotal(tasks: seq<Task>, teamId: string)
    requires forall i :: 0 <= i < |tasks| ==> AmountOf(tasks[i]) >= 0
    ensures TeamCard(tasks, teamId).paid <= TeamCard(tasks, teamId).total
  {
    var unpaid := Seqs.Filter(IsUnpaid, TeamTasks(tasks, teamId));
    assert forall i :: 0 <= i < |unpaid| ==> unpaid[i] in tasks;
    Seqs.SumNonNegative(AmountOf, unpaid);
  }

  // ---- summary cards ----

  function ActiveTasksOf(t: Team): int { t.activeTasks }

  function PerformanceOf(t: Team): int { t.performance }

  /** `Math.round(sum / n || 0)`: the average rounded half up, and 0 for no teams (`0 / 0` is
      `NaN`, which `|| 0` turns into 0). */
  function AveragePerformance(teams: seq<Team>): (avg: int)
    ensures |teams| == 0 ==> avg == 0
    ensures |teams| > 0 ==> var sum := Seqs.Sum(PerformanceOf, teams);
      |teams| * (2 * avg - 1) <= 2 * sum < |teams| * (2 * avg + 1)
  {
    if |teams| == 0 then 0
    else
      var n := |teams|;
      var sum := Seqs.Sum(PerformanceOf, teams);
      (2 * sum + n) / (2 * n)
  }

  /** Performances between 0 and 100 average between 0 and 100. */
  lemma AverageInRange(teams: seq<Team>)
    requires forall i :: 0 <= i < |teams| ==> 0 <= teams[i].performance <= 100
    ensures 0 <= AveragePerformance(teams) <= 100
  {
    if |teams| > 0 {
      Seqs.SumBounds(PerformanceOf, teams, 0, 100);
      RoundedAverageBounds(|teams|, Seqs.Sum(PerformanceOf, teams), AveragePerformance(teams));
    }
  }

  /** A rounded average of a sum between 0 and `100 * n` lies between 0 and 100. */
  lemma RoundedAverageBounds(n: int, sum: int, avg: int)
    requires n > 0 && 0 <= sum <= 100 * n
    requires n * (2 * avg - 1) <= 2 * sum < n * (2 * avg + 1)
    ensures 0 <= avg <= 100
  {
    if avg < 0 {
      MulMonotone(n, 2 * avg + 1, -1);
    }
    if avg > 100 {
      MulMonotone(n, 201, 2 * avg - 1);
    }
  }

  lemma MulMonotone(n: int, a: int, b: int)
    requires n > 0 && a <= b
    ensures n * a <= n * b
  {
  }

  /** The four summary figures: teams, teams with active tasks, active tasks, average performance. */
  datatype Summary = Summary(teams: nat, activeTeams: nat, activeTasks: int, averagePerformance: int)

  predicate IsActive(t: Team) { t.activeTasks > 0 }

  /** The summary cards: the number of teams, the number of them with an active task, the sum of
      their active-task counters, and the rounded average performance. */
  function Stats(teams: seq<Team>): (s: Summary)
    ensures s.teams == |teams|
    ensures s.activeTeams == Seqs.Count(IsActive, teams)
    ensures s.activeTeams == 0 <==> forall i :: 0 <= i < |teams| ==> teams[i].activeTasks <= 0
    ensures s.activeTasks == Seqs.Sum(ActiveTasksOf, teams)
    ensures s.averagePerformance == AveragePerformance(teams)
  {
    Seqs.CountIsFilterLength(IsActive, teams);
    Seqs.FilterKeepsNoneIff(IsActive, teams);
    Summary(|teams|, |Seqs.Filter(IsActive, teams)|,
            Seqs.Sum(ActiveTasksOf, teams), AveragePerformance(teams))
  }

  /** The counting cards of two team lists put together add up. */
  lemma StatsAppend(a: seq<Team>, b: seq<Team>)
    ensures Stats(a + b).teams == Stats(a).teams + Stats(b).teams
    ensures Stats(a + b).activeTeams == Stats(a).activeTeams + Stats(b).activeTeams
    ensures Stats(a + b).activeTasks == Stats(a).activeTasks + Stats(b).activeTasks
  {
    Seqs.CountAppend(IsActive, a, b);
    Seqs.SumAppend(ActiveTasksOf, a, b);
  }

  // ---- the creation and edit forms ----

  /** A task line of the creation form; every field is the text typed in. */
  datatype TaskRow = TaskRow(name: string, description: string, duration: string, amount: string)

  datatype TeamForm = TeamForm(name: string, specialty: string, membersCount: string, tasks: seq<TaskRow>)

  /** What `resetForm` restores. */
  const EmptyForm: TeamForm := TeamForm("", "", "", [])

  const BlankRow: TaskRow := TaskRow("", "", "", "")

  /** `addTaskToForm`: a blank line after the others. */
  function AddTaskRow(f: TeamForm): (g: TeamForm)
    ensures g.name == f.name && g.specialty == f.specialty && g.membersCount == f.membersCount
    ensures |g.tasks| == |f.tasks| + 1 && g.tasks[..|f.tasks|] == f.tasks && g.tasks[|f.tasks|] == BlankRow
  {
    f.(tasks := f.tasks + [BlankRow])
  }

  /** `removeTaskFromForm(index)`: the line at `index` goes, the others keep their order; an index
      that names no line removes nothing. */
  function RemoveTaskRow(f: TeamForm, index: int): (g: TeamForm)
    ensures g.name == f.name && g.specialty == f.specialty && g.membersCount == f.membersCount
    ensures 0 <= index < |f.tasks| ==> (
      && |g.tasks| == |f.tasks| - 1
      && (forall i :: 0 <= i < index ==> g.tasks[i] == f.tasks[i])
      && (forall i :: index <= i < |g.tasks| ==> g.tasks[i] == f.tasks[i + 1]))
    ensures !(0 <= index < |f.tasks|) ==> g == f
  {
    f.(tasks := Seqs.RemoveAt(f.tasks, index))
  }

  /** Removing the line just added gives the form back. */
  lemma RemoveUndoesAdd(f: TeamForm)
    ensures RemoveTaskRow(AddTaskRow(f), |f.tasks|) == f
  {
    assert (f.tasks + [BlankRow])[..|f.tasks|] == f.tasks;
  }

  datatype RowField = RowName | RowDescription | RowDuration | RowAmount

  /** `updateTaskInForm(index, field, value)`: one field of one line is replaced. */
  function UpdateTaskRow(f: TeamForm, index: int, field: RowField, value: string): (g: TeamForm)
    requires 0 <= index < |f.tasks|
    ensures g.name == f.name && g.specialty == f.specialty && g.membersCount == f.membersCount
    ensures |g.tasks| == |f.tasks| && forall i :: 0 <= i < |f.tasks| && i != index ==> g.tasks[i] == f.tasks[i]
    ensures var old_ := f.tasks[index]; var new_ := g.tasks[index];
      match field
      case RowName => new_ == old_.(name := value)
      case RowDescription => new_ == old_.(description := value)
      case RowDuration => new_ == old_.(duration := value)
      case RowAmount => new_ == old_.(amount := value)
  {
    var row := f.tasks[index];
    var row' := match field
      case RowName => row.(name := value)
      case RowDescription => row.(description := value)
      case RowDuration => row.(duration := value)
      case RowAmount => row.(amount := value);
    f.(tasks := f.tasks[index := row'])
  }

  /** The text of one field of a task line. */
  function FieldOf(row: TaskRow, field: RowField): string
  {
    match field
    case RowName => row.name
    case RowDescription => row.description
    case RowDuration => row.duration
    case RowAmount => row.amount
  }

  /** After an update, the line reads back the value typed in the field edited and its old text in
      every other field. */
  lemma UpdateTaskRowReadsBack(f: TeamForm, index: int, field: RowField, value: string)
    requires 0 <= index < |f.tasks|
    ensures var row := UpdateTaskRow(f, index, field, value).tasks[index];
      && FieldOf(row, field) == value
      && forall other :: other != field ==> FieldOf(row, other) == FieldOf(f.tasks[index], other)
  {
  }

  /** The last value typed in a field wins, and typing the text already there changes nothing. */
  lemma UpdateTaskRowOverwrites(f: TeamForm, index: int, field: RowField, v: string, w: string)
    requires 0 <= index < |f.tasks|
    ensures UpdateTaskRow(UpdateTaskRow(f, index, field, v), index, field, w) == UpdateTaskRow(f, index, field, w)
    ensures UpdateTaskRow(f, index, field, FieldOf(f.tasks[index], field)) == f
  {
    var g := UpdateTaskRow(f, index, field, FieldOf(f.tasks[index], field));
    assert g.tasks == f.tasks;
  }

  /** `openEditDialog(team)`: the form shows the team, its member count in decimal, and no task lines. */
  function OpenEditDialog(t: Team): (f: TeamForm)
    ensures f.name == t.name && f.specialty == t.specialty && f.tasks == []
    ensures f.membersCount == Decimal.Show(t.membersCount)
    ensures Decimal.ParseInt(f.membersCount) == Some(t.membersCount)
  {
    Decimal.ParseShow(t.membersCount);
    TeamForm(t.name, t.specialty, Decimal.Show(t.membersCount), [])
  }

  /** What `handleUpdateTeam` sends and applies: name, specialty and the parsed member count. */
  function TeamUpdates(f: TeamForm): (p: Api.TeamPatch)
    ensures p.name == f.name && p.specialty == f.specialty && p.membersCount == Decimal.ParseInt(f.membersCount)
    ensures p.activeTasks.None? && p.performance.None? && p.lastActivity.None?
  {
    Api.TeamPatch(f.name, f.specialty, Decimal.ParseInt(f.membersCount), None, None, None)
  }

  /** Saving the edit dialog unchanged sends the team's own name, specialty and member count. */
  lemma EditDialogRoundTrip(t: Team)
    ensures TeamUpdates(OpenEditDialog(t)) == Api.TeamPatch(t.name, t.specialty, Some(t.membersCount), None, None, None)
  {
  }

  // ---- team creation ----

  /** The team `handleCreateTeam` sends: the parsed member count, one active task per task line,
      no performance yet, and active now. */
  function TeamData(f: TeamForm, now: Timeline.Instant): (t: NewTeam)
    ensures t.name == f.name && t.specialty == f.specialty && t.membersCount == Decimal.ParseInt(f.membersCount)
    ensures t.activeTasks == |f.tasks| && t.performance == 0 && t.lastActivity == Some(now)
  {
    NewTeam(f.name, f.specialty, Decimal.ParseInt(f.membersCount), |f.tasks|, 0, Some(now))
  }

  /** The position of the first category of the villa, if it has one. */
  function FirstCategoryOf(categories: seq<Category>, villaId: string): (k: Option<nat>)
    ensures k.None? <==> forall i :: 0 <= i < |categories| ==> categories[i].villaId != villaId
    ensures k.Some? ==> (
      && k.value < |categories| && categories[k.value].villaId == villaId
      && forall i :: 0 <= i < k.value ==> categories[i].villaId != villaId)
  {
    if |categories| == 0 then None
    else if categories[0].villaId == villaId then Some(0)
    else match FirstCategoryOf(categories[1..], villaId)
      case None => None
      case Some(k) => Some(k + 1)
  }

  /** Where the new team's tasks go: the first villa of the project and that villa's first category. */
  datatype Placement = Placement(villa: Villa, category: Category)

  function PlacementOf(villas: seq<Villa>, categories: seq<Category>): (r: Option<Placement>)
    ensures r.None? <==> |villas| == 0 || forall i :: 0 <= i < |categories| ==> categories[i].villaId != villas[0].id
    ensures r.Some? ==> (
      && r.value.villa == villas[0]
      && exists k :: (
        && 0 <= k < |categories| && categories[k] == r.value.category && categories[k].villaId == villas[0].id
        && forall i :: 0 <= i < k ==> categories[i].villaId != villas[0].id))
  {
    if |villas| == 0 then None
    else match FirstCategoryOf(categories, villas[0].id)
      case None => None
      case Some(k) => Some(Placement(villas[0], categories[k]))
  }

  /** The duration a task line asks for: `duration || '1'`. */
  function DurationText(row: TaskRow): string
  {
    if row.duration == "" then "1" else row.duration
  }

  /** The duration reads as a number, which `setDate` needs; the default `'1'` always does. */
  predicate DurationReadable(row: TaskRow)
  {
    row.duration == "" || Decimal.ParseInt(row.duration).Some?
  }

  /** The number of days a readable line asks for: what `parseInt` makes of its duration text. */
  function RowDays(row: TaskRow): (d: int)
    requires DurationReadable(row)
    ensures Decimal.ParseInt(DurationText(row)) == Some(d)
    ensures row.duration == "" ==> d == 1
  {
    Decimal.ParseShow(1);
    assert Decimal.Show(1) == "1";
    if row.duration == "" then 1 else Decimal.ParseInt(row.duration).value
  }

  /** The amount of a task line: 0 when empty, else the number typed (`None` for `NaN`). */
  function RowAmount(row: TaskRow): (r: Option<int>)
    ensures row.amount == "" ==> r == Some(0)
    ensures Decimal.ParseInt(row.amount).Some? ==> r == Decimal.ParseInt(row.amount)
    ensures r.None? <==> row.amount != "" && Decimal.ParseInt(row.amount).None?
  {
    if row.amount == "" then Some(0) else Decimal.ParseInt(row.amount)
  }

  /** The task `handleCreateTeam` makes of one line: assigned to the new team in the placement,
      starting now for the number of days the line asks for (one by default), pending and unpaid.
      The source reads the clock separately for the start, the end and the two timestamps; the
      model takes one `now` for all of them, so the milliseconds between those reads are lost. */
  function MaterialiseTask(row: TaskRow, teamId: string, p: Placement, now: Timeline.Instant, id: string): (t: Task)
    requires DurationReadable(row)
    ensures t.id == id && t.teamId == teamId && t.categoryId == p.category.id && t.villaId == p.villa.id
    ensures t.name == row.name && t.description == row.description && t.amount == RowAmount(row) && t.remarks == ""
    ensures t.startDate == now && t.plannedStartDate == now && t.createdAt == now && t.updatedAt == now
    ensures t.endDate == t.plannedEndDate && t.endDate == Timeline.AddDays(now, RowDays(row))
    ensures Timeline.CeilDays(t.startDate, t.endDate) == RowDays(row)
    ensures row.duration == "" ==> t.endDate - t.startDate == Timeline.DayMs
    ensures t.status == Status.Pending && t.progress == 0 && t.progressStatus == ProgressStatus.OnSchedule
    ensures !t.isReceived && !t.isPaid
  {
    var days := RowDays(row);
    var end := Timeline.AddDays(now, days);
    Timeline.CeilDaysOfAddDays(now, days);
    Task(id, p.category.id, p.villa.id, teamId, row.name, row.description, now, end, now, end,
         Status.Pending, 0, ProgressStatus.OnSchedule, false, false, RowAmount(row), "", now, now)
  }

  /** What creating a team leaves in the client's store: the team and the tasks created for it. */
  datatype Outcome = Outcome(team: Team, tasks: seq<Task>)

  /** `handleCreateTeam`, once the server has answered with `saved`: with a placement, one task per
      line, in order (`taskId(i)` is the id the server gives the i-th); without one, none. The
      team's active-task counter is the number of tasks created (see the findings on the
      counter as written). */
  function HandleCreateTeam(f: TeamForm, saved: Team, villas: seq<Villa>, categories: seq<Category>,
                            now: Timeline.Instant, taskId: nat -> string): (r: Outcome)
    requires forall i :: 0 <= i < |f.tasks| ==> DurationReadable(f.tasks[i])
    ensures PlacementOf(villas, categories).None? ==> r.tasks == []
    ensures PlacementOf(villas, categories).Some? ==> (
      && |r.tasks| == |f.tasks|
      && forall i :: 0 <= i < |f.tasks| ==> r.tasks[i] == MaterialiseTask(f.tasks[i], saved.id, PlacementOf(villas, categories).value, now, taskId(i)))
    ensures r.team == saved.(activeTasks := |r.tasks|)
  {
    var created := match PlacementOf(villas, categories)
      case None => []
      case Some(p) => seq(|f.tasks|, i requires 0 <= i < |f.tasks| => MaterialiseTask(f.tasks[i], saved.id, p, now, taskId(i)));
    Outcome(saved.(activeTasks := |created|), created)
  }

  /** Every created task belongs to the new team, so the team's card, which counts the store's
      tasks of the team, agrees with its counter whenever the store held none of its tasks before. */
  lemma CounterMatchesTeamTasks(f: TeamForm, saved: Team, villas: seq<Villa>, categories: seq<Category>,
                                now: Timeline.Instant, taskId: nat -> string, before: seq<Task>)
    requires forall i :: 0 <= i < |f.tasks| ==> DurationReadable(f.tasks[i])
    requires forall i :: 0 <= i < |before| ==> before[i].teamId != saved.id
    ensures var r := HandleCreateTeam(f, saved, villas, categories, now, taskId);
      TeamTasks(before + r.tasks, r.team.id) == r.tasks && r.team.activeTasks == |TeamTasks(before + r.tasks, r.team.id)|
  {
    var r := HandleCreateTeam(f, saved, villas, categories, now, taskId);
    var mine := (t: Task) => t.teamId == saved.id;
    Seqs.FilterAppend(mine, before, r.tasks);
    Seqs.FilterKeepsNone(mine, before);
    Seqs.FilterKeepsAll(mine, r.tasks);
  }

  /** The counter as the store is left with it: every created task sets it to the saved team's
      count plus one, the saved count being already one per task line. */
  function StoreActiveTasksAsWritten(saved: Team, created: seq<Task>): (r: int)
    ensures r == saved.activeTasks <==> |created| == 0
    ensures |created| > 0 ==> r - saved.activeTasks == 1
  {
    if |created| > 0 then saved.activeTasks + 1 else saved.activeTasks
  }

  /** As written, a team saved as sent shows one active task more than were created when its
      tasks are placed, and shows its task lines as active when none could be placed. */
  lemma ActiveTasksAsWrittenMiscounts(f: TeamForm, id: int, villas: seq<Villa>, categories: seq<Category>,
                                      now: Timeline.Instant, taskId: nat -> string)
    requires id != 0 && |f.tasks| > 0
    requires forall i :: 0 <= i < |f.tasks| ==> DurationReadable(f.tasks[i])
    ensures var saved := Api.CreateTeamResponse(Api.Echo(Api.CreateTeamPayload(TeamData(f, now)), id), now);
      var r := HandleCreateTeam(f, saved, villas, categories, now, taskId);
      && (PlacementOf(villas, categories).Some? ==> StoreActiveTasksAsWritten(saved, r.tasks) == |r.tasks| + 1)
      && (PlacementOf(villas, categories).None? ==> StoreActiveTasksAsWritten(saved, r.tasks) == |f.tasks| && r.tasks == [])
  {
    Api.CreateTeamRoundTrip(TeamData(f, now), id, now);
  }

  /** The smallest case: one blank task line, one villa with one category, and the team shows
      two active tasks for the one task created, whatever its name, specialty and size. */
  lemma OneTaskShowsTwo(name: string, specialty: string, members: string, now: Timeline.Instant,
                        v: Villa, c: Category, taskId: nat -> string)
    requires c.villaId == v.id
    ensures var f := TeamForm(name, specialty, members, [BlankRow]);
      var saved := Api.CreateTeamResponse(Api.Echo(Api.CreateTeamPayload(TeamData(f, now)), 1), now);
      var r := HandleCreateTeam(f, saved, [v], [c], now, taskId);
      |r.tasks| == 1 && StoreActiveTasksAsWritten(saved, r.tasks) == 2 && r.team.activeTasks == 1
  {
    var f := TeamForm(name, specialty, members, [BlankRow]);
    assert PlacementOf([v], [c]).Some? by { assert [c][0].villaId == [v][0].id; }
    ActiveTasksAsWrittenMiscounts(f, 1, [v], [c], now, taskId);
    var saved := Api.CreateTeamResponse(Api.Echo(Api.CreateTeamPayload(TeamData(f, now)), 1), now);
    var r := HandleCreateTeam(f, saved, [v], [c], now, taskId);
    assert |r.tasks| == |f.tasks| == 1;
  }
}

=== FILE: templates.dfy ===
/** The template editor: a template describes categories, each with teams, each with tasks, and is
    edited through a form holding the same nesting. The clock and the fresh key are parameters. */
module Templates {
  import opened Wrappers
  import Seqs
  import Text
  import Timeline

  /** A task line. `duration` and `amount` are the text typed, `None` where the line has no such
      field at all. */
  datatype TaskBlueprint = TaskBlueprint(name: string, duration: Option<string>, amount: Option<string>)

  datatype TeamBlueprint = TeamBlueprint(name: string, specialty: string, tasks: seq<TaskBlueprint>)

  datatype CategoryBlueprint = CategoryBlueprint(name: string, teams: seq<TeamBlueprint>)

  datatype Template = Template(
    id: string,
    name: string,
    description: string,
    categories: seq<CategoryBlueprint>,
    createdAt: Timeline.Instant)

  /** The editor's form data. */
  datatype Form = Form(name: string, description: string, categories: seq<CategoryBlueprint>)

  /** The blank task line the form starts with and `addTask` appends. */
  function BlankTask(): TaskBlueprint { TaskBlueprint("", Some(""), Some("")) }

  /** The blank team `addCategory` and the initial form carry. */
  function BlankTeam(): TeamBlueprint { TeamBlueprint("", "", [BlankTask()]) }

  /** The team `addTeam` appends: its task line has no amount field. */
  function AddedTeam(): TeamBlueprint { TeamBlueprint("", "", [TaskBlueprint("", Some(""), None)]) }

  function BlankCategory(): CategoryBlueprint { CategoryBlueprint("", [BlankTeam()]) }

  /** `resetForm`: the form a new template starts from. */
  function EmptyForm(): Form { Form("", "", [BlankCategory()]) }

  // ---- validation ----

  /** `s.trim()` is truthy (see `Text.BlankIffTrimEmpty`). */
  predicate Filled(s: string) { !Text.Blank(s) }

  predicate TeamValid(t: TeamBlueprint) { Filled(t.name) && Filled(t.specialty) }

  /** `teams.every(team => team.name.trim() && team.specialty.trim())`. */
  function TeamsValid(teams: seq<TeamBlueprint>): (r: bool)
    ensures r <==> forall j :: 0 <= j < |teams| ==> TeamValid(teams[j])
  {
    if |teams| == 0 then true
    else TeamValid(teams[0]) && TeamsValid(teams[1..])
  }

  predicate CategoryValid(c: CategoryBlueprint) { Filled(c.name) && |c.teams| > 0 && TeamsValid(c.teams) }

  /** The two `every` checks over the categories. */
  function CategoriesValid(cats: seq<CategoryBlueprint>): (r: bool)
    ensures r <==> forall i :: 0 <= i < |cats| ==> CategoryValid(cats[i])
  {
    if |cats| == 0 then true
    else CategoryValid(cats[0]) && CategoriesValid(cats[1..])
  }

  /** `validateForm`: a name, at least one category, every category named and with at least one
      team, every team with a name and a specialty. Task lines are not looked at. */
  function ValidateForm(f: Form): (r: bool)
    ensures r <==> && Filled(f.name) && |f.categories| > 0
                   && (forall i :: 0 <= i < |f.categories| ==> Filled(f.categories[i].name))
                   && (forall i :: 0 <= i < |f.categories| ==> |f.categories[i].teams| > 0)
                   && (forall i, j :: 0 <= i < |f.categories| && 0 <= j < |f.categories[i].teams|
                                      ==> TeamValid(f.categories[i].teams[j]))
  {
    Filled(f.name) && |f.categories| > 0 && CategoriesValid(f.categories)
  }

  /** The form with every task line removed. */
  function WithoutTasks(f: Form): (g: Form)
    ensures g.name == f.name && |g.categories| == |f.categories|
    ensures forall i :: 0 <= i < |g.categories| ==>
              g.categories[i].name == f.categories[i].name && |g.categories[i].teams| == |f.categories[i].teams|
    ensures forall i, j :: 0 <= i < |g.categories| && 0 <= j < |g.categories[i].teams| ==>
              g.categories[i].teams[j] == f.categories[i].teams[j].(tasks := [])
  {
    f.(categories := seq(|f.categories|, i requires 0 <= i < |f.categories| =>
         var c := f.categories[i];
         c.(teams := seq(|c.teams|, j requires 0 <= j < |c.teams| => c.teams[j].(tasks := [])))))
  }

  /** Validation does not depend on the task lines. */
  lemma ValidateIgnoresTasks(f: Form)
    ensures ValidateForm(WithoutTasks(f)) == ValidateForm(f)
  {
    var g := WithoutTasks(f);
    assert forall i, j :: 0 <= i < |g.categories| && 0 <= j < |g.categories[i].teams| ==>
             (TeamValid(g.categories[i].teams[j]) <==> TeamValid(f.categories[i].teams[j]));
  }

  /** The initial form does not validate. */
  lemma EmptyFormInvalid()
    ensures !ValidateForm(EmptyForm())
  {
  }

  // ---- totals ----

  function TeamsIn(c: CategoryBlueprint): int { |c.teams| }

  function TasksOfTeam(t: TeamBlueprint): int { |t.tasks| }


  /** `getTotalTeams`: the teams of all categories. None only when no category has a team, and at
      least one per category when every category has one. */
  function TotalTeams(cats: seq<CategoryBlueprint>): (r: int)
    ensures r >= 0
    ensures r == 0 <==> forall i :: 0 <= i < |cats| ==> |cats[i].teams| == 0
    ensures (forall i :: 0 <= i < |cats| ==> |cats[i].teams| > 0) ==> r >= |cats|
  {
    Seqs.SumNonNegative(TeamsIn, cats);
    Seqs.SumZeroIff(TeamsIn, cats);
    Seqs.SumLowerBound(TeamsIn, cats, 1);
    Seqs.Sum(TeamsIn, cats)
  }

  /** The task lines of one category. */
  function TasksIn(c: CategoryBlueprint): (r: int)
    ensures r >= 0
    ensures r == 0 <==> forall j :: 0 <= j < |c.teams| ==> |c.teams[j].tasks| == 0
  {
    Seqs.SumNonNegative(TasksOfTeam, c.teams);
    Seqs.SumZeroIff(TasksOfTeam, c.teams);
    Seqs.Sum(TasksOfTeam, c.teams)
  }

  /** `getTotalTasks`: the task lines of all teams of all categories. None only when no team has a
      task line. */
  function TotalTasks(cats: seq<CategoryBlueprint>): (r: int)
    ensures r >= 0
    ensures r == 0 <==> forall i, j :: 0 <= i < |cats| && 0 <= j < |cats[i].teams| ==> |cats[i].teams[j].tasks| == 0
  {
    Seqs.SumNonNegative(TasksIn, cats);
    Seqs.SumZeroIff(TasksIn, cats);
    Seqs.Sum(TasksIn, cats)
  }

  /** Totals add up over a concatenation of category lists. */
  lemma TotalsAppend(a: seq<CategoryBlueprint>, b: seq<CategoryBlueprint>)
    ensures TotalTeams(a + b) == TotalTeams(a) + TotalTeams(b)
    ensures TotalTasks(a + b) == TotalTasks(a) + TotalTasks(b)
  {
    Seqs.SumAppend(TeamsIn, a, b);
    Seqs.SumAppend(TasksIn, a, b);
  }

  // ---- form editing ----

  /** `g` is `f` except, at most, for category `ci`: same name, description and number of
      categories, and every other category unchanged. */
  predicate OnlyCategoryChanges(f: Form, g: Form, ci: int)
  {
    && g.name == f.name && g.description == f.description && |g.categories| == |f.categories|
    && forall i :: 0 <= i < |f.categories| && i != ci ==> g.categories[i] == f.categories[i]
  }

  /** `g` is `f` except, at most, for team `ti` of category `ci`: that category keeps its name and
      its number of teams, and its other teams are unchanged. */
  predicate OnlyTeamChanges(f: Form, g: Form, ci: int, ti: int)
  {
    && OnlyCategoryChanges(f, g, ci) && 0 <= ci < |f.categories|
    && g.categories[ci].name == f.categories[ci].name
    && |g.categories[ci].teams| == |f.categories[ci].teams|
    && forall j :: 0 <= j < |f.categories[ci].teams| && j != ti ==> g.categories[ci].teams[j] == f.categories[ci].teams[j]
  }

  /** `addCategory`. */
  function AddCategory(f: Form): (g: Form)
    ensures TotalTeams(g.categories) == TotalTeams(f.categories) + 1
    ensures TotalTasks(g.categories) == TotalTasks(f.categories) + 1
    ensures |g.categories| == |f.categories| + 1 && g.categories[..|f.categories|] == f.categories
    ensures g.categories[|f.categories|] == BlankCategory()
    ensures g.name == f.name && g.description == f.description
  {
    Seqs.SumAppend(TeamsIn, f.categories, [BlankCategory()]);
    Seqs.SumAppend(TasksIn, f.categories, [BlankCategory()]);
    f.(categories := f.categories + [BlankCategory()])
  }

  /** `removeCategory(index)`: drops the category at `index`; any other index changes nothing. */
  function RemoveCategory(f: Form, index: int): (g: Form)
    ensures TotalTeams(g.categories) == TotalTeams(f.categories) - (if 0 <= index < |f.categories| then |f.categories[index].teams| else 0)
    ensures TotalTasks(g.categories) == TotalTasks(f.categories) - (if 0 <= index < |f.categories| then TasksIn(f.categories[index]) else 0)
    ensures 0 <= index < |f.categories| ==> g.categories == f.categories[..index] + f.categories[index + 1..]
    ensures !(0 <= index < |f.categories|) ==> g == f
    ensures g.name == f.name && g.description == f.description
  {
    Seqs.SumRemoveAt(TeamsIn, f.categories, index);
    Seqs.SumRemoveAt(TasksIn, f.categories, index);
    f.(categories := Seqs.RemoveAt(f.categories, index))
  }

  /** `updateCategory(index, 'name', value)`. */
  function RenameCategory(f: Form, index: int, value: string): (g: Form)
    requires 0 <= index < |f.categories|
    ensures |g.categories| == |f.categories| && g.categories[index].name == value
    ensures OnlyCategoryChanges(f, g, index) && g.categories[index].teams == f.categories[index].teams
    ensures TotalTeams(g.categories) == TotalTeams(f.categories)
    ensures TotalTasks(g.categories) == TotalTasks(f.categories)
  {
    var c := f.categories[index].(name := value);
    Seqs.SumUpdate(TeamsIn, f.categories, index, c);
    Seqs.SumUpdate(TasksIn, f.categories, index, c);
    f.(categories := f.categories[index := c])
  }

  /** Replaces the teams of category `ci`. */
  function WithTeams(f: Form, ci: int, teams: seq<TeamBlueprint>): (g: Form)
    requires 0 <= ci < |f.categories|
    ensures |g.categories| == |f.categories| && g.categories[ci].teams == teams
    ensures g.name == f.name && g.description == f.description && g.categories[ci].name == f.categories[ci].name
    ensures forall i :: 0 <= i < |f.categories| && i != ci ==> g.categories[i] == f.categories[i]
    ensures TotalTeams(g.categories) == TotalTeams(f.categories) - |f.categories[ci].teams| + |teams|
    ensures TotalTasks(g.categories) == TotalTasks(f.categories) - TasksIn(f.categories[ci]) + Seqs.Sum(TasksOfTeam, teams)
  {
    var c := f.categories[ci].(teams := teams);
    Seqs.SumUpdate(TeamsIn, f.categories, ci, c);
    Seqs.SumUpdate(TasksIn, f.categories, ci, c);
    f.(categories := f.categories[ci := c])
  }

  /** `addTeam(categoryIndex)`: the new team comes with one task line. */
  function AddTeam(f: Form, ci: int): (g: Form)
    requires 0 <= ci < |f.categories|
    ensures TotalTeams(g.categories) == TotalTeams(f.categories) + 1
    ensures TotalTasks(g.categories) == TotalTasks(f.categories) + 1
    ensures |g.categories| == |f.categories| && g.categories[ci].teams == f.categories[ci].teams + [AddedTeam()]
    ensures OnlyCategoryChanges(f, g, ci) && g.categories[ci].name == f.categories[ci].name
  {
    var teams := f.categories[ci].teams;
    Seqs.SumAppend(TasksOfTeam, teams, [AddedTeam()]);
    WithTeams(f, ci, teams + [AddedTeam()])
  }

  /** `removeTeam(categoryIndex, teamIndex)`: a team index out of range changes nothing. */
  function RemoveTeam(f: Form, ci: int, ti: int): (g: Form)
    requires 0 <= ci < |f.categories|
    ensures var teams := f.categories[ci].teams;
      TotalTasks(g.categories) == TotalTasks(f.categories) - (if 0 <= ti < |teams| then |teams[ti].tasks| else 0)
    ensures TotalTeams(g.categories) == TotalTeams(f.categories) - (if 0 <= ti < |f.categories[ci].teams| then 1 else 0)
    ensures |g.categories| == |f.categories| && forall i :: 0 <= i < |f.categories| && i != ci ==> g.categories[i] == f.categories[i]
    ensures var teams := f.categories[ci].teams;
      0 <= ti < |teams| ==> g.categories[ci].teams == teams[..ti] + teams[ti + 1..]
    ensures !(0 <= ti < |f.categories[ci].teams|) ==> g == f
    ensures OnlyCategoryChanges(f, g, ci) && g.categories[ci].name == f.categories[ci].name
  {
    var teams := f.categories[ci].teams;
    Seqs.SumRemoveAt(TasksOfTeam, teams, ti);
    WithTeams(f, ci, Seqs.RemoveAt(teams, ti))
  }

  datatype TeamField = Name | Specialty

  /** `updateTeam(categoryIndex, teamIndex, field, value)`. */
  function EditTeam(f: Form, ci: int, ti: int, field: TeamField, value: string): (g: Form)
    requires 0 <= ci < |f.categories| && 0 <= ti < |f.categories[ci].teams|
    ensures TotalTeams(g.categories) == TotalTeams(f.categories)
    ensures TotalTasks(g.categories) == TotalTasks(f.categories)
    ensures |g.categories| == |f.categories| && |g.categories[ci].teams| == |f.categories[ci].teams|
    ensures var t := g.categories[ci].teams[ti];
      if field == Name then t.name == value else t.specialty == value
    ensures OnlyTeamChanges(f, g, ci, ti)
    ensures var t, u := f.categories[ci].teams[ti], g.categories[ci].teams[ti];
      u.tasks == t.tasks && (if field == Name then u.specialty == t.specialty else u.name == t.name)
  {
    var teams := f.categories[ci].teams;
    var t := if field == Name then teams[ti].(name := value) else teams[ti].(specialty := value);
    Seqs.SumUpdate(TasksOfTeam, teams, ti, t);
    WithTeams(f, ci, teams[ti := t])
  }

  /** Replaces the task lines of team `ti` of category `ci`. */
  function WithTasks(f: Form, ci: int, ti: int, tasks: seq<TaskBlueprint>): (g: Form)
    requires 0 <= ci < |f.categories| && 0 <= ti < |f.categories[ci].teams|
    ensures |g.categories| == |f.categories| && |g.categories[ci].teams| == |f.categories[ci].teams|
    ensures g.categories[ci].teams[ti].tasks == tasks
    ensures g.name == f.name && g.description == f.description && g.categories[ci].name == f.categories[ci].name
    ensures forall i :: 0 <= i < |f.categories| && i != ci ==> g.categories[i] == f.categories[i]
    ensures forall j :: 0 <= j < |f.categories[ci].teams| && j != ti ==> g.categories[ci].teams[j] == f.categories[ci].teams[j]
    ensures g.categories[ci].teams[ti] == f.categories[ci].teams[ti].(tasks := tasks)
    ensures tasks == f.categories[ci].teams[ti].tasks ==> g == f
    ensures TotalTeams(g.categories) == TotalTeams(f.categories)
    ensures TotalTasks(g.categories) == TotalTasks(f.categories) - |f.categories[ci].teams[ti].tasks| + |tasks|
  {
    var teams := f.categories[ci].teams;
    var t := teams[ti].(tasks := tasks);
    Seqs.SumUpdate(TasksOfTeam, teams, ti, t);
    assert tasks == teams[ti].tasks ==> teams[ti := t] == teams && f.categories[ci := f.categories[ci].(teams := teams)] == f.categories;
    WithTeams(f, ci, teams[ti := t])
  }

  /** `addTask(categoryIndex, teamIndex)`. */
  function AddTask(f: Form, ci: int, ti: int): (g: Form)
    requires 0 <= ci < |f.categories| && 0 <= ti < |f.categories[ci].teams|
    ensures TotalTeams(g.categories) == TotalTeams(f.categories)
    ensures TotalTasks(g.categories) == TotalTasks(f.categories) + 1
    ensures |g.categories| == |f.categories| && |g.categories[ci].teams| == |f.categories[ci].teams|
    ensures g.categories[ci].teams[ti].tasks == f.categories[ci].teams[ti].tasks + [BlankTask()]
    ensures OnlyTeamChanges(f, g, ci, ti)
    ensures var t, u := f.categories[ci].teams[ti], g.categories[ci].teams[ti];
      u.name == t.name && u.specialty == t.specialty
  {
    WithTasks(f, ci, ti, f.categories[ci].teams[ti].tasks + [BlankTask()])
  }

  /** `removeTask(categoryIndex, teamIndex, taskIndex)`: a task index out of range changes nothing. */
  function RemoveTask(f: Form, ci: int, ti: int, k: int): (g: Form)
    requires 0 <= ci < |f.categories| && 0 <= ti < |f.categories[ci].teams|
    ensures TotalTeams(g.categories) == TotalTeams(f.categories)
    ensures TotalTasks(g.categories) == TotalTasks(f.categories) - (if 0 <= k < |f.categories[ci].teams[ti].tasks| then 1 else 0)
    ensures |g.categories| == |f.categories| && forall i :: 0 <= i < |f.categories| && i != ci ==> g.categories[i] == f.categories[i]
    ensures |g.categories[ci].teams| == |f.categories[ci].teams|
    ensures var tasks := f.categories[ci].teams[ti].tasks;
      0 <= k < |tasks| ==> g.categories[ci].teams[ti].tasks == tasks[..k] + tasks[k + 1..]
    ensures !(0 <= k < |f.categories[ci].teams[ti].tasks|) ==> g == f
    ensures forall j :: 0 <= j < |f.categories[ci].teams| && j != ti ==> g.categories[ci].teams[j] == f.categories[ci].teams[j]
    ensures OnlyTeamChanges(f, g, ci, ti)
    ensures var t, u := f.categories[ci].teams[ti], g.categories[ci].teams[ti];
      u.name == t.name && u.specialty == t.specialty
  {
    WithTasks(f, ci, ti, Seqs.RemoveAt(f.categories[ci].teams[ti].tasks, k))
  }

  datatype TaskField = TaskName | Duration | Amount

  /** `updateTask(categoryIndex, teamIndex, taskIndex, field, value)`. */
  function EditTask(f: Form, ci: int, ti: int, k: int, field: TaskField, value: string): (g: Form)
    requires 0 <= ci < |f.categories| && 0 <= ti < |f.categories[ci].teams|
    requires 0 <= k < |f.categories[ci].teams[ti].tasks|
    ensures TotalTeams(g.categories) == TotalTeams(f.categories)
    ensures TotalTasks(g.categories) == TotalTasks(f.categories)
    ensures |g.categories| == |f.categories| && |g.categories[ci].teams| == |f.categories[ci].teams|
    ensures |g.categories[ci].teams[ti].tasks| == |f.categories[ci].teams[ti].tasks|
    ensures var t := g.categories[ci].teams[ti].tasks[k];
      match field
      case TaskName => t.name == value
      case Duration => t.duration == Some(value)
      case Amount => t.amount == Some(value)
    ensures OnlyTeamChanges(f, g, ci, ti)
    ensures var t, u := f.categories[ci].teams[ti], g.categories[ci].teams[ti];
      u.name == t.name && u.specialty == t.specialty
    ensures var tasks := f.categories[ci].teams[ti].tasks;
      forall m :: 0 <= m < |tasks| && m != k ==> g.categories[ci].teams[ti].tasks[m] == tasks[m]
    ensures var before, t := f.categories[ci].teams[ti].tasks[k], g.categories[ci].teams[ti].tasks[k];
      match field
      case TaskName => t.duration == before.duration && t.amount == before.amount
      case Duration => t.name == before.name && t.amount == before.amount
      case Amount => t.name == before.name && t.duration == before.duration
  {
    var tasks := f.categories[ci].teams[ti].tasks;
    var t := match field
      case TaskName => tasks[k].(name := value)
      case Duration => tasks[k].(duration := Some(value))
      case Amount => tasks[k].(amount := Some(value));
    WithTasks(f, ci, ti, tasks[k := t])
  }

  // ---- saving and reopening ----

  /** `handleSubmit`: the form becomes a template; when editing, the template keeps its key and
      creation time, otherwise it gets the fresh key and now. The form is saved whether or not it
      validates. */
  function Submit(f: Form, editing: Option<Template>, newId: string, now: Timeline.Instant): (t: Template)
    ensures t.name == f.name && t.description == f.description && t.categories == f.categories
    ensures editing.Some? ==> t.id == editing.value.id && t.createdAt == editing.value.createdAt
    ensures editing.None? ==> t.id == newId && t.createdAt == now
  {
    Template(
      id := if editing.Some? then editing.value.id else newId,
      name := f.name,
      description := f.description,
      categories := f.categories,
      createdAt := if editing.Some? then editing.value.createdAt else now)
  }

  /** `task.duration || ''` and `task.amount || ''`: a missing field shows as an empty one. */
  function ShowTask(t: TaskBlueprint): (u: TaskBlueprint)
    ensures u.name == t.name && u.duration.Some? && u.amount.Some?
    ensures t.duration.Some? ==> u.duration == t.duration
    ensures t.duration.None? ==> u.duration == Some("")
    ensures t.amount.Some? ==> u.amount == t.amount
    ensures t.amount.None? ==> u.amount == Some("")
  {
    TaskBlueprint(t.name, Some(t.duration.GetOr("")), Some(t.amount.GetOr("")))
  }

  /** A team as the edit form shows it: same name and specialty, every task line shown. */
  function ShowTeam(t: TeamBlueprint): (u: TeamBlueprint)
    ensures u.name == t.name && u.specialty == t.specialty
    ensures |u.tasks| == |t.tasks| && forall k :: 0 <= k < |t.tasks| ==> u.tasks[k] == ShowTask(t.tasks[k])
  {
    TeamBlueprint(t.name, t.specialty, seq(|t.tasks|, k requires 0 <= k < |t.tasks| => ShowTask(t.tasks[k])))
  }

  /** A category as the edit form shows it: same name, every team shown. */
  function ShowCategory(c: CategoryBlueprint): (d: CategoryBlueprint)
    ensures d.name == c.name
    ensures |d.teams| == |c.teams| && forall j :: 0 <= j < |c.teams| ==> d.teams[j] == ShowTeam(c.teams[j])
  {
    CategoryBlueprint(c.name, seq(|c.teams|, j requires 0 <= j < |c.teams| => ShowTeam(c.teams[j])))
  }

  /** Every task line has both fields present. */
  predicate Complete(cats: seq<CategoryBlueprint>)
  {
    forall i, j, k :: 0 <= i < |cats| && 0 <= j < |cats[i].teams| && 0 <= k < |cats[i].teams[j].tasks| ==>
      cats[i].teams[j].tasks[k].duration.Some? && cats[i].teams[j].tasks[k].amount.Some?
  }

  /** `openEditDialog`: the form filled from a template. It has the template's shape, every task
      line has both fields, and nothing but missing fields changes. */
  function OpenEditDialog(t: Template): (f: Form)
    ensures f.name == t.name && f.description == t.description
    ensures |f.categories| == |t.categories|
    ensures forall i :: 0 <= i < |t.categories| ==> f.categories[i] == ShowCategory(t.categories[i])
    ensures Complete(f.categories)
    ensures TotalTeams(f.categories) == TotalTeams(t.categories)
    ensures Complete(t.categories) ==> f.categories == t.categories
  {
    var cats := seq(|t.categories|, i requires 0 <= i < |t.categories| => ShowCategory(t.categories[i]));
    ShowKeepsComplete(t.categories, cats);
    assert forall i :: 0 <= i < |cats| ==> TeamsIn(cats[i]) == TeamsIn(t.categories[i]);
    SumPointwise(TeamsIn, cats, t.categories);
    Form(t.name, t.description, cats)
  }

  /** Sums agree over sequences whose summands agree index by index. */
  lemma {:induction false} SumPointwise<T>(f: T -> int, a: seq<T>, b: seq<T>)
    requires |a| == |b|
    requires forall i :: 0 <= i < |a| ==> f(a[i]) == f(b[i])
    ensures Seqs.Sum(f, a) == Seqs.Sum(f, b)
    decreases |a|
  {
    if |a| > 0 {
      SumPointwise(f, a[1..], b[1..]);
    }
  }

  /** Filling in missing fields leaves complete lines alone and completes the others. */
  lemma ShowKeepsComplete(cats: seq<CategoryBlueprint>, shown: seq<CategoryBlueprint>)
    requires |shown| == |cats|
    requires forall i :: 0 <= i < |cats| ==> shown[i] == ShowCategory(cats[i])
    ensures Complete(shown)
    ensures Complete(cats) ==> shown == cats
  {
    if Complete(cats) {
      forall i | 0 <= i < |cats|
        ensures shown[i] == cats[i]
      {
        var c := cats[i];
        forall j | 0 <= j < |c.teams|
          ensures ShowTeam(c.teams[j]) == c.teams[j]
        {
          var t := c.teams[j];
          assert forall k :: 0 <= k < |t.tasks| ==> ShowTask(t.tasks[k]) == t.tasks[k];
        }
      }
    }
  }

  /** Saving a template straight after opening it for editing gives the template back: same key,
      creation time, name, description, categories, teams and task lines, each with its name, and a
      missing duration or amount now empty. For a template whose task lines are complete, exactly
      the template. */
  lemma EditRoundTrip(t: Template, newId: string, now: Timeline.Instant)
    ensures var s := Submit(OpenEditDialog(t), Some(t), newId, now);
      && s.id == t.id && s.createdAt == t.createdAt && s.name == t.name && s.description == t.description
      && |s.categories| == |t.categories|
      && (forall i :: 0 <= i < |t.categories| ==>
            s.categories[i].name == t.categories[i].name && |s.categories[i].teams| == |t.categories[i].teams|)
      && (forall i, j :: 0 <= i < |t.categories| && 0 <= j < |t.categories[i].teams| ==>
            var a, b := t.categories[i].teams[j], s.categories[i].teams[j];
            b.name == a.name && b.specialty == a.specialty && |b.tasks| == |a.tasks|)
      && (forall i, j, k :: 0 <= i < |t.categories| && 0 <= j < |t.categories[i].teams| && 0 <= k < |t.categories[i].teams[j].tasks| ==>
            var a, b := t.categories[i].teams[j].tasks[k], s.categories[i].teams[j].tasks[k];
            && b.name == a.name
            && (a.duration.Some? ==> b.duration == a.duration) && (a.duration.None? ==> b.duration == Some(""))
            && (a.amount.Some? ==> b.amount == a.amount) && (a.amount.None? ==> b.amount == Some("")))
    ensures Complete(t.categories) ==> Submit(OpenEditDialog(t), Some(t), newId, now) == t
  {
  }

  // ---- listing ----

  /** A template matches a search when its name or its description contains the term, ignoring case. */
  predicate Matches(t: Template, term: string)
  {
    Text.Contains(Text.ToLower(t.name), Text.ToLower(term)) || Text.Contains(Text.ToLower(t.description), Text.ToLower(term))
  }

  /** `filteredTemplates`: the matching templates, in their original order. */
  function FilteredTemplates(templates: seq<Template>, term: string): (r: seq<Template>)
    ensures forall t :: t in r <==> t in templates && Matches(t, term)
    ensures Seqs.Subsequence(r, templates)
  {
    Seqs.FilterIsSubsequence((t: Template) => Matches(t, term), templates);
    Seqs.Filter((t: Template) => Matches(t, term), templates)
  }

  /** An empty search shows every template. */
  lemma EmptySearchKeepsAll(templates: seq<Template>)
    ensures FilteredTemplates(templates, "") == templates
  {
    forall i | 0 <= i < |templates|
      ensures Matches(templates[i], "")
    {
      Text.ContainsEmpty(Text.ToLower(templates[i].name));
    }
    Seqs.FilterKeepsAll((t: Template) => Matches(t, ""), templates);
  }

  /** `duplicateTemplate`: a copy under a fresh key and time, its name marked as a copy. */
  function DuplicateTemplate(t: Template, newId: string, now: Timeline.Instant): (d: Template)
    ensures d.id == newId && d.createdAt == now
    ensures d.name == t.name + " (Copie)"
    ensures d.description == t.description && d.categories == t.categories
  {
    t.(id := newId, name := t.name + " (Copie)", createdAt := now)
  }

  /** A copy turns up in every search the original turns up in. */
  lemma DuplicateFoundWithOriginal(t: Template, term: string, newId: string, now: Timeline.Instant)
    requires Matches(t, term)
    ensures Matches(DuplicateTemplate(t, newId, now), term)
  {
    var d := DuplicateTemplate(t, newId, now);
    Text.ToLowerAppend(t.name, " (Copie)");
    if Text.Contains(Text.ToLower(t.name), Text.ToLower(term)) {
      Text.ContainsExtend(Text.ToLower(t.name), Text.ToLower(" (Copie)"), Text.ToLower(term));
    }
  }
}

=== FILE: text.dfy ===
/** The JavaScript string operations the client relies on: `trim`, case mapping, `startsWith`, `includes`, `split`. */
module Text {

  /** JavaScript white space and line terminators, the characters `String.prototype.trim` removes. */
  predicate IsSpace(c: char)
  {
    || c == ' ' || c == '\t' || c == '\n' || c == '\U{B}' || c == '\U{C}' || c == '\r'
    || c == '\U{A0}' || c == '\U{1680}' || ('\U{2000}' <= c <= '\U{200A}')
    || c == '\U{2028}' || c == '\U{2029}' || c == '\U{202F}' || c == '\U{205F}'
    || c == '\U{3000}' || c == '\U{FEFF}'
  }

  /** `s` without its leading white space (the first step of `trim`, and of `parseInt`). */
  function TrimStart(s: string): (r: string)
    ensures |r| <= |s| && r == s[|s| - |r|..]
    ensures forall i :: 0 <= i < |s| - |r| ==> IsSpace(s[i])
    ensures |r| == 0 || !IsSpace(r[0])
  {
    if |s| > 0 && IsSpace(s[0]) then TrimStart(s[1..]) else s
  }

  /** `s` without its trailing white space. */
  function TrimEnd(s: string): (r: string)
    ensures |r| <= |s| && r == s[..|r|]
    ensures forall i :: |r| <= i < |s| ==> IsSpace(s[i])
    ensures |r| == 0 || !IsSpace(r[|r| - 1])
  {
    if |s| > 0 && IsSpace(s[|s| - 1]) then TrimEnd(s[..|s| - 1]) else s
  }

  /** `String.prototype.trim`. */
  function Trim(s: string): string
  {
    TrimEnd(TrimStart(s))
  }

  /** A string is falsy after trimming exactly when it consists of white space only. */
  lemma TrimEmptyIffSpaces(s: string)
    ensures Trim(s) == "" <==> forall i :: 0 <= i < |s| ==> IsSpace(s[i])
  {
    var t := TrimStart(s);
    if Trim(s) != "" {
      assert Trim(s)[0] == t[0];
      assert !IsSpace(s[|s| - |t|]);
    }
  }

  /** `s` is white space only, the empty string included: exactly when `s.trim()` is falsy. */
  function Blank(s: string): (r: bool)
  {
    |s| == 0 || (IsSpace(s[0]) && Blank(s[1..]))
  }

  /** `Blank` says every character is white space. */
  lemma {:induction false} BlankIffAllSpaces(s: string)
    ensures Blank(s) <==> forall i :: 0 <= i < |s| ==> IsSpace(s[i])
    decreases |s|
  {
    if |s| > 0 {
      BlankIffAllSpaces(s[1..]);
      assert forall i :: 1 <= i < |s| ==> s[i] == s[1..][i - 1];
    }
  }

  /** `Blank` is the falsiness of `trim`. */
  lemma BlankIffTrimEmpty(s: string)
    ensures Blank(s) <==> Trim(s) == ""
  {
    BlankIffAllSpaces(s);
    TrimEmptyIffSpaces(s);
  }

  /** The lower-case counterpart of a letter; ASCII and Latin-1 capitals are mapped, everything else is kept. */
  function LowerChar(c: char): char
  {
    if 'A' <= c <= 'Z' || ('À' <= c <= 'Þ' && c != '×') then (c as int + 32) as char else c
  }

  /** The upper-case counterpart of a letter; ASCII and Latin-1 small letters are mapped, everything else is kept. */
  function UpperChar(c: char): char
  {
    if 'a' <= c <= 'z' || ('à' <= c <= 'þ' && c != '÷') then (c as int - 32) as char else c
  }

  /** `String.prototype.toLowerCase`, character by character. */
  function ToLower(s: string): (r: string)
    ensures |r| == |s|
    ensures forall i :: 0 <= i < |s| ==> r[i] == LowerChar(s[i])
  {
    if |s| == 0 then "" else [LowerChar(s[0])] + ToLower(s[1..])
  }

  /** `String.prototype.toUpperCase`, character by character. */
  function ToUpper(s: string): (r: string)
    ensures |r| == |s|
    ensures forall i :: 0 <= i < |s| ==> r[i] == UpperChar(s[i])
  {
    if |s| == 0 then "" else [UpperChar(s[0])] + ToUpper(s[1..])
  }

  /** Lower-casing twice is lower-casing once. */
  lemma ToLowerIdempotent(s: string)
    ensures ToLower(ToLower(s)) == ToLower(s)
  {
  }

  /** Lower-casing works piecewise on a concatenation. */
  lemma ToLowerAppend(a: string, b: string)
    ensures ToLower(a + b) == ToLower(a) + ToLower(b)
  {
  }

  /** `s.startsWith(p)`. */
  predicate StartsWith(s: string, p: string)
  {
    |p| <= |s| && s[..|p|] == p
  }

  /** `needle` occurs in `hay` starting at index `i`. */
  predicate OccursAt(hay: string, needle: string, i: int)
  {
    0 <= i && i + |needle| <= |hay| && hay[i..i + |needle|] == needle
  }

  /** `hay.includes(needle)`: the needle occurs at some position of the haystack. */
  function Contains(hay: string, needle: string): (r: bool)
    ensures r <==> exists i :: OccursAt(hay, needle, i)
    decreases |hay|
  {
    if StartsWith(hay, needle) then
      assert OccursAt(hay, needle, 0);
      true
    else if |hay| == 0 then
      false
    else
      var r := Contains(hay[1..], needle);
      assert forall i :: OccursAt(hay[1..], needle, i) ==> OccursAt(hay, needle, i + 1);
      assert forall i :: OccursAt(hay, needle, i) && i > 0 ==> OccursAt(hay[1..], needle, i - 1);
      r
  }

  /** The empty search term occurs in every string, so an empty filter keeps everything. */
  lemma ContainsEmpty(hay: string)
    ensures Contains(hay, "")
  {
    assert OccursAt(hay, "", 0);
  }

  /** Whatever occurs in a string still occurs once more text is appended to it. */
  lemma ContainsExtend(hay: string, more: string, needle: string)
    requires Contains(hay, needle)
    ensures Contains(hay + more, needle)
  {
    var i :| OccursAt(hay, needle, i);
    assert (hay + more)[i..i + |needle|] == hay[i..i + |needle|];
    assert OccursAt(hay + more, needle, i);
  }

  /** `s.split(sep)[0]`: the part of `s` before the first occurrence of `sep`, or all of `s`. */
  function BeforeFirst(s: string, sep: char): (r: string)
    ensures |r| <= |s| && r == s[..|r|]
    ensures sep !in r
    ensures |r| < |s| ==> s[|r|] == sep
  {
    if |s| == 0 || s[0] == sep then "" else [s[0]] + BeforeFirst(s[1..], sep)
  }

  /** Upper-casing is decided character by character. */
  lemma ToUpperByChars(s: string, u: string)
    requires |s| == |u| && forall i :: 0 <= i < |s| ==> UpperChar(s[i]) == u[i]
    ensures ToUpper(s) == u
  {
  }

  /** Lower-casing is decided character by character. */
  lemma ToLowerByChars(s: string, l: string)
    requires |s| == |l| && forall i :: 0 <= i < |s| ==> LowerChar(s[i]) == l[i]
    ensures ToLower(s) == l
  {
  }
}

=== FILE: timeline.dfy ===
/** Client-side time: instants are integer milliseconds since the epoch (UTC); daylight saving is ignored. */
module Timeline {

  /** Milliseconds in a day, the `1000 * 60 * 60 * 24` the client divides by. */
  const DayMs: int := 1000 * 60 * 60 * 24

  /** A `Date`, as its `getTime()` value. */
  type Instant = int

  /** `d.setDate(d.getDate() + days)` on a copy of `t`: the same time of day, `days` calendar days later. */
  function AddDays(t: Instant, days: int): (r: Instant)
    ensures r - t == days * DayMs
  {
    t + days * DayMs
  }

  /** The UTC day number of `t`, i.e. the date `toISOString().split('T')[0]` prints. */
  function DayOf(t: Instant): (d: int)
    ensures d * DayMs <= t < (d + 1) * DayMs
  {
    t / DayMs
  }

  /** `Math.floor((to - from) / DayMs)`: whole days elapsed, rounded down. */
  function FloorDays(from: Instant, to: Instant): (d: int)
    ensures d * DayMs <= to - from < (d + 1) * DayMs
  {
    (to - from) / DayMs
  }

  /** `Math.ceil((to - from) / DayMs)`: the number of days spanned, rounded up. */
  function CeilDays(from: Instant, to: Instant): (d: int)
    ensures (d - 1) * DayMs < to - from <= d * DayMs
  {
    var x := to - from;
    if x % DayMs == 0 then x / DayMs else x / DayMs + 1
  }

  /** A window built by `AddDays` spans exactly its length in days, negative lengths included. */
  lemma CeilDaysOfAddDays(t: Instant, days: int)
    ensures CeilDays(t, AddDays(t, days)) == days
  {
  }

  /** Adding whole days moves the calendar date by the same number of days. */
  lemma DayOfAddDays(t: Instant, days: int)
    ensures DayOf(AddDays(t, days)) == DayOf(t) + days
  {
  }
}

=== FILE: wrappers.dfy ===
/** Failure-carrying values shared by every module of the model. */
module Wrappers {

  /** A value that may be absent: a JavaScript `undefined`/`null`, or a Java `null`. */
  datatype Option<+T> = None | Some(value: T) {

    /** The wrapped value, or `default` when absent. */
    function GetOr(default: T): T {
      match this
      case Some(v) => v
      case None => default
    }
  }

  /** The outcome of an operation that may fail with an error of type E. */
  datatype Result<+T, +E> = Ok(value: T) | Err(error: E) {

    predicate IsFailure() {
      Err?
    }

    function PropagateFailure<U>(): Result<U, E>
      requires Err?
    {
      Err(error)
    }

    function Extract(): T
      requires Ok?
    {
      value
    }
  }
}
